=== FILE: README.md ===
# Rules of an e-commerce REST backend, in Dafny

This project models the decision and bookkeeping rules of a Node/Express
e-commerce backend as pure Dafny functions over immutable records, and proves
what those rules promise. The database is replaced by values. A collection is a
`seq`, the product catalogue is a `map` from product id to price and stock, and a
`findOne`/`findById` lookup is an `Option` input or a first-match search. The
clock (`Date.now()`) and `Math.random()` are parameters. Money is an exact
`real`.

One module per source file of the core:

| module | file | what it holds |
|---|---|---|
| `Common` | — | `Option`, `Result`, catalogue, `Filter`, ASCII case mapping, JavaScript whitespace and `trim` |
| `Decimal` | — | `Number#toString`, `padStart`, `slice(-k)` on digit strings, and reading them back |
| `PromoCodeModel` | src/models/PromoCode.js | the promo record, schema bounds, `isValid`, `canUserUse`, the usage ledger |
| `PromoController` | src/controllers/promoController.js | quote (`validatePromoCode`), redemption (`applyPromoCode`), create, delete, bulk delete |
| `UserModel` | src/models/User.js | the account record, `isLocked`, `incLoginAttempts` |
| `AuthController` | src/controllers/authController.js | `login`, the `knownIps` upsert, `verifyEmailWithCode`, `resendVerification`, `verifyLoginCode` |
| `CartController` | src/controllers/cartController.js | cart lines: add, update, remove, clear |
| `OrderController` | src/controllers/orderController.js | the stock loop, pricing, order number, cancel, view |
| `UserController` | src/controllers/userController.js | the address book: add, update, delete |
| `WishlistController` | src/controllers/wishlistController.js | add, remove, check |
| `ReviewModel` | src/models/Review.js | the review record, rating bounds, `updateProductRating` |
| `ReviewController` | src/controllers/reviewController.js | create, update, helpful toggle, report, approve/reject |
| `CategoryController` | src/controllers/categoryController.js | `getCategoryStats` grouping, filters, sort, totals and pages; slugs; delete guards |

The invariants proved are:
- a redemption keeps a promo's usage within its limits;
- at most one default address;
- no duplicate wishlist entries;
- one cart line per product;
- one known-IP entry per address;
- the helpful list and its counter agree;
- one report per user;
- the rating histogram adds up to the count.

The round trips proved are:
- an order number parses back into its date and suffix;
- cancelling a fresh order restores the stock;
- removing what was just added from a wishlist restores it;
- two helpful toggles cancel;
- a freshly sent verification code verifies.

## Model

| member | source | states |
|---|---|---|
| PromoCodeModel.ValidityConditions | src/models/PromoCode.js:113-121 | An inactive promo is never valid. Outside the inclusive date window it is invalid. With a usage limit reached it is invalid. An active unlimited promo is valid on both the start and the end date. |
| PromoCodeModel.CanUserUse | src/models/PromoCode.js:124-131 | A used first-time-only promo is closed to everyone. A user without a ledger entry may use it. A user with an entry may use it exactly when their count is below the per-user limit. |
| PromoCodeModel.FindUsage | src/models/PromoCode.js:127 | Returns the first ledger entry of the user, or none exactly when the user has no entry. |
| PromoController.FindByCode | src/controllers/promoController.js:14 | Returns the first promo whose code is the upper-cased request code, or none exactly when no promo has it. |
| PromoController.ComputeDiscount | src/controllers/promoController.js:48-57 | A fixed promo gives its value whatever the amount. A percentage gives amount × value / 100. The cap applies only when `maxDiscount` is truthy, so a cap of 0 or none means uncapped. A capped discount is the smaller of the two. |
| PromoController.PercentageWithinAmount | src/controllers/promoController.js:50-54 | A percentage of at most 100 on a non-negative amount gives a discount between 0 and the amount. |
| PromoController.DiscountExamples | src/controllers/promoController.js:50-56 | 20% capped at 30 on 200 gives 30. A cap of 0 does not cap, giving 40. A fixed 15 stays 15 even on an amount of 5. |
| PromoController.ValidatePromo | src/controllers/promoController.js:10-76 | The checks run in order: unknown code, then invalid promo, then below the minimum (only for a truthy amount), then the per-user check (only when a user is given). Success holds exactly when all pass. The quoted discount is 0 for a falsy amount and otherwise the computed discount. |
| PromoController.RecordUsage | src/controllers/promoController.js:181-193 | `usedCount` rises by one. A user without an entry gets a new entry with count 1. A returning user's entry is updated in place. No other promo field changes. |
| PromoController.RecordUsageCounts | src/controllers/promoController.js:183-193 | The redeeming user's count rises by exactly one. Every other user's count is unchanged. |
| PromoController.RecordUsageKeepsInvariant | src/controllers/promoController.js:138-193 | From a valid promo the user may use, a redemption keeps `usedCount <= usageLimit`, every count in 1..`perUserLimit`, one entry per user, and `usedCount` equal to the ledger total. |
| PromoController.ApplyPromo | src/controllers/promoController.js:108-210 | An unknown order and a caller who does not own it are refused before the code is looked up. Success holds exactly when the promo exists, is valid, the total meets the minimum and the caller may use it. The order records code, type, value and amount, with `finalTotal = total − discount`. Only the applied promo's usage changes. |
| PromoController.ApplyPromoAsWritten | src/controllers/promoController.js:170-178 | As written, every request that passes the order, code, validity, minimum and usage checks ends in the save error; no request changes the order or the promos. |
| PromoController.ApplyAsWrittenNeverRedeems | src/models/Order.js:81-84 | For a valid 10% code on a 100.00 order, the corrected redemption records one use, while the code as written answers with the save error. |
| PromoController.ApplyKeepsInvariant | src/controllers/promoController.js:138-195 | A successful redemption keeps every stored promo's invariant. It changes only the applied promo, whose `usedCount` and caller count each rise by one. |
| PromoController.QuoteMatchesApply | src/controllers/promoController.js:32-57 | For a non-zero order total, a quote for the order's owner and the redemption give the same verdict, the same error and the same discount. |
| PromoController.ZeroTotalQuoteDiffers | src/controllers/promoController.js:32 | With a zero total, the quote skips the minimum check while the redemption's check at line 145 still refuses, so the two disagree. |
| PromoController.FixedDiscountCanExceedTotal | src/controllers/promoController.js:166-177 | A fixed discount above the order total leaves a negative `finalTotal`. |
| PromoController.RedeemedPromoLimits | src/models/PromoCode.js:124-131 | After a redemption, a user at the per-user limit is refused, a single-use-per-user promo refuses the same user, and a first-time-only promo refuses everybody. |
| PromoController.NewPromo | src/controllers/promoController.js:248-265 | A created promo has the upper-cased code, no uses and an empty ledger. Defaults: minimum 0, per-user limit 1, not first-time-only, active. It satisfies the stored-promo invariant. |
| PromoController.CreatePromo | src/controllers/promoController.js:239-265 | A code that already exists once upper-cased is refused. Otherwise the promo is appended, codes stay unique, and the code now finds the new promo. |
| PromoController.DeletePromo | src/controllers/promoController.js:569-597 | An unknown id and a promo used at least once are refused. Otherwise exactly that promo is removed and the others keep their order. |
| PromoController.BulkDeletePromos | src/controllers/promoController.js:602-636 | A missing or empty id list is refused. If any selected promo was used, nothing is deleted and the refusal lists exactly the codes of the used selected promos. Otherwise exactly the selected promos are removed. |
| PromoController.UsedPromoNeverDeleted | src/controllers/promoController.js:569-636 | A promo with `usedCount > 0` survives both single and bulk delete. |
| UserModel.NewAccount | src/models/User.js:44-60 | A new account has the customer role, is unverified, has no failed attempts and no lock. |
| UserModel.IncLoginAttempts | src/models/User.js:96-113 | An expired lock restarts the count at 1 and is cleared. Otherwise the count rises by one. Reaching five on an unlocked account sets a lock 30 minutes from now. An existing lock is not extended. Nothing else changes. |
| UserModel.LockBoundary | src/models/User.js:91-103 | A lock time equal to now is neither a lock nor an expired lock, so the attempt is added to the old count, and at five the account relocks. |
| UserModel.FifthFailureLocks | src/models/User.js:106-111 | From a clean account, four failures only count, and the fifth locks for 30 minutes from that failure. |
| AuthController.UpsertKnownIp | src/controllers/authController.js:253-263 | A new address is appended with first-seen and last-used set to now. A known address only gets `lastUsed` refreshed. Other entries are unchanged. One entry per address is kept. |
| AuthController.UpsertIdempotentOnLength | src/controllers/authController.js:253-263 | Signing in again from the same address does not grow the list. |
| AuthController.MinutesLeft | src/controllers/authController.js:210 | `Math.ceil(ms / 60000)`: the least whole number of minutes covering the remaining lock. |
| AuthController.AgentOr | src/controllers/authController.js:197 | The recorded agent is never empty: the header when it is present and non-empty, otherwise "Unknown" (`||` treats "" as falsy). |
| AuthController.Login | src/controllers/authController.js:193-285 | The steps run in order: unknown e-mail, lock (with minutes left), wrong password (which counts a failure), unverified (nothing saved). Success resets attempts and lock, records the last login, and upserts the IP. A missing or empty User-Agent is recorded as "Unknown". |
| AuthController.EmptyAgentRecordedUnknown | src/controllers/authController.js:197-266 | A sign-in with an empty User-Agent records "Unknown" both as the last login's agent and as the agent of a newly remembered IP. |
| AuthController.UnknownEmailIndistinguishable | src/controllers/authController.js:201-225 | An unknown e-mail and a wrong password get the same answer. |
| AuthController.LockedRefusesRightPassword | src/controllers/authController.js:209-215 | A locked account refuses even the right password and shows 1 to 30 minutes. |
| AuthController.WrongPasswordsCount | src/controllers/authController.js:218-225 | Up to five wrong-password sign-ins in a row, starting from an unlocked account, are exactly that many `incLoginAttempts` at the given times. |
| AuthController.FiveWrongPasswordsLockOut | src/controllers/authController.js:209-225 | After five wrong passwords, the right one is refused for the next 30 minutes. |
| AuthController.VerifyEmailWithCode | src/controllers/authController.js:456-498 | A missing user is refused. A missing, empty or different code is refused before expiry is looked at. An expired code is refused. Success verifies the account and clears both code fields. |
| AuthController.VerificationNumber | src/controllers/authController.js:520 | `Math.floor(100000 + r × 900000)` lies in 100000..999999. |
| AuthController.VerificationCodeHasSixDigits | src/controllers/authController.js:520 | The code is six decimal digits. |
| AuthController.ResendVerification | src/controllers/authController.js:500-536 | An unknown or verified user is refused. Otherwise a six-digit code valued 100000..999999 is stored, expiring in ten minutes, and nothing else changes. |
| AuthController.ResendThenVerify | src/controllers/authController.js:470-489 | A freshly sent code verifies the account within ten minutes and is reported expired after. |
| AuthController.VerifyLoginCode | src/controllers/authController.js:292-364 | Success holds exactly when the stored login code equals the one given and has not expired. It upserts the IP, clears the four pending-login fields, records the last login, and leaves the lock state alone. A missing or empty User-Agent is recorded as "Unknown". |
| AuthController.LoginCodeSingleUse | src/controllers/authController.js:307-337 | A login code that succeeded is refused when used again. |
| CartController.FindProductLine | src/controllers/cartController.js:55-57 | The first line holding the product: it holds it and no earlier line does. None exactly when no line holds it. |
| CartController.FindLine | src/controllers/cartController.js:103 | The first line with the id: it has the id and no earlier line does. None exactly when no line has it. |
| CartController.AddToCart | src/controllers/cartController.js:28-84 | An unknown product or a stock below the quantity (default 1) is refused. A product already in the cart gets old + new quantity when the stock covers it, else it is refused. A new product is appended as one line. Success holds exactly when the respective stock check passes. |
| CartController.AddToCartKeepsLinesUnique | src/controllers/cartController.js:55-72 | A successful add keeps one line per product and distinct line ids. |
| CartController.UpdateCartItem | src/controllers/cartController.js:89-138 | A missing cart or unknown line is refused. Success holds exactly when the stock covers the quantity. A quantity of 0 or less removes the line. Otherwise only that line's quantity is replaced. |
| CartController.RemoveLineById | src/controllers/cartController.js:173 | With distinct line ids, filtering out an id removes exactly that position and keeps the rest in order. |
| CartController.RemoveFromCart | src/controllers/cartController.js:143-191 | A missing cart or absent id is refused. Otherwise the line is gone, the cart is shorter, and with distinct ids only that line is removed. |
| CartController.ClearCart | src/controllers/cartController.js:196-211 | An existing cart is emptied; a missing cart stays missing. |
| CartController.UpdateKeepsLinesUnique | src/controllers/cartController.js:89-138 | A successful quantity update, including the removal at quantity 0 or less, keeps at most one line per product and distinct line ids. |
| CartController.RemoveAndClearKeepLinesUnique | src/controllers/cartController.js:143-211 | Removing a line and clearing the cart keep the cart's invariant: at most one line per product and distinct line ids. |
| OrderController.PriceOf | src/controllers/orderController.js:126-128 | Shipping is 0 exactly when the subtotal exceeds 100, otherwise 10. Tax is 8% of the subtotal. The total is their sum. |
| OrderController.FreeShippingCliff | src/controllers/orderController.js:126-128 | A subtotal of 100 costs 118 in total, more than the 108.54 of a subtotal of 100.50. |
| OrderController.RandomSuffix | src/controllers/orderController.js:160 | `Math.floor(r × 10000)` is below 10000 and is the floor of r × 10000. |
| OrderController.OrderNumberRoundTrip | src/controllers/orderController.js:156-161 | `ORD-YYMMDD-NNNN` is 15 characters and parses back to year mod 100, month, day and suffix. |
| OrderController.OrderNumberFor | src/controllers/orderController.js:156-161 | The order number of a date and a draw has the `ORD-YYMMDD-NNNN` layout and carries month+1, day and the suffix. |
| OrderController.FindDefault | src/controllers/orderController.js:134 | The first default address, or none exactly when there is none. |
| OrderController.OrderRequests | src/controllers/orderController.js:79-89 | The order lines are the request's items when given, else the cart's lines. |
| OrderController.ReserveStock | src/controllers/orderController.js:95-123 | On success every line's quantity is deducted, no stock goes negative, and lines are priced at the current price with subtotal Σ price × quantity. On failure the loop stopped at the first line that fails. That line names an unknown product (`ProductNotFound` exactly then) or has stock below its quantity. Every earlier line names a known product, and the earlier lines stay deducted. |
| OrderController.CreateOrder | src/controllers/orderController.js:74-189 | The request is refused as `CartEmpty` exactly when it has no items and the cart is missing or empty. Otherwise: stock loop, pricing, shipping address (the one given, else the first default address; with neither the request is refused after every line's product was found and its stock taken), order number. The new order is pending and owned by the caller. The cart is deleted when the lines came from it. |
| OrderController.Restock | src/controllers/orderController.js:222-226 | Each product's stock rises by its ordered quantity; prices and the product set are unchanged. |
| OrderController.CancelOrder | src/controllers/orderController.js:194-238 | Success holds exactly for the owner and a pending order. The stock is restored line by line and the status becomes cancelled. |
| OrderController.CancelUndoesCreate | src/controllers/orderController.js:222-229 | Cancelling a freshly placed order restores exactly the stock before it. A second cancel is refused. |
| OrderController.ViewOrder | src/controllers/orderController.js:42-69 | The order is shown exactly to its owner or an administrator. |
| UserController.FindAddress | src/controllers/userController.js:75 | The first address with the id, or none exactly when there is none. |
| UserController.AddAddress | src/controllers/userController.js:48-67 | A default address clears every existing default before it is appended. A non-default one leaves the book unchanged before it. At most one default is kept. |
| UserController.AddDefaultIsOnlyDefault | src/controllers/userController.js:53-57 | After adding a default address it is the only default. |
| UserController.Merge | src/controllers/userController.js:89 | `Object.assign`: each field of the patch that is present replaces the stored one, and the id stays. |
| UserController.UpdateAddress | src/controllers/userController.js:72-99 | An unknown id is refused with no change. Making a non-default address default clears the other flags. The entry becomes the merge of the patch into it, and no other entry changes except for cleared flags. |
| UserController.UpdateKeepsOneDefault | src/controllers/userController.js:85-89 | An update keeps at most one default address. |
| UserController.DeleteAddress | src/controllers/userController.js:104-117 | Exactly the addressed entry is removed and the rest keep their order. An unknown id fails. At most one default is kept. |
| WishlistController.CheckWishlist | src/controllers/wishlistController.js:107-124 | True exactly when a wishlist exists and holds the product. |
| WishlistController.AddToWishlist | src/controllers/wishlistController.js:29-71 | An unknown product is refused, then one already present. Otherwise the product is appended, creating the list, and the list stays free of duplicates. |
| WishlistController.RemoveFromWishlist | src/controllers/wishlistController.js:76-102 | A missing wishlist is refused. Otherwise the product is gone, every other product keeps its presence, and an absent product is a no-op. |
| WishlistController.AddThenRemove | src/controllers/wishlistController.js:49-90 | Removing a product just added gives back the original list. |
| ReviewModel.ApprovedRatings | src/models/Review.js:115 | The ratings of the product's approved reviews, each in 1..5; empty when none is approved. |
| ReviewModel.UncountedIrrelevant | src/models/Review.js:115 | Replacing a review that is not approved for the product by another that is not changes nothing in the rating input. |
| ReviewModel.BreakdownCoversAll | src/models/Review.js:128-131 | The five star counts of ratings in 1..5 add up to the number of ratings. |
| ReviewModel.Breakdown | src/models/Review.js:127-131 | Entry k of the histogram is the number of ratings equal to k + 1. |
| ReviewModel.UpdateProductRating | src/models/Review.js:108-145 | The count is the number of approved reviews. Breakdown entry k counts the ratings k + 1 and the entries sum to the count. The average times the count is the rating sum, between 1 and 5. With no approved review, everything is 0. |
| ReviewModel.Mean | src/models/Review.js:119 | `$avg` over ratings in 1..5: times their number it is their sum, and it lies in 1..5. |
| ReviewController.FindPurchase | src/controllers/reviewController.js:25-29 | The first delivered order of the user containing the product: no earlier order proves the purchase. None exactly when there is none. |
| Common.Trim | src/models/Review.js:25-36 | The schema's `trim: true`: the result is empty exactly when the string is all whitespace, otherwise it starts and ends with a non-space. |
| Common.TrimKeepsCore | src/models/Review.js:25-36 | Trimming returns exactly the block between the leading and the trailing whitespace. |
| Common.TrimIdempotent | src/models/Review.js:25-36 | A trimmed string trims to itself. |
| ReviewController.CreateReview | src/controllers/reviewController.js:10-73 | An unknown product, then a user without a delivered purchase, then a second review, are refused. A title or comment that is empty after the schema's trim fails the `required` check. Success holds exactly when none of these applies. A new review stores the trimmed title and comment, is pending and a verified purchase, has no helpful marks or reports, and is appended. One review per user per product is kept. |
| ReviewController.CreateLeavesRatingsAlone | src/controllers/reviewController.js:61 | A new review is pending, so no product's rating input changes. |
| ReviewController.FindReview | src/controllers/reviewController.js:142-145 | The first review with the id, owned by the caller when an owner is given: no earlier review matches both. |
| ReviewController.UpdateReview | src/controllers/reviewController.js:137-175 | Only the caller's own review, and not once approved. Falsy fields keep the old value, other fields are replaced. The title and comment are stored trimmed, and the save fails exactly when either is then empty. No other review changes. |
| ReviewController.UpdateLeavesRatingsAlone | src/controllers/reviewController.js:154-164 | An accepted edit changes no product's rating input. |
| ReviewController.MarkHelpful | src/controllers/reviewController.js:208-249 | A user already in the list is taken out and the counter decremented. Otherwise they are appended and it is incremented. No other user's mark changes. A list of distinct users matching the counter stays so. |
| ReviewController.HelpfulTwiceRestores | src/controllers/reviewController.js:220-235 | Two toggles by the same user restore the same set of marks and the same counter, and the same review when the user had no mark. |
| ReviewController.ReportReview | src/controllers/reviewController.js:254-295 | A second report by the same user is refused. Otherwise one report is appended, the counter rises by one, and one report per user is kept. |
| ReviewController.SecondReportRefused | src/controllers/reviewController.js:267-277 | Reporting the same review twice is always refused the second time. |
| ReviewController.Moderate | src/controllers/reviewController.js:401-451 | An unknown id is refused. Otherwise that review gets the new status from any prior status, and nothing else changes. |
| ReviewController.ModerationMovesCount | src/controllers/reviewController.js:401-451 | Approving a review adds one to its product's approved count unless it was already approved. Rejecting removes one exactly when it was approved. |
| CategoryController.Rows | src/controllers/categoryController.js:21-60 | One row per category key, counting that key's products. |
| CategoryController.RowsCountCovered | src/controllers/categoryController.js:23-25 | With distinct keys, the rows together count every product whose category is a key, once. |
| CategoryController.WithUncategorized | src/controllers/categoryController.js:77-114 | The "Uncategorized" row is appended exactly when it counts some product. |
| CategoryController.BaseRowsCountEachProductOnce | src/controllers/categoryController.js:61-114 | With null and empty names both excluded, the rows plus "Uncategorized" count every product exactly once. |
| CategoryController.BaseRowsAsWrittenDoubleCount | src/controllers/categoryController.js:61-114 | With the `$match` as written, the rows count every product once plus the uncategorized ones a second time. |
| CategoryController.NullCategoryCountedTwice | src/controllers/categoryController.js:61-65 | One product without a category is counted twice as written and once when corrected. |
| CategoryController.SearchFilter | src/controllers/categoryController.js:116-122 | An empty search keeps all rows. Otherwise a row is kept exactly when its lower-cased name contains the lower-cased search. |
| CategoryController.ProductsFilter | src/controllers/categoryController.js:124-129 | `"true"` keeps exactly the rows with products, `"false"` exactly those without, anything else keeps all. |
| CategoryController.SortKeyOf | src/controllers/categoryController.js:135-150 | `name` and `totalValue` choose their keys; `productCount` and any other value sort by product count. |
| CategoryController.AscReversesDesc | src/controllers/categoryController.js:138-152 | The ascending order is the descending order reversed, for every key. |
| CategoryController.LeTotal | src/controllers/categoryController.js:132-153 | The comparator relates any two rows. |
| CategoryController.LeTrans | src/controllers/categoryController.js:132-153 | The comparator is transitive. |
| CategoryController.SortRows | src/controllers/categoryController.js:132-153 | The sorted rows are a permutation of the filtered rows. |
| CategoryController.SortRowsSorted | src/controllers/categoryController.js:132-153 | The sorted rows are in the comparator's order. |
| CategoryController.ComputeStats | src/controllers/categoryController.js:156-159 | Totals: the number of rows, the sum of product counts and values, and the number of rows with products. |
| CategoryController.Page | src/controllers/categoryController.js:161-164 | For page ≥ 1 the page is the rows from (page − 1) × limit, at most limit of them, clipped at the end. Page 0 is empty. |
| CategoryController.PageCount | src/controllers/categoryController.js:165 | `Math.ceil(n / limit)`: the fewest pages of `limit` rows holding n rows. |
| CategoryController.RowOnItsPage | src/controllers/categoryController.js:161-165 | Row i is on page i / limit + 1 at position i mod limit, and that page is among the counted pages. |
| CategoryController.ListCategories | src/controllers/categoryController.js:116-185 | The totals and `total` are taken over every selected row before paging. The rows are sorted and a permutation of the filtered ones. The page and the page count follow from them. |
| CategoryController.CategoryStats | src/controllers/categoryController.js:9-189 | With corrected grouping, every listed row has a name, and with no search or product filter the product total is the number of products. |
| CategoryController.CategoryStatsAsWritten | src/controllers/categoryController.js:9-189 | As written, the request fails exactly when a search, or a name sort over at least two rows, reaches the null-named row. Otherwise, with no filter, the product total counts uncategorized products twice. |
| CategoryController.Slug | src/controllers/categoryController.js:259 | `toLowerCase().replace(/\s+/g, '-')` leaves no whitespace and is no longer than the name. A name without whitespace is only lower-cased. |
| CategoryController.ReplaceKeepsPlainText | src/controllers/categoryController.js:259 | `replace(/\s+/g, '-')` copies a prefix without whitespace unchanged and carries on with the rest: replacing in x + y gives x followed by the replacement of y. |
| CategoryController.ReplaceRunByOneDash | src/controllers/categoryController.js:259 | A whole run of whitespace (one or more characters, followed by a non-space or the end) becomes a single `-` followed by the replacement of the rest. |
| CategoryController.ReplaceSpaceRuns | src/controllers/categoryController.js:259 | Each maximal whitespace run becomes one `-` (with `ReplaceKeepsPlainText` and `ReplaceRunByOneDash`): no whitespace remains, the result is no longer, and a string without whitespace is unchanged. |
| CategoryController.SlugIdempotent | src/controllers/categoryController.js:259 | A slug is its own slug; the same expression recurs at lines 293, 344 and 394. |
| CategoryController.SlugsDisagreeOnDoubleSpace | src/controllers/categoryController.js:40-48 | The aggregation's slug (each single space becomes `-`) and the handlers' slug of line 259 differ on "A  B". |
| CategoryController.DeleteCategory | src/controllers/categoryController.js:410-433 | Refused, with the count, exactly while some product carries the name. |
| CategoryController.BulkDeleteCategories | src/controllers/categoryController.js:477-508 | A missing or empty list is refused. Otherwise success holds exactly when no product uses any of the names, and the refusal lists the used names. |
| Decimal.NatToStringRoundTrip | src/controllers/orderController.js:157-160 | Reading back the decimal string of a number gives the number. |
| Decimal.PaddedRoundTrip | src/controllers/orderController.js:158-160 | A zero-padded decimal string reads back as the number. |
| Decimal.LastTwoDigits | src/controllers/orderController.js:157 | `slice(-2)` of a year of two or more digits is two digits worth the year mod 100. |
| Decimal.PadStart | src/controllers/orderController.js:158-160 | `padStart` pads on the left to the width and keeps the string as its suffix. |

## Left out

- Persistence: queries, `populate`, `save`, aggregation pipelines and text search are replaced by values. The grouping order of `$group` is an input (`keys`).
- Concurrency: every handler is one atomic step. The read-modify-write races in `applyPromoCode` and the stock loop are not modelled.
- Password hashing, JWT, and the SHA-256/MD5 token hashes are left out. "The password matches" is a boolean input.
- E-mail and payment services: sending the verification code is left out, and its value is stored.
- HTTP routing and middleware are left out; their validators appear only as preconditions. This applies to the cart quantity ≥ 1 (1 when absent), the order item quantity ≥ 1 (checked only when present, see below), the rating 1..5, and the promo create body. The category list route has no validator for `limit`.
- `parseInt` of a non-numeric page or limit (NaN), and a limit of 0 or less, are left out. `CategoryStats`, `ListCategories` and `Page` require `limit >= 1`.
- CategoryController.Page: for a negative page the contract states only the length bound and that the rows come from the list, not which slice `slice` returns.
- Product and admin CRUD and the Category.js model are not part of this model. Neither are `register`, `forgotPassword`, `resetPassword`, `logout`, `getMe`, `refreshToken` and the token-based `verifyEmail`.
- Other read-only or pass-through handlers are not modelled, because they have no rules of their own:
  - `getValidPromoCodes`, `getPromoCodes`, `getPromoCodeStats`, `exportPromoCodes`, `getPromoCode`, `updatePromoCode`, `togglePromoCode`, `bulkUpdatePromoStatus`;
  - `getMyOrders`, `getCart`, `getWishlist`, `getProfile`, `updateProfile`, `changePassword`;
  - `getProductReviews`, `deleteReview`, `getAllReviews`, `getReviewById`, `replyToReview`, `deleteReviewAdmin` and the bulk review handlers;
  - `getCategoryByName`, `getCategoryList`, `createCategory`, `updateCategory`, `toggleCategoryStatus`, `bulkUpdateCategoryStatus`, `mergeCategories`.
- Floating point: money is an exact `real`. `toFixed` and `avgProductsPerCat` are left out. `localeCompare` is modelled as code-point lexicographic order. `toLowerCase`/`toUpperCase` change only the ASCII letters.
- OrderController.CreateOrder / ReserveStock: the order route checks an item's quantity only when the item has one (src/routes/orderRoutes.js:18). An item without a quantity reaches the stock loop, where `product.stock < undefined` is false and `product.stock -= undefined` makes the stock NaN. `product.save()` then rejects it with a 500, after the earlier lines' deductions were saved. The model's line requests always carry a quantity of at least 1, so this path and its partial deduction are not modelled.
- The promo fields `applicableProducts`, `applicableCategories` and `excludedProducts` are stored but never evaluated, so they are left out. The schema's `trim` of the code is left out too.
- PromoController.ApplyPromo: models the evidently intended redemption (see Findings). As written, src/models/Order.js:81-84 declares `discount` as a Number, so the object assigned at src/controllers/promoController.js:171-176 fails the cast and `order.save()` rejects before the usage update; `PromoController.ApplyPromoAsWritten` models that. The schema also has no `finalTotal`, which Mongoose's strict mode would drop; the model records it as the controller intends.
- PromoController.ValidatePromo / ApplyPromo: neither route has a validator, so a request without a string `code` throws a TypeError at `code.toUpperCase()` (src/controllers/promoController.js:14 and :128), which Express answers with a 500. The model's `code` is always a string.
- PromoController.ValidatePromo: `orderAmount` is taken as a number. A form-encoded body (src/app.js:83) or a JSON string carries it as a string, and the string "0" is truthy, so `orderAmount && …` at src/controllers/promoController.js:32 runs the minimum check that the model skips for `Some(0.0)`.
- CartController.AddToCart: `quantity` is taken as a number. The validator `isInt` (src/routes/cartRoutes.js:18) accepts the string "2" from a form-encoded or JSON body and leaves it a string, so `existingItem.quantity + quantity` at src/controllers/cartController.js:61 concatenates (3 + "2" is "32"). The model adds the numbers.
- UserController.AddAddress / UpdateAddress: `isDefault` is taken as a boolean. `isBoolean` (src/routes/userRoutes.js:30) accepts the strings "false" and "0" and leaves them strings, which are truthy, so src/controllers/userController.js:53 and :85 clear every stored default while Mongoose saves the address itself with `isDefault` false. The model reads such a value as false.
- `estimatedDelivery`, and the customer name, e-mail and phone copied into the shipping address, are left out. Only the address fields are modelled.
- A cart line whose product has been deleted dereferences `null` in `updateCartItem`. The model reports it as `ProductNotFound`.
- A cart line whose product has been deleted is populated as `null`, so `item.product._id` throws in `createOrder` (src/controllers/orderController.js:96), which Express answers with a 500. The model reports it as `ProductNotFound`.
- An unknown address id makes `user.addresses.id(id).remove()` throw in `deleteAddress` (src/controllers/userController.js:106), which Express answers with a 500. The model reports it as `AddressNotFound`.
- Four category handlers call `decodeURIComponent` on a route parameter that Express has already decoded, for example `deleteCategory` (src/controllers/categoryController.js:413). A name holding a literal `%` not followed by two hex digits throws `URIError` there. Decoding is left out: the model takes the name as given.
- `verifyLoginCode` with no stored code compares `undefined` with the code; the route's six-character validator means this never matches. The model treats a missing code as no match.

## Findings

| source | as written | input that shows it | evidently intended | confidence | as-written member | corrected member |
|---|---|---|---|---|---|---|
| src/controllers/promoController.js:171-178 | `order.discount` is assigned an object, but src/models/Order.js:81-84 declares `discount` as a Number, so the cast fails and `await order.save()` rejects. The usage update that follows never runs. | Any order of the caller with a valid promo it meets, e.g. a 10% code on a 100.00 order: the answer is a 500, and neither the order nor the promo changes. | Store the discount on the order (a sub-document `discount` and a `finalTotal` path in the schema) and record the caller's use of the promo. | not executed | PromoController.ApplyPromoAsWritten | PromoController.ApplyPromo |
| src/controllers/categoryController.js:61-65 | `{ $ne: null, $ne: '' }` repeats a key in an object literal, so only `$ne: ''` survives. The group of products with no category (`_id: null`) stays in the list beside "Uncategorized". | One product with no category: `totalProducts` is 2 instead of 1. A non-empty search, or a name sort of two or more rows, calls `toLowerCase` on the null name and the request fails. | Exclude both null and empty names, so that each product is counted once and every listed row has a name. | not executed | CategoryController.CategoryStatsAsWritten | CategoryController.CategoryStats |

=== FILE: auth_controller.dfy ===
/** The sign-in decisions of controllers/authController.js: `login`, the
    e-mail verification code (`verifyEmailWithCode`, `resendVerification`),
    the login verification code (`verifyLoginCode`), and the bookkeeping of
    known IP addresses. The account found by e-mail is an input (`None` when
    there is none); the password comparison is the boolean `passwordMatches`;
    the clock and `Math.random()` are parameters. Each operation returns the
    account as stored afterwards. */
module AuthController {
  import opened Common
  import opened Decimal
  import opened UserModel

  /** Ten minutes, in milliseconds: the life of an e-mail verification code. */
  const CodeLifetime: int := 10 * 60 * 1000
  const MinuteMs: int := 60000
  /** The `User-Agent` used when the request has none. */
  const UnknownAgent: string := "Unknown"

  /** Index of the known-IP entry with the given address (`Array.find`). */
  function FindIp(ips: seq<KnownIp>, address: string): (r: Option<nat>)
    ensures r.Some? ==> r.value < |ips| && ips[r.value].address == address
    ensures r.Some? ==> forall j :: 0 <= j < r.value ==> ips[j].address != address
    ensures r.None? <==> forall j :: 0 <= j < |ips| ==> ips[j].address != address
  {
    if |ips| == 0 then None
    else if ips[0].address == address then Some(0)
    else match FindIp(ips[1..], address)
      case None => None
      case Some(i) => Some(i + 1)
  }

  /** Records a sign-in from `address`: an address seen before has its
      `lastUsed` refreshed, a new one is appended with both times set to now.
      Entries for other addresses are untouched. */
  function UpsertKnownIp(ips: seq<KnownIp>, address: string, agent: string, now: Time): (r: seq<KnownIp>)
    ensures FindIp(ips, address).Some? ==> |r| == |ips|
    ensures FindIp(ips, address).None? ==> r == ips + [KnownIp(address, agent, now, now)]
    ensures forall j :: 0 <= j < |ips| && ips[j].address != address ==> r[j] == ips[j]
    ensures FindIp(ips, address).Some? ==> var i := FindIp(ips, address).value;
      r[i] == ips[i].(lastUsed := now)
    ensures DistinctIps(ips) ==> DistinctIps(r)
  {
    match FindIp(ips, address)
    case Some(i) => ips[i := ips[i].(lastUsed := now)]
    case None => ips + [KnownIp(address, agent, now, now)]
  }

  /** With one entry per address, signing in again from a known address
      keeps the list the same length: repeated sign-ins never grow it. */
  lemma UpsertIdempotentOnLength(ips: seq<KnownIp>, address: string, agent: string, now: Time, later: Time)
    ensures var once := UpsertKnownIp(ips, address, agent, now);
      |UpsertKnownIp(once, address, agent, later)| == |once|
    ensures |UpsertKnownIp(ips, address, agent, now)| <= |ips| + 1
  {
    var once := UpsertKnownIp(ips, address, agent, now);
    match FindIp(ips, address)
    case Some(i) =>
      assert once[i].address == address;
    case None =>
      assert once[|ips|].address == address;
  }

  datatype LoginOutcome =
    | InvalidCredentials
    | AccountLocked(minutes: int)
    | EmailNotVerified
    | LoggedIn

  /** The answer and the account as stored after the request. */
  datatype LoginResult = LoginResult(outcome: LoginOutcome, stored: Option<Account>)

  /** `Math.ceil(ms / 60000)` for a positive number of milliseconds. */
  function MinutesLeft(ms: int): (m: int)
    requires ms > 0
    ensures m >= 1
    ensures (m - 1) * MinuteMs < ms <= m * MinuteMs
  {
    (ms + MinuteMs - 1) / MinuteMs
  }

  /** `req.headers['user-agent'] || 'Unknown'`: a missing or empty header
      is recorded as "Unknown". */
  function AgentOr(agent: Option<string>): (r: string)
    ensures r != ""
    ensures agent.Some? && agent.value != "" ==> r == agent.value
    ensures agent.None? || agent.value == "" ==> r == UnknownAgent
  {
    if agent.Some? && agent.value != "" then agent.value else UnknownAgent
  }

  /** `login`. An unknown e-mail is rejected as invalid credentials; a
      locked account is rejected with the minutes left, before the password
      is looked at; a wrong password counts a failed attempt and is rejected
      exactly like an unknown e-mail; a right password on an unverified
      account is rejected without storing anything (the reset of the
      attempts is not saved); otherwise the attempts and the lock are
      cleared, the last login is recorded and the address is remembered. */
  function Login(user: Option<Account>, passwordMatches: bool, ip: string, agent: Option<string>, now: Time):
    (r: LoginResult)
    ensures user.None? ==> r == LoginResult(InvalidCredentials, None)
    ensures user.Some? && IsLocked(user.value, now) ==>
      && r.outcome == AccountLocked(MinutesLeft(user.value.lockUntil.value - now))
      && r.stored == user
    ensures user.Some? && !IsLocked(user.value, now) && !passwordMatches ==>
      r == LoginResult(InvalidCredentials, Some(IncLoginAttempts(user.value, now)))
    ensures user.Some? && !IsLocked(user.value, now) && passwordMatches && !user.value.isVerified ==>
      r == LoginResult(EmailNotVerified, user)
    ensures r.outcome == LoggedIn <==>
      user.Some? && !IsLocked(user.value, now) && passwordMatches && user.value.isVerified
    ensures r.outcome == LoggedIn ==> r.stored.Some?
    ensures r.outcome == LoggedIn ==> var a := user.value; var s := r.stored.value;
      var ua := AgentOr(agent);
      && s.loginAttempts == 0 && s.lockUntil.None?
      && s.lastLogin == Some(LoginInfo(ip, ua, now))
      && s.knownIps == UpsertKnownIp(a.knownIps, ip, ua, now)
      && s == a.(loginAttempts := 0, lockUntil := None, lastLogin := s.lastLogin, knownIps := s.knownIps)
  {
    match user
    case None => LoginResult(InvalidCredentials, None)
    case Some(a) =>
      if IsLocked(a, now) then
        LoginResult(AccountLocked(MinutesLeft(a.lockUntil.value - now)), user)
      else if !passwordMatches then
        LoginResult(InvalidCredentials, Some(IncLoginAttempts(a, now)))
      else if !a.isVerified then
        LoginResult(EmailNotVerified, user)
      else
        var ua := AgentOr(agent);
        LoginResult(LoggedIn, Some(a.(
          loginAttempts := 0,
          lockUntil := None,
          lastLogin := Some(LoginInfo(ip, ua, now)),
          knownIps := UpsertKnownIp(a.knownIps, ip, ua, now))))
  }

  /** A sign-in with an empty User-Agent header records "Unknown" as the
      last login's agent and as the agent of a newly remembered address. */
  lemma EmptyAgentRecordedUnknown(a: Account, ip: string, now: Time)
    requires !IsLocked(a, now) && a.isVerified
    ensures var s := Login(Some(a), true, ip, Some(""), now).stored.value;
      && s.lastLogin == Some(LoginInfo(ip, UnknownAgent, now))
      && (FindIp(a.knownIps, ip).None? ==> s.knownIps[|s.knownIps| - 1] == KnownIp(ip, UnknownAgent, now, now))
  {
  }

  /** An unknown e-mail and a wrong password get the same answer, so the
      answer does not reveal whether an account exists. */
  lemma UnknownEmailIndistinguishable(a: Account, ip: string, agent: Option<string>, now: Time)
    requires !IsLocked(a, now)
    ensures Login(None, false, ip, agent, now).outcome == Login(Some(a), false, ip, agent, now).outcome
  {
  }

  /** While locked, even the right password is refused, and the wait shown
      is between 1 and 30 minutes for a lock set by a failed attempt. */
  lemma LockedRefusesRightPassword(a: Account, ip: string, agent: Option<string>, now: Time)
    requires IsLocked(a, now) && a.lockUntil.value <= now + LockDuration
    ensures Login(Some(a), true, ip, agent, now).outcome.AccountLocked?
    ensures 1 <= Login(Some(a), true, ip, agent, now).outcome.minutes <= 30
  {
  }

  /** Wrong-password sign-ins at the given times, one after another, each
      starting from the account the previous one stored. */
  function WrongPasswords(a: Account, times: seq<Time>, ip: string): (s: Account)
    decreases |times|
  {
    if |times| == 0 then a
    else
      var r := Login(Some(a), false, ip, None, times[0]);
      WrongPasswords(r.stored.GetOr(a), times[1..], ip)
  }

  /** From no attempts and no lock, up to five wrong-password sign-ins are
      exactly `incLoginAttempts` applied at each time. */
  lemma {:induction false} WrongPasswordsCount(a: Account, times: seq<Time>, ip: string)
    requires a.lockUntil.None? && a.loginAttempts >= 0
    requires a.loginAttempts + |times| <= MaxLoginAttempts
    ensures WrongPasswords(a, times, ip) == FailAt(a, times)
    decreases |times|
  {
    if |times| > 0 {
      var b := IncLoginAttempts(a, times[0]);
      assert Login(Some(a), false, ip, None, times[0]).stored == Some(b);
      if |times| > 1 {
        WrongPasswordsCount(b, times[1..], ip);
      } else {
        assert times[1..] == [];
      }
    }
  }

  /** Five wrong passwords lock the account: for thirty minutes after the
      fifth, the right password is refused as locked. */
  lemma FiveWrongPasswordsLockOut(a: Account, times: seq<Time>, ip: string, t: Time)
    requires a.loginAttempts == 0 && a.lockUntil.None?
    requires |times| == 5 && times[4] <= t < times[4] + LockDuration
    ensures Login(Some(WrongPasswords(a, times, ip)), true, ip, None, t).outcome.AccountLocked?
  {
    WrongPasswordsCount(a, times, ip);
    FifthFailureLocks(a, times);
  }

  datatype VerifyError = UserNotFound | InvalidCode | CodeExpired | AlreadyVerified | InvalidOrExpiredCode

  /** A stored expiry that has passed. A missing expiry never has, because
      `undefined < now` is false. */
  predicate ExpiredAt(expire: Option<Time>, now: Time) {
    expire.Some? && expire.value < now
  }

  /** `verifyEmailWithCode`: the stored code must be present, non-empty and
      equal to the one given, checked before the expiry; then the account is
      verified and the code cleared. */
  function VerifyEmailWithCode(user: Option<Account>, code: string, now: Time): (r: Result<Account, VerifyError>)
    ensures user.None? ==> r == Err(UserNotFound)
    ensures user.Some? && user.value.verificationCode != Some(code) ==> r == Err(InvalidCode)
    ensures user.Some? && code == "" ==> r == Err(InvalidCode)
    ensures r.Ok? <==> user.Some? && user.value.verificationCode == Some(code) && code != ""
                       && !ExpiredAt(user.value.verificationCodeExpire, now)
    ensures r.Err? && user.Some? && user.value.verificationCode == Some(code) && code != "" ==> r == Err(CodeExpired)
    ensures r.Ok? ==> r.value == user.value.(isVerified := true, verificationCode := None, verificationCodeExpire := None)
  {
    match user
    case None => Err(UserNotFound)
    case Some(a) =>
      if a.verificationCode.None? || a.verificationCode.value == "" || a.verificationCode.value != code then
        Err(InvalidCode)
      else if ExpiredAt(a.verificationCodeExpire, now) then Err(CodeExpired)
      else Ok(a.(isVerified := true, verificationCode := None, verificationCodeExpire := None))
  }

  /** `Math.floor(100000 + Math.random() * 900000)` for a draw in [0, 1). */
  function VerificationNumber(rnd: real): (n: nat)
    requires 0.0 <= rnd < 1.0
    ensures 100000 <= n <= 999999
  {
    (100000.0 + rnd * 900000.0).Floor
  }

  /** The code is always six decimal digits, as the request validator of the
      verification routes demands. */
  lemma VerificationCodeHasSixDigits(rnd: real)
    requires 0.0 <= rnd < 1.0
    ensures |NatToString(VerificationNumber(rnd))| == 6
    ensures AllDigits(NatToString(VerificationNumber(rnd)))
  {
    var n := VerificationNumber(rnd);
    assert Pow10(5) == 100000 && Pow10(6) == 1000000 by {
      assert Pow10(1) == 10 && Pow10(2) == 100 && Pow10(3) == 1000 && Pow10(4) == 10000;
    }
    NatToStringLength(n, 6);
    NatToStringLengthAtLeast(n, 5);
  }

  /** `resendVerification`: refused for a verified account; otherwise a new
      six-digit code is stored, expiring ten minutes from now. */
  function ResendVerification(user: Option<Account>, rnd: real, now: Time): (r: Result<Account, VerifyError>)
    requires 0.0 <= rnd < 1.0
    ensures user.None? ==> r == Err(UserNotFound)
    ensures user.Some? && user.value.isVerified ==> r == Err(AlreadyVerified)
    ensures r.Ok? <==> user.Some? && !user.value.isVerified
    ensures r.Ok? ==> r.value.verificationCode.Some? && AllDigits(r.value.verificationCode.value)
    ensures r.Ok? ==> var n := DigitsValue(r.value.verificationCode.value);
      && 100000 <= n <= 999999
      && r.value.verificationCodeExpire == Some(now + CodeLifetime)
      && r.value == user.value.(verificationCode := r.value.verificationCode,
                                verificationCodeExpire := r.value.verificationCodeExpire)
  {
    match user
    case None => Err(UserNotFound)
    case Some(a) =>
      if a.isVerified then Err(AlreadyVerified)
      else
        var n := VerificationNumber(rnd);
        NatToStringRoundTrip(n);
        Ok(a.(verificationCode := Some(NatToString(n)), verificationCodeExpire := Some(now + CodeLifetime)))
  }

  /** A freshly sent code verifies the account when entered within ten
      minutes, and is refused after that. */
  lemma ResendThenVerify(a: Account, rnd: real, now: Time, later: Time)
    requires !a.isVerified && 0.0 <= rnd < 1.0 && now <= later
    ensures var sent := ResendVerification(Some(a), rnd, now).value;
      var code := sent.verificationCode.value;
      && |code| == 6
      && (later <= now + CodeLifetime ==> VerifyEmailWithCode(Some(sent), code, later).Ok?)
      && (later > now + CodeLifetime ==> VerifyEmailWithCode(Some(sent), code, later) == Err(CodeExpired))
      && (later <= now + CodeLifetime ==> VerifyEmailWithCode(Some(sent), code, later).value.isVerified)
  {
    VerificationCodeHasSixDigits(rnd);
  }

  /** `verifyLoginCode`: the stored login code must equal the one given and
      must not have expired; then the address is remembered, the login code
      and the pending login are cleared, and the last login is recorded. */
  function VerifyLoginCode(user: Option<Account>, code: string, ip: string, agent: Option<string>, now: Time):
    (r: Result<Account, VerifyError>)
    ensures user.None? ==> r == Err(UserNotFound)
    ensures r.Ok? <==> user.Some? && user.value.loginVerificationCode == Some(code)
                       && !ExpiredAt(user.value.loginVerificationCodeExpire, now)
    ensures r.Err? && user.Some? ==> r == Err(InvalidOrExpiredCode)
    ensures r.Ok? ==> var ua := AgentOr(agent);
      && r.value.knownIps == UpsertKnownIp(user.value.knownIps, ip, ua, now)
      && r.value.loginVerificationCode.None? && r.value.loginVerificationCodeExpire.None?
      && r.value.pendingLoginIp.None? && r.value.pendingLoginUserAgent.None?
      && r.value.lastLogin == Some(LoginInfo(ip, ua, now))
      && r.value.loginAttempts == user.value.loginAttempts && r.value.lockUntil == user.value.lockUntil
      && r.value.isVerified == user.value.isVerified
  {
    match user
    case None => Err(UserNotFound)
    case Some(a) =>
      if a.loginVerificationCode != Some(code) || ExpiredAt(a.loginVerificationCodeExpire, now) then
        Err(InvalidOrExpiredCode)
      else
        var ua := AgentOr(agent);
        Ok(a.(knownIps := UpsertKnownIp(a.knownIps, ip, ua, now),
              loginVerificationCode := None,
              loginVerificationCodeExpire := None,
              pendingLoginIp := None,
              pendingLoginUserAgent := None,
              lastLogin := Some(LoginInfo(ip, ua, now))))
  }

  /** A login code can be used once: after a successful check it is gone,
      so the same code is refused next time. */
  lemma LoginCodeSingleUse(a: Account, code: string, ip: string, agent: Option<string>, now: Time, later: Time)
    requires VerifyLoginCode(Some(a), code, ip, agent, now).Ok?
    ensures VerifyLoginCode(Some(VerifyLoginCode(Some(a), code, ip, agent, now).value), code, ip, agent, later)
      == Err(InvalidOrExpiredCode)
  {
  }
}

=== FILE: cart_controller.dfy ===
/** The cart handlers (controllers/cartController.js) as operations on the
    cart's line sequence. A missing cart is `None`; the line ids that the
    database assigns are passed in. */
module CartController {
  import opened Common

  datatype CartLine = CartLine(id: nat, product: ProductId, quantity: int)

  datatype CartError =
    | ProductNotFound
    | InsufficientStock(available: int)
    | CartNotFound
    | ItemNotFound

  /** `quantity = 1` when the request leaves it out. */
  const DefaultQuantity: int := 1

  /** Index of the first line holding `product`. */
  function FindProductLine(lines: seq<CartLine>, product: ProductId): (r: Option<nat>)
    ensures r.Some? ==> r.value < |lines| && lines[r.value].product == product
    ensures r.Some? ==> forall j :: 0 <= j < r.value ==> lines[j].product != product
    ensures r.None? <==> forall j :: 0 <= j < |lines| ==> lines[j].product != product
  {
    if |lines| == 0 then None
    else if lines[0].product == product then Some(0)
    else match FindProductLine(lines[1..], product)
      case None => None
      case Some(i) => Some(i + 1)
  }

  /** Index of the first line with id `id`. */
  function FindLine(lines: seq<CartLine>, id: nat): (r: Option<nat>)
    ensures r.Some? ==> r.value < |lines| && lines[r.value].id == id
    ensures r.Some? ==> forall j :: 0 <= j < r.value ==> lines[j].id != id
    ensures r.None? <==> forall j :: 0 <= j < |lines| ==> lines[j].id != id
  {
    if |lines| == 0 then None
    else if lines[0].id == id then Some(0)
    else match FindLine(lines[1..], id)
      case None => None
      case Some(i) => Some(i + 1)
  }

  /** At most one line per product. */
  predicate OneLinePerProduct(lines: seq<CartLine>) {
    forall i, j :: 0 <= i < j < |lines| ==> lines[i].product != lines[j].product
  }

  predicate DistinctLineIds(lines: seq<CartLine>) {
    forall i, j :: 0 <= i < j < |lines| ==> lines[i].id != lines[j].id
  }

  predicate IsFreshId(lines: seq<CartLine>, id: nat) {
    forall j :: 0 <= j < |lines| ==> lines[j].id != id
  }

  /** `addToCart`. An unknown product or a stock below the requested quantity
      is rejected; a product already in the cart has its line raised to
      `old + quantity` if the stock covers that and is rejected otherwise; a
      new product is appended as one line. The cart is created empty when
      missing. */
  function AddToCart(catalog: Catalog, cart: Option<seq<CartLine>>, productId: ProductId,
                     quantity: Option<int>, freshId: nat): (r: Result<seq<CartLine>, CartError>)
    requires quantity.Some? ==> quantity.value >= 1
    ensures productId !in catalog ==> r == Err(ProductNotFound)
    ensures productId in catalog && catalog[productId].stock < quantity.GetOr(DefaultQuantity) ==>
      r == Err(InsufficientStock(catalog[productId].stock))
    ensures var lines := cart.GetOr([]); var q := quantity.GetOr(DefaultQuantity);
      r.Ok? ==> (
        && productId in catalog
        && match FindProductLine(lines, productId)
           case Some(i) =>
             && lines[i].quantity + q <= catalog[productId].stock
             && r.value == lines[i := lines[i].(quantity := lines[i].quantity + q)]
           case None =>
             && q <= catalog[productId].stock
             && r.value == lines + [CartLine(freshId, productId, q)])
    ensures var lines := cart.GetOr([]); var q := quantity.GetOr(DefaultQuantity);
      productId in catalog && q <= catalog[productId].stock ==>
        match FindProductLine(lines, productId)
        case Some(i) => (r.Ok? <==> lines[i].quantity + q <= catalog[productId].stock)
        case None => r.Ok?
  {
    var q := quantity.GetOr(DefaultQuantity);
    if productId !in catalog then Err(ProductNotFound)
    else
      var stock := catalog[productId].stock;
      if stock < q then Err(InsufficientStock(stock))
      else
        var lines := cart.GetOr([]);
        match FindProductLine(lines, productId)
        case Some(i) =>
          var newQuantity := lines[i].quantity + q;
          if stock < newQuantity then Err(InsufficientStock(stock))
          else Ok(lines[i := lines[i].(quantity := newQuantity)])
        case None => Ok(lines + [CartLine(freshId, productId, q)])
  }

  /** A successful add keeps one line per product, and keeps line ids
      distinct when the new line's id is fresh. */
  lemma AddToCartKeepsLinesUnique(catalog: Catalog, cart: seq<CartLine>, productId: ProductId,
                                  quantity: Option<int>, freshId: nat)
    requires quantity.Some? ==> quantity.value >= 1
    requires OneLinePerProduct(cart) && DistinctLineIds(cart) && IsFreshId(cart, freshId)
    ensures var r := AddToCart(catalog, Some(cart), productId, quantity, freshId);
      r.Ok? ==> OneLinePerProduct(r.value) && DistinctLineIds(r.value)
  {
  }

  /** `updateCartItem`. A missing cart, an unknown line or a quantity above
      the stock is rejected; a quantity of zero or less removes the line;
      any other quantity replaces that line's quantity. */
  function UpdateCartItem(catalog: Catalog, cart: Option<seq<CartLine>>, lineId: nat, quantity: int):
    (r: Result<seq<CartLine>, CartError>)
    ensures cart.None? ==> r == Err(CartNotFound)
    ensures cart.Some? && FindLine(cart.value, lineId).None? ==> r == Err(ItemNotFound)
    ensures r.Ok? ==> cart.Some? && FindLine(cart.value, lineId).Some?
    ensures cart.Some? && FindLine(cart.value, lineId).Some? ==>
      var product := cart.value[FindLine(cart.value, lineId).value].product;
      && (r.Ok? <==> product in catalog && quantity <= catalog[product].stock)
      && (product in catalog && catalog[product].stock < quantity ==>
            r == Err(InsufficientStock(catalog[product].stock)))
    ensures r.Ok? && quantity > 0 ==> var i := FindLine(cart.value, lineId).value;
      r.value == cart.value[i := cart.value[i].(quantity := quantity)]
    ensures r.Ok? && quantity <= 0 ==> r.value == Filter(cart.value, (l: CartLine) => l.id != lineId)
  {
    match cart
    case None => Err(CartNotFound)
    case Some(lines) =>
      match FindLine(lines, lineId)
      case None => Err(ItemNotFound)
      case Some(i) =>
        var product := lines[i].product;
        if product !in catalog then Err(ProductNotFound)
        else if catalog[product].stock < quantity then Err(InsufficientStock(catalog[product].stock))
        else if quantity <= 0 then Ok(Filter(lines, (l: CartLine) => l.id != lineId))
        else Ok(lines[i := lines[i].(quantity := quantity)])
  }

  /** With distinct line ids, removing a line by id removes exactly that
      position and keeps the other lines in order. */
  lemma {:induction false} RemoveLineById(lines: seq<CartLine>, lineId: nat)
    requires DistinctLineIds(lines) && FindLine(lines, lineId).Some?
    ensures var i := FindLine(lines, lineId).value;
      Filter(lines, (l: CartLine) => l.id != lineId) == lines[..i] + lines[i + 1..]
  {
    var i := FindLine(lines, lineId).value;
    FilterDropsOne(lines, i, (l: CartLine) => l.id != lineId);
  }

  /** `removeFromCart`: rejects a missing cart or an absent line id, and
      otherwise drops every line with that id. */
  function RemoveFromCart(cart: Option<seq<CartLine>>, lineId: nat): (r: Result<seq<CartLine>, CartError>)
    ensures cart.None? ==> r == Err(CartNotFound)
    ensures cart.Some? ==> (r.Ok? <==> FindLine(cart.value, lineId).Some?)
    ensures r.Err? && cart.Some? ==> r == Err(ItemNotFound)
    ensures r.Ok? ==> |r.value| < |cart.value|
    ensures r.Ok? ==> forall j :: 0 <= j < |r.value| ==> r.value[j].id != lineId
    ensures r.Ok? && DistinctLineIds(cart.value) ==>
      var i := FindLine(cart.value, lineId).value;
      r.value == cart.value[..i] + cart.value[i + 1..]
  {
    match cart
    case None => Err(CartNotFound)
    case Some(lines) =>
      if FindLine(lines, lineId).None? then Err(ItemNotFound)
      else
        var i := FindLine(lines, lineId).value;
        var kept := Filter(lines, (l: CartLine) => l.id != lineId);
        FilterLosesMatch(lines, lineId, i);
        if DistinctLineIds(lines) then
          RemoveLineById(lines, lineId);
          Ok(kept)
        else Ok(kept)
  }

  lemma {:induction false} FilterLosesMatch(lines: seq<CartLine>, lineId: nat, i: nat)
    requires i < |lines| && lines[i].id == lineId
    ensures |Filter(lines, (l: CartLine) => l.id != lineId)| < |lines|
  {
    var keep := (l: CartLine) => l.id != lineId;
    assert lines == lines[..i] + [lines[i]] + lines[i + 1..];
    FilterConcat(lines[..i] + [lines[i]], lines[i + 1..], keep);
    FilterConcat(lines[..i], [lines[i]], keep);
  }

  /** Taking one line out keeps one line per product and distinct line ids. */
  lemma DropKeepsLinesUnique(lines: seq<CartLine>, i: nat)
    requires i < |lines| && OneLinePerProduct(lines) && DistinctLineIds(lines)
    ensures OneLinePerProduct(lines[..i] + lines[i + 1..]) && DistinctLineIds(lines[..i] + lines[i + 1..])
  {
    var s := lines[..i] + lines[i + 1..];
    forall a, b | 0 <= a < b < |s|
      ensures s[a].product != s[b].product && s[a].id != s[b].id
    {
      var a' := if a < i then a else a + 1;
      var b' := if b < i then b else b + 1;
      assert s[a] == lines[a'] && s[b] == lines[b'] && a' < b';
    }
  }

  /** A successful update keeps one line per product and distinct line ids:
      a new quantity touches no product or id, and a removal drops one line. */
  lemma UpdateKeepsLinesUnique(catalog: Catalog, cart: seq<CartLine>, lineId: nat, quantity: int)
    requires OneLinePerProduct(cart) && DistinctLineIds(cart)
    ensures var r := UpdateCartItem(catalog, Some(cart), lineId, quantity);
      r.Ok? ==> OneLinePerProduct(r.value) && DistinctLineIds(r.value)
  {
    var r := UpdateCartItem(catalog, Some(cart), lineId, quantity);
    if r.Ok? && quantity <= 0 {
      var i := FindLine(cart, lineId).value;
      RemoveLineById(cart, lineId);
      DropKeepsLinesUnique(cart, i);
    }
  }

  /** A removal and a clear keep one line per product and distinct line ids. */
  lemma RemoveAndClearKeepLinesUnique(cart: seq<CartLine>, lineId: nat)
    requires OneLinePerProduct(cart) && DistinctLineIds(cart)
    ensures var r := RemoveFromCart(Some(cart), lineId);
      r.Ok? ==> OneLinePerProduct(r.value) && DistinctLineIds(r.value)
    ensures var c := ClearCart(Some(cart));
      c.Some? && OneLinePerProduct(c.value) && DistinctLineIds(c.value)
  {
    if RemoveFromCart(Some(cart), lineId).Ok? {
      DropKeepsLinesUnique(cart, FindLine(cart, lineId).value);
    }
  }

  /** `clearCart`: an existing cart is emptied, a missing one stays missing;
      the request succeeds either way. */
  function ClearCart(cart: Option<seq<CartLine>>): (r: Option<seq<CartLine>>)
    ensures r.Some? <==> cart.Some?
    ensures r.Some? ==> |r.value| == 0
  {
    match cart
    case None => None
    case Some(_) => Some([])
  }
}

=== FILE: category_controller.dfy ===
/** The category admin handlers of controllers/categoryController.js.
    Categories are not stored: they are the distinct `category` strings of
    the products. `getCategoryStats` groups the products by category, drops
    the unnamed groups, appends an "Uncategorized" row, then filters, sorts,
    totals and paginates in memory. Slugs and the delete guards are here too.

    The grouping is modelled as one row per element of `keys`, the distinct
    category values of the products in whatever order the database yields
    them. A missing or null category is `None`. */
module CategoryController {
  import opened Common

  /** The product fields the category handlers read. */
  datatype ListedProduct = ListedProduct(category: Option<string>, price: real, stock: int, isActive: bool)

  /** A row of the listing. `name` is `None` for the group of products with
      no category. `$replaceAll` passes that null through and `$toLower` turns
      null into the empty string, so that group's `slug` is "". */
  datatype CategoryRow = CategoryRow(
    name: Option<string>,
    slug: string,
    productCount: nat,
    activeProductCount: nat,
    totalValue: real)

  // ---------------------------------------------------------------------
  // Grouping

  /** Number of products in category `k`. */
  function CountIn(ps: seq<ListedProduct>, k: Option<string>): (n: nat)
    ensures n <= |ps|
  {
    if |ps| == 0 then 0
    else CountIn(ps[..|ps| - 1], k) + (if ps[|ps| - 1].category == k then 1 else 0)
  }

  function ActiveIn(ps: seq<ListedProduct>, k: Option<string>): nat {
    if |ps| == 0 then 0
    else ActiveIn(ps[..|ps| - 1], k) + (if ps[|ps| - 1].category == k && ps[|ps| - 1].isActive then 1 else 0)
  }

  /** Stock value, `Σ price × stock`, of the products satisfying `inGroup`. */
  function ValueIn(ps: seq<ListedProduct>, k: Option<string>): real {
    if |ps| == 0 then 0.0
    else ValueIn(ps[..|ps| - 1], k)
         + (if ps[|ps| - 1].category == k then ps[|ps| - 1].price * (ps[|ps| - 1].stock as real) else 0.0)
  }

  /** The aggregation's slug: lower case, each single space turned into `-`. */
  function AggregationSlug(name: string): (r: string)
    ensures |r| == |name|
  {
    Lower(seq(|name|, i requires 0 <= i < |name| => if name[i] == ' ' then '-' else name[i]))
  }

  /** The `$group` and `$project` stages: the row for category `k`. */
  function GroupRow(ps: seq<ListedProduct>, k: Option<string>): (r: CategoryRow)
    ensures r.name == k && r.productCount == CountIn(ps, k)
  {
    CategoryRow(k, if k.Some? then AggregationSlug(k.value) else "",
                CountIn(ps, k), ActiveIn(ps, k), ValueIn(ps, k))
  }

  /** One row per key, in key order. */
  function Rows(ps: seq<ListedProduct>, keys: seq<Option<string>>): (r: seq<CategoryRow>)
    ensures |r| == |keys|
    ensures forall j :: 0 <= j < |r| ==> r[j] == GroupRow(ps, keys[j])
  {
    if |keys| == 0 then [] else [GroupRow(ps, keys[0])] + Rows(ps, keys[1..])
  }

  /** `keys` are exactly the distinct category values of the products. */
  predicate GroupKeys(ps: seq<ListedProduct>, keys: seq<Option<string>>) {
    && Distinct(keys)
    && (forall i :: 0 <= i < |ps| ==> ps[i].category in keys)
    && (forall j :: 0 <= j < |keys| ==> exists i :: 0 <= i < |ps| && ps[i].category == keys[j])
  }

  /** A real category name: present and not empty. */
  predicate IsNamedKey(k: Option<string>) {
    k.Some? && k.value != ""
  }

  predicate IsNamedRow(r: CategoryRow) {
    IsNamedKey(r.name)
  }

  /** What `{ $ne: null, $ne: '' }` tests once the duplicate key has
      collapsed to its last value: only the empty name is dropped. */
  predicate IsNonEmptyRow(r: CategoryRow) {
    r.name != Some("")
  }

  /** The products that the "Uncategorized" counts select: category missing,
      null or empty. */
  function UncategorizedCount(ps: seq<ListedProduct>): (n: nat)
    ensures n <= |ps|
  {
    if |ps| == 0 then 0
    else UncategorizedCount(ps[..|ps| - 1]) + (if IsNamedKey(ps[|ps| - 1].category) then 0 else 1)
  }

  function UncategorizedActive(ps: seq<ListedProduct>): nat {
    if |ps| == 0 then 0
    else UncategorizedActive(ps[..|ps| - 1])
         + (if !IsNamedKey(ps[|ps| - 1].category) && ps[|ps| - 1].isActive then 1 else 0)
  }

  function UncategorizedValue(ps: seq<ListedProduct>): real {
    if |ps| == 0 then 0.0
    else UncategorizedValue(ps[..|ps| - 1])
         + (if IsNamedKey(ps[|ps| - 1].category) then 0.0 else ps[|ps| - 1].price * (ps[|ps| - 1].stock as real))
  }

  function UncategorizedRow(ps: seq<ListedProduct>): CategoryRow {
    CategoryRow(Some("Uncategorized"), "uncategorized",
                UncategorizedCount(ps), UncategorizedActive(ps), UncategorizedValue(ps))
  }

  /** The "Uncategorized" row, present only when it counts some product. */
  function WithUncategorized(rows: seq<CategoryRow>, ps: seq<ListedProduct>): (r: seq<CategoryRow>)
    ensures UncategorizedCount(ps) == 0 ==> r == rows
    ensures UncategorizedCount(ps) > 0 ==> r == rows + [UncategorizedRow(ps)]
  {
    if UncategorizedCount(ps) > 0 then rows + [UncategorizedRow(ps)] else rows
  }

  /** The rows before the query's filters, with the `$match` as written. */
  function BaseRowsAsWritten(ps: seq<ListedProduct>, keys: seq<Option<string>>): seq<CategoryRow> {
    WithUncategorized(Filter(Rows(ps, keys), IsNonEmptyRow), ps)
  }

  /** The rows before the query's filters, with the `$match` excluding both
      null and empty names, as its comment says. */
  function BaseRows(ps: seq<ListedProduct>, keys: seq<Option<string>>): (r: seq<CategoryRow>)
    ensures forall j :: 0 <= j < |r| ==> r[j].name.Some?
  {
    WithUncategorized(Filter(Rows(ps, keys), IsNamedRow), ps)
  }

  function SumCounts(rows: seq<CategoryRow>): int {
    if |rows| == 0 then 0 else rows[0].productCount + SumCounts(rows[1..])
  }

  lemma {:induction false} SumCountsConcat(a: seq<CategoryRow>, b: seq<CategoryRow>)
    ensures SumCounts(a + b) == SumCounts(a) + SumCounts(b)
  {
    if |a| == 0 {
      assert a + b == b;
    } else {
      assert (a + b)[1..] == a[1..] + b;
      SumCountsConcat(a[1..], b);
    }
  }

  /** How many of the keys equal `c`. */
  function Hits(keys: seq<Option<string>>, c: Option<string>): nat {
    if |keys| == 0 then 0 else (if keys[0] == c then 1 else 0) + Hits(keys[1..], c)
  }

  lemma {:induction false} HitsDistinct(keys: seq<Option<string>>, c: Option<string>)
    requires Distinct(keys)
    ensures Hits(keys, c) == if c in keys then 1 else 0
  {
    if |keys| > 0 {
      HitsDistinct(keys[1..], c);
      assert c in keys <==> c == keys[0] || c in keys[1..];
      assert keys[0] !in keys[1..] by {
        forall j | 0 <= j < |keys[1..]| ensures keys[1..][j] != keys[0] {
          assert keys[1..][j] == keys[j + 1];
        }
      }
    }
  }

  /** One more product adds one to the count of every row whose key is its
      category. */
  lemma {:induction false} RowsStep(ps: seq<ListedProduct>, p: ListedProduct, keys: seq<Option<string>>)
    ensures SumCounts(Rows(ps + [p], keys)) == SumCounts(Rows(ps, keys)) + Hits(keys, p.category)
  {
    if |keys| > 0 {
      RowsStep(ps, p, keys[1..]);
      assert (ps + [p])[..|ps + [p]| - 1] == ps;
    }
  }

  /** Number of products whose category is one of the keys. */
  function Covered(ps: seq<ListedProduct>, keys: seq<Option<string>>): (n: nat)
    ensures n <= |ps|
  {
    if |ps| == 0 then 0
    else Covered(ps[..|ps| - 1], keys) + (if ps[|ps| - 1].category in keys then 1 else 0)
  }

  /** With distinct keys, the rows together count each product of a listed
      category exactly once. */
  lemma {:induction false} RowsCountCovered(ps: seq<ListedProduct>, keys: seq<Option<string>>)
    requires Distinct(keys)
    ensures SumCounts(Rows(ps, keys)) == Covered(ps, keys)
    decreases |ps|
  {
    if |ps| == 0 {
      RowsOfNoProducts(keys);
    } else {
      var init := ps[..|ps| - 1];
      var p := ps[|ps| - 1];
      assert ps == init + [p];
      RowsCountCovered(init, keys);
      RowsStep(init, p, keys);
      HitsDistinct(keys, p.category);
    }
  }

  lemma {:induction false} RowsOfNoProducts(keys: seq<Option<string>>)
    ensures SumCounts(Rows([], keys)) == 0
  {
    if |keys| > 0 {
      RowsOfNoProducts(keys[1..]);
    }
  }

  /** Filtering rows by name is filtering their keys. */
  lemma {:induction false} FilterRows(ps: seq<ListedProduct>, keys: seq<Option<string>>, named: bool)
    ensures named ==> Filter(Rows(ps, keys), IsNamedRow) == Rows(ps, Filter(keys, IsNamedKey))
    ensures !named ==> Filter(Rows(ps, keys), IsNonEmptyRow) == Rows(ps, Filter(keys, IsNonEmptyKey))
  {
    if |keys| > 0 {
      FilterRows(ps, keys[1..], named);
      assert Rows(ps, keys)[1..] == Rows(ps, keys[1..]);
    }
  }

  predicate IsNonEmptyKey(k: Option<string>) {
    k != Some("")
  }

  lemma {:induction false} FilterDistinct<T>(s: seq<T>, keep: T -> bool)
    requires Distinct(s)
    ensures Distinct(Filter(s, keep))
  {
    if |s| > 0 {
      FilterDistinct(s[1..], keep);
      if keep(s[0]) {
        FilterMembership(s[1..], keep, s[0]);
        assert s[0] !in s[1..] by {
          forall j | 0 <= j < |s[1..]| ensures s[1..][j] != s[0] {
            assert s[1..][j] == s[j + 1];
          }
        }
        var t := Filter(s[1..], keep);
        assert Filter(s, keep) == [s[0]] + t;
        forall i, j | 0 <= i < j < |[s[0]] + t| ensures ([s[0]] + t)[i] != ([s[0]] + t)[j] {
          if i == 0 {
            assert ([s[0]] + t)[j] == t[j - 1];
          }
        }
      }
    }
  }

  lemma {:induction false} CoveredNamed(ps: seq<ListedProduct>, keys: seq<Option<string>>)
    requires forall i :: 0 <= i < |ps| ==> (ps[i].category in keys <==> IsNamedKey(ps[i].category))
    ensures Covered(ps, keys) + UncategorizedCount(ps) == |ps|
  {
    if |ps| > 0 {
      CoveredNamed(ps[..|ps| - 1], keys);
    }
  }

  /** Products with no category (missing or null). */
  function NoCategoryCount(ps: seq<ListedProduct>): (n: nat) {
    if |ps| == 0 then 0
    else NoCategoryCount(ps[..|ps| - 1]) + (if ps[|ps| - 1].category.None? then 1 else 0)
  }

  lemma {:induction false} CoveredNonEmpty(ps: seq<ListedProduct>, keys: seq<Option<string>>)
    requires forall i :: 0 <= i < |ps| ==> (ps[i].category in keys <==> IsNonEmptyKey(ps[i].category))
    ensures Covered(ps, keys) + UncategorizedCount(ps) == |ps| + NoCategoryCount(ps)
  {
    if |ps| > 0 {
      CoveredNonEmpty(ps[..|ps| - 1], keys);
    }
  }

  /** With the `$match` excluding null and empty names, the rows before the
      query's filters count every product exactly once. */
  lemma BaseRowsCountEachProductOnce(ps: seq<ListedProduct>, keys: seq<Option<string>>)
    requires GroupKeys(ps, keys)
    ensures SumCounts(BaseRows(ps, keys)) == |ps|
  {
    var named := Filter(keys, IsNamedKey);
    FilterRows(ps, keys, true);
    FilterDistinct(keys, IsNamedKey);
    RowsCountCovered(ps, named);
    forall i | 0 <= i < |ps| ensures ps[i].category in named <==> IsNamedKey(ps[i].category) {
      FilterMembership(keys, IsNamedKey, ps[i].category);
    }
    CoveredNamed(ps, named);
    if UncategorizedCount(ps) > 0 {
      SumCountsConcat(Rows(ps, named), [UncategorizedRow(ps)]);
    }
  }

  /** With the `$match` as written, the group of products without a category
      survives beside the "Uncategorized" row, so those products are counted
      twice. */
  lemma BaseRowsAsWrittenDoubleCount(ps: seq<ListedProduct>, keys: seq<Option<string>>)
    requires GroupKeys(ps, keys)
    ensures SumCounts(BaseRowsAsWritten(ps, keys)) == |ps| + NoCategoryCount(ps)
  {
    var kept := Filter(keys, IsNonEmptyKey);
    FilterRows(ps, keys, false);
    FilterDistinct(keys, IsNonEmptyKey);
    RowsCountCovered(ps, kept);
    forall i | 0 <= i < |ps| ensures ps[i].category in kept <==> IsNonEmptyKey(ps[i].category) {
      FilterMembership(keys, IsNonEmptyKey, ps[i].category);
    }
    CoveredNonEmpty(ps, kept);
    if UncategorizedCount(ps) > 0 {
      SumCountsConcat(Rows(ps, kept), [UncategorizedRow(ps)]);
    }
  }

  // ---------------------------------------------------------------------
  // The query

  datatype CategoryQuery = CategoryQuery(
    page: int, limit: int, search: string, sortBy: string, sortOrder: string, hasProducts: Option<string>)

  /** The query defaults: page 1 of 12, no search, most products first. */
  const DefaultQuery: CategoryQuery := CategoryQuery(1, 12, "", "productCount", "desc", None)

  function NameOf(r: CategoryRow): string {
    r.name.GetOr("")
  }

  predicate MatchesSearch(r: CategoryRow, search: string) {
    Contains(Lower(NameOf(r)), Lower(search))
  }

  /** The search filter: an empty search keeps everything; otherwise the rows
      whose lower-cased name contains the lower-cased search. */
  function SearchFilter(rows: seq<CategoryRow>, search: string): (r: seq<CategoryRow>)
    ensures search == "" ==> r == rows
    ensures search != "" ==> forall j :: 0 <= j < |r| ==> MatchesSearch(r[j], search)
    ensures search != "" ==> forall x :: x in r <==> x in rows && MatchesSearch(x, search)
    ensures forall x :: x in r ==> x in rows
  {
    if search == "" then rows
    else
      var keep := (x: CategoryRow) => MatchesSearch(x, search);
      FilterMembershipAll(rows, keep);
      Filter(rows, keep)
  }

  lemma FilterMembershipAll<T>(s: seq<T>, keep: T -> bool)
    ensures forall x :: x in Filter(s, keep) <==> x in s && keep(x)
  {
    forall x | true ensures x in Filter(s, keep) <==> x in s && keep(x) {
      FilterMembership(s, keep, x);
    }
  }

  predicate HasSomeProducts(r: CategoryRow) { r.productCount > 0 }
  predicate HasNoProducts(r: CategoryRow) { r.productCount == 0 }

  /** The `hasProducts` filter: `"true"` keeps rows with products, `"false"`
      keeps empty rows, anything else keeps all. */
  function ProductsFilter(rows: seq<CategoryRow>, hasProducts: Option<string>): (r: seq<CategoryRow>)
    ensures hasProducts == Some("true") ==> forall x :: x in r <==> x in rows && x.productCount > 0
    ensures hasProducts == Some("false") ==> forall x :: x in r <==> x in rows && x.productCount == 0
    ensures hasProducts != Some("true") && hasProducts != Some("false") ==> r == rows
    ensures forall x :: x in r ==> x in rows
  {
    if hasProducts == Some("true") then
      FilterMembershipAll(rows, HasSomeProducts);
      Filter(rows, HasSomeProducts)
    else if hasProducts == Some("false") then
      FilterMembershipAll(rows, HasNoProducts);
      Filter(rows, HasNoProducts)
    else rows
  }

  // ---------------------------------------------------------------------
  // Sorting

  /** Code-point lexicographic order, standing in for `localeCompare`. */
  predicate LexLe(a: string, b: string)
    decreases |a|
  {
    |a| == 0 || (|b| > 0 && (a[0] < b[0] || (a[0] == b[0] && LexLe(a[1..], b[1..]))))
  }

  lemma {:induction false} LexTotal(a: string, b: string)
    ensures LexLe(a, b) || LexLe(b, a)
    decreases |a|
  {
    if |a| > 0 && |b| > 0 && a[0] == b[0] {
      LexTotal(a[1..], b[1..]);
    }
  }

  lemma {:induction false} LexTrans(a: string, b: string, c: string)
    requires LexLe(a, b) && LexLe(b, c)
    ensures LexLe(a, c)
    decreases |a|
  {
    if |a| > 0 && a[0] == b[0] && b[0] == c[0] {
      LexTrans(a[1..], b[1..], c[1..]);
    }
  }

  datatype SortKey = ByName | ByCount | ByValue

  /** `name` and `totalValue` select their keys; `productCount` and anything
      else sort by the product count. */
  function SortKeyOf(sortBy: string): (k: SortKey)
    ensures k == ByName <==> sortBy == "name"
    ensures k == ByValue <==> sortBy == "totalValue"
  {
    if sortBy == "name" then ByName else if sortBy == "totalValue" then ByValue else ByCount
  }

  /** `a` may come before `b` in ascending order of the key. */
  predicate AscLe(a: CategoryRow, b: CategoryRow, key: SortKey) {
    match key
    case ByName => LexLe(Lower(NameOf(a)), Lower(NameOf(b)))
    case ByCount => a.productCount <= b.productCount
    case ByValue => a.totalValue <= b.totalValue
  }

  /** The comparator's order: `asc` ascending, anything else descending. */
  predicate Le(a: CategoryRow, b: CategoryRow, key: SortKey, asc: bool) {
    if asc then AscLe(a, b, key) else AscLe(b, a, key)
  }

  /** Descending order is ascending order reversed. */
  lemma AscReversesDesc(a: CategoryRow, b: CategoryRow, key: SortKey)
    ensures Le(a, b, key, true) <==> Le(b, a, key, false)
  {
  }

  lemma LeTotal(a: CategoryRow, b: CategoryRow, key: SortKey, asc: bool)
    ensures Le(a, b, key, asc) || Le(b, a, key, asc)
  {
    if key == ByName {
      LexTotal(Lower(NameOf(a)), Lower(NameOf(b)));
    }
  }

  lemma LeTrans(a: CategoryRow, b: CategoryRow, c: CategoryRow, key: SortKey, asc: bool)
    requires Le(a, b, key, asc) && Le(b, c, key, asc)
    ensures Le(a, c, key, asc)
  {
    if key == ByName {
      if asc {
        LexTrans(Lower(NameOf(a)), Lower(NameOf(b)), Lower(NameOf(c)));
      } else {
        LexTrans(Lower(NameOf(c)), Lower(NameOf(b)), Lower(NameOf(a)));
      }
    }
  }

  predicate Sorted(s: seq<CategoryRow>, key: SortKey, asc: bool) {
    forall i, j :: 0 <= i < j < |s| ==> Le(s[i], s[j], key, asc)
  }

  /** Inserts `x` after every element that may precede it, which keeps equal
      rows in their original order. */
  function Insert(x: CategoryRow, s: seq<CategoryRow>, key: SortKey, asc: bool): (r: seq<CategoryRow>)
    ensures |r| == |s| + 1
    ensures multiset(r) == multiset(s) + multiset{x}
    ensures SumCounts(r) == SumCounts(s) + x.productCount
  {
    if |s| == 0 then [x]
    else if Le(s[0], x, key, asc) then
      assert s == [s[0]] + s[1..];
      [s[0]] + Insert(x, s[1..], key, asc)
    else
      assert s == [s[0]] + s[1..];
      [x] + s
  }

  /** A lower bound of `x` and of every element of `s` bounds the result of
      inserting `x` into `s`. */
  lemma {:induction false} InsertBounded(x: CategoryRow, s: seq<CategoryRow>, key: SortKey, asc: bool, y: CategoryRow)
    requires Le(y, x, key, asc)
    requires forall k :: 0 <= k < |s| ==> Le(y, s[k], key, asc)
    ensures forall k :: 0 <= k < |Insert(x, s, key, asc)| ==> Le(y, Insert(x, s, key, asc)[k], key, asc)
  {
    if |s| > 0 && Le(s[0], x, key, asc) {
      InsertBounded(x, s[1..], key, asc, y);
      var t := Insert(x, s[1..], key, asc);
      assert Insert(x, s, key, asc) == [s[0]] + t;
    }
  }

  lemma SortedCons(a: CategoryRow, t: seq<CategoryRow>, key: SortKey, asc: bool)
    requires Sorted(t, key, asc)
    requires forall k :: 0 <= k < |t| ==> Le(a, t[k], key, asc)
    ensures Sorted([a] + t, key, asc)
  {
    var r := [a] + t;
    forall i, j | 0 <= i < j < |r| ensures Le(r[i], r[j], key, asc) {
      if i > 0 {
        assert r[i] == t[i - 1] && r[j] == t[j - 1];
      } else {
        assert r[j] == t[j - 1];
      }
    }
  }

  lemma {:induction false} InsertSorted(x: CategoryRow, s: seq<CategoryRow>, key: SortKey, asc: bool)
    requires Sorted(s, key, asc)
    ensures Sorted(Insert(x, s, key, asc), key, asc)
  {
    if |s| == 0 {
      assert Insert(x, s, key, asc) == [x];
    } else if Le(s[0], x, key, asc) {
      var rest := s[1..];
      assert Sorted(rest, key, asc) by {
        forall i, j | 0 <= i < j < |rest| ensures Le(rest[i], rest[j], key, asc) {
          assert rest[i] == s[i + 1] && rest[j] == s[j + 1];
        }
      }
      InsertSorted(x, rest, key, asc);
      assert forall k :: 0 <= k < |rest| ==> Le(s[0], rest[k], key, asc) by {
        forall k | 0 <= k < |rest| ensures Le(s[0], rest[k], key, asc) {
          assert rest[k] == s[k + 1];
        }
      }
      InsertBounded(x, rest, key, asc, s[0]);
      SortedCons(s[0], Insert(x, rest, key, asc), key, asc);
    } else {
      LeTotal(s[0], x, key, asc);
      forall k | 0 <= k < |s| ensures Le(x, s[k], key, asc) {
        if k > 0 {
          LeTrans(x, s[0], s[k], key, asc);
        }
      }
      SortedCons(x, s, key, asc);
    }
  }

  /** The comparator sort: a stable insertion sort. */
  function SortRows(s: seq<CategoryRow>, key: SortKey, asc: bool): (r: seq<CategoryRow>)
    ensures multiset(r) == multiset(s)
    ensures |r| == |s|
    ensures SumCounts(r) == SumCounts(s)
  {
    if |s| == 0 then []
    else
      var init := s[..|s| - 1];
      assert s == init + [s[|s| - 1]];
      SumCountsConcat(init, [s[|s| - 1]]);
      Insert(s[|s| - 1], SortRows(init, key, asc), key, asc)
  }

  lemma {:induction false} SortRowsSorted(s: seq<CategoryRow>, key: SortKey, asc: bool)
    ensures Sorted(SortRows(s, key, asc), key, asc)
    decreases |s|
  {
    if |s| > 0 {
      SortRowsSorted(s[..|s| - 1], key, asc);
      InsertSorted(s[|s| - 1], SortRows(s[..|s| - 1], key, asc), key, asc);
    }
  }

  // ---------------------------------------------------------------------
  // Totals and pagination

  datatype Stats = Stats(totalCategories: nat, totalProducts: int, totalValue: real, categoriesWithProducts: nat)

  function SumValues(rows: seq<CategoryRow>): real {
    if |rows| == 0 then 0.0 else rows[0].totalValue + SumValues(rows[1..])
  }

  function CountWithProducts(rows: seq<CategoryRow>): (n: nat)
    ensures n <= |rows|
  {
    if |rows| == 0 then 0 else (if rows[0].productCount > 0 then 1 else 0) + CountWithProducts(rows[1..])
  }

  lemma {:induction false} SumsStep(rows: seq<CategoryRow>, i: nat)
    requires i < |rows|
    ensures SumCounts(rows[i..]) == rows[i].productCount + SumCounts(rows[i + 1..])
    ensures SumValues(rows[i..]) == rows[i].totalValue + SumValues(rows[i + 1..])
    ensures CountWithProducts(rows[i..]) == (if rows[i].productCount > 0 then 1 else 0) + CountWithProducts(rows[i + 1..])
  {
    assert rows[i..][1..] == rows[i + 1..];
  }

  /** The two `reduce`s, the length and the count of rows with products,
      accumulated in one pass. */
  method ComputeStats(rows: seq<CategoryRow>) returns (s: Stats)
    ensures s.totalCategories == |rows|
    ensures s.totalProducts == SumCounts(rows)
    ensures s.totalValue == SumValues(rows)
    ensures s.categoriesWithProducts == CountWithProducts(rows)
  {
    var products := 0;
    var value := 0.0;
    var withProducts := 0;
    var i := |rows|;
    while i > 0
      invariant 0 <= i <= |rows|
      invariant products == SumCounts(rows[i..])
      invariant value == SumValues(rows[i..])
      invariant withProducts == CountWithProducts(rows[i..])
    {
      i := i - 1;
      SumsStep(rows, i);
      products := products + rows[i].productCount;
      value := value + rows[i].totalValue;
      withProducts := withProducts + (if rows[i].productCount > 0 then 1 else 0);
    }
    assert rows[0..] == rows;
    s := Stats(|rows|, products, value, withProducts);
  }

  /** How `Array.prototype.slice` reads an index: negative counts from the
      end, and the result is clamped to 0..n. */
  function SliceIndex(i: int, n: nat): (r: nat)
    ensures r <= n
    ensures 0 <= i <= n ==> r == i
    ensures i > n ==> r == n
    ensures i < 0 ==> r == Max(n + i, 0)
  {
    if i < 0 then (if n + i > 0 then n + i else 0) else if i < n then i else n
  }

  function JsSlice<T>(s: seq<T>, start: int, end: int): (r: seq<T>)
    ensures SliceIndex(start, |s|) <= SliceIndex(end, |s|) ==>
      r == s[SliceIndex(start, |s|)..SliceIndex(end, |s|)]
    ensures SliceIndex(start, |s|) > SliceIndex(end, |s|) ==> r == []
    ensures forall x :: x in r ==> x in s
  {
    var a := SliceIndex(start, |s|);
    var b := SliceIndex(end, |s|);
    if a <= b then s[a..b] else []
  }

  /** Where page `page` starts: `(page - 1) * limit`. */
  function PageStart(page: int, limit: int): int {
    (page - 1) * limit
  }

  lemma PageStartSign(page: int, limit: int)
    requires limit >= 1
    ensures page >= 1 ==> PageStart(page, limit) >= 0
    ensures page == 0 ==> PageStart(page, limit) == -limit
  {
  }

  /** Page `page` of `limit` rows: the slice from `(page - 1) * limit`. */
  function Page<T>(s: seq<T>, page: int, limit: int): (r: seq<T>)
    requires limit >= 1
    ensures page >= 1 ==> r == s[Min(PageStart(page, limit), |s|)..Min(PageStart(page, limit) + limit, |s|)]
    ensures |r| <= limit
    ensures page == 0 ==> r == []
    ensures forall x :: x in r ==> x in s
  {
    var start := PageStart(page, limit);
    PageSlice(s, start, limit);
    PageStartSign(page, limit);
    JsSlice(s, start, start + limit)
  }

  /** A window of `limit` rows from `start`, clamped as `slice` clamps it. */
  lemma PageSlice<T>(s: seq<T>, start: int, limit: int)
    requires limit >= 1
    ensures |JsSlice(s, start, start + limit)| <= limit
    ensures start >= 0 ==> JsSlice(s, start, start + limit) == s[Min(start, |s|)..Min(start + limit, |s|)]
    ensures start == -limit ==> JsSlice(s, start, start + limit) == []
  {
  }

  /** `Math.ceil(n / limit)`. */
  function PageCount(n: nat, limit: int): (pages: nat)
    requires limit >= 1
    ensures (pages - 1) * limit < n <= pages * limit || (n == 0 && pages == 0)
  {
    (n + limit - 1) / limit
  }

  lemma ProductBelow(a: int, b: int, limit: int)
    requires limit >= 1 && a * limit < b * limit
    ensures a < b
  {
  }

  lemma PageOfRow(limit: int, i: nat)
    requires limit >= 1
    ensures 0 <= PageStart(i / limit + 1, limit) <= i
    ensures PageStart(i / limit + 1, limit) + i % limit == i
  {
    var q := i / limit;
    assert q * limit + i % limit == i;
    assert q >= 0;
  }

  /** Row `i` sits on page `i / limit + 1`, at position `i % limit`. */
  lemma RowPosition<T>(s: seq<T>, limit: int, i: nat)
    requires limit >= 1 && i < |s|
    ensures var page := Page(s, i / limit + 1, limit);
      i % limit < |page| && page[i % limit] == s[i]
  {
    var p := i / limit + 1;
    PageOfRow(limit, i);
    var start := PageStart(p, limit);
    var m := i % limit;
    assert m < limit;
    var page := Page(s, p, limit);
    assert page == s[start..Min(start + limit, |s|)];
    assert start + m == i;
  }

  /** The page holding row `i` is among the `PageCount` pages. */
  lemma RowPageExists(n: nat, limit: int, i: nat)
    requires limit >= 1 && i < n
    ensures i / limit + 1 <= PageCount(n, limit)
  {
    var q := i / limit;
    var pages := PageCount(n, limit);
    assert q * limit <= i;
    ProductBelow(q, pages, limit);
  }

  /** The pages together hold every row: row `i` is on page `i / limit + 1`,
      at position `i % limit`, and that page exists. */
  lemma RowOnItsPage<T>(s: seq<T>, limit: int, i: nat)
    requires limit >= 1 && i < |s|
    ensures var p := i / limit + 1; var page := Page(s, p, limit);
      i % limit < |page| && page[i % limit] == s[i] && p <= PageCount(|s|, limit)
  {
    RowPosition(s, limit, i);
    RowPageExists(|s|, limit, i);
  }

  datatype Listing = Listing(categories: seq<CategoryRow>, total: nat, pages: nat, stats: Stats)

  /** The rows the query selects, in display order, before pagination. */
  function Selected(rows: seq<CategoryRow>, q: CategoryQuery): (r: seq<CategoryRow>)
  {
    SortRows(ProductsFilter(SearchFilter(rows, q.search), q.hasProducts), SortKeyOf(q.sortBy), q.sortOrder == "asc")
  }

  /** The in-memory part of `getCategoryStats`: filters, sort, totals over
      every selected row, then the page. */
  method ListCategories(rows: seq<CategoryRow>, q: CategoryQuery) returns (l: Listing)
    requires q.limit >= 1
    ensures var sel := Selected(rows, q);
      && l.categories == Page(sel, q.page, q.limit)
      && l.total == |sel|
      && l.pages == PageCount(|sel|, q.limit)
      && l.stats.totalCategories == |sel|
      && l.stats.totalProducts == SumCounts(sel)
      && l.stats.totalValue == SumValues(sel)
      && l.stats.categoriesWithProducts == CountWithProducts(sel)
    ensures Sorted(Selected(rows, q), SortKeyOf(q.sortBy), q.sortOrder == "asc")
    ensures multiset(Selected(rows, q)) == multiset(ProductsFilter(SearchFilter(rows, q.search), q.hasProducts))
  {
    var filtered := ProductsFilter(SearchFilter(rows, q.search), q.hasProducts);
    var key := SortKeyOf(q.sortBy);
    var asc := q.sortOrder == "asc";
    var sorted := SortRows(filtered, key, asc);
    SortRowsSorted(filtered, key, asc);
    var stats := ComputeStats(sorted);
    l := Listing(Page(sorted, q.page, q.limit), |sorted|, PageCount(|sorted|, q.limit), stats);
  }

  /** Without a search or a `hasProducts` filter, the listing's product total
      is the number of products. */
  method CategoryStats(ps: seq<ListedProduct>, keys: seq<Option<string>>, q: CategoryQuery) returns (l: Listing)
    requires GroupKeys(ps, keys) && q.limit >= 1
    ensures forall j :: 0 <= j < |l.categories| ==> l.categories[j].name.Some?
    ensures q.search == "" && q.hasProducts.None? ==> l.stats.totalProducts == |ps|
    ensures l.stats.totalProducts == SumCounts(Selected(BaseRows(ps, keys), q))
  {
    var base := BaseRows(ps, keys);
    l := ListCategories(base, q);
    BaseRowsCountEachProductOnce(ps, keys);
    SelectedNamed(base, q);
  }

  lemma SelectedNamed(rows: seq<CategoryRow>, q: CategoryQuery)
    requires q.limit >= 1
    requires forall j :: 0 <= j < |rows| ==> rows[j].name.Some?
    ensures forall j :: 0 <= j < |Page(Selected(rows, q), q.page, q.limit)| ==>
      Page(Selected(rows, q), q.page, q.limit)[j].name.Some?
  {
    var found := SearchFilter(rows, q.search);
    var kept := ProductsFilter(found, q.hasProducts);
    var sel := Selected(rows, q);
    var page := Page(sel, q.page, q.limit);
    forall j | 0 <= j < |page| ensures page[j].name.Some? {
      var x := page[j];
      assert x in sel;
      assert x in multiset(kept);
      assert x in found;
    }
  }

  // ---------------------------------------------------------------------
  // The listing as written

  datatype ListingError = NullNameDereferenced

  predicate HasNullName(rows: seq<CategoryRow>) {
    exists j :: 0 <= j < |rows| && rows[j].name.None?
  }

  /** `getCategoryStats` as written. The null-category group reaches the
      in-memory stages, where `name.toLowerCase()` throws if the search
      filter runs, or if the name sort compares it (any list of two or more
      rows has every row compared at least once). Otherwise the listing is
      produced, with those products counted twice. */
  method CategoryStatsAsWritten(ps: seq<ListedProduct>, keys: seq<Option<string>>, q: CategoryQuery)
    returns (r: Result<Listing, ListingError>)
    requires GroupKeys(ps, keys) && q.limit >= 1
    ensures var base := BaseRowsAsWritten(ps, keys);
      var afterSearch := SearchFilter(base, q.search);
      var filtered := ProductsFilter(afterSearch, q.hasProducts);
      r.Err? <==> (q.search != "" && HasNullName(base))
                  || (q.search == "" && q.sortBy == "name" && |filtered| >= 2 && HasNullName(filtered))
    ensures r.Ok? && q.search == "" && q.hasProducts.None? ==>
      r.value.stats.totalProducts == |ps| + NoCategoryCount(ps)
  {
    var base := BaseRowsAsWritten(ps, keys);
    if q.search != "" && HasNullName(base) {
      return Err(NullNameDereferenced);
    }
    var filtered := ProductsFilter(SearchFilter(base, q.search), q.hasProducts);
    if q.search == "" && q.sortBy == "name" && |filtered| >= 2 && HasNullName(filtered) {
      return Err(NullNameDereferenced);
    }
    var l := ListCategories(base, q);
    BaseRowsAsWrittenDoubleCount(ps, keys);
    r := Ok(l);
  }

  /** One product without a category: the listing as written reports two
      products, the corrected one reports one. */
  lemma NullCategoryCountedTwice()
    ensures var ps := [ListedProduct(None, 1.0, 1, true)];
      && GroupKeys(ps, [None])
      && SumCounts(BaseRowsAsWritten(ps, [None])) == 2
      && SumCounts(BaseRows(ps, [None])) == 1
  {
    var ps := [ListedProduct(None, 1.0, 1, true)];
    BaseRowsAsWrittenDoubleCount(ps, [None]);
    BaseRowsCountEachProductOnce(ps, [None]);
    assert NoCategoryCount(ps) == 1;
  }

  // ---------------------------------------------------------------------
  // Slugs

  /** `replace(/\s+/g, '-')`: every maximal run of whitespace becomes one
      `-`. */
  function ReplaceSpaceRuns(s: string): (r: string)
    ensures NoSpaces(r)
    ensures |r| <= |s|
    ensures NoSpaces(s) ==> r == s
    decreases |s|
  {
    if |s| == 0 then ""
    else if IsSpace(s[0]) then "-" + ReplaceSpaceRuns(SkipSpaces(s[1..]))
    else [s[0]] + ReplaceSpaceRuns(s[1..])
  }

  /** Text without whitespace passes through unchanged. */
  lemma {:induction false} ReplaceKeepsPlainText(x: string, y: string)
    requires NoSpaces(x)
    ensures ReplaceSpaceRuns(x + y) == x + ReplaceSpaceRuns(y)
    decreases |x|
  {
    if |x| > 0 {
      ReplaceKeepsPlainText(x[1..], y);
      ReplacePlainStep(x, y);
    } else {
      assert x + y == y;
      assert x + ReplaceSpaceRuns(y) == ReplaceSpaceRuns(y);
    }
  }

  lemma ReplacePlainStep(x: string, y: string)
    requires |x| > 0 && !IsSpace(x[0])
    requires ReplaceSpaceRuns(x[1..] + y) == x[1..] + ReplaceSpaceRuns(y)
    ensures ReplaceSpaceRuns(x + y) == x + ReplaceSpaceRuns(y)
  {
    ConsAppend(x, y);
    ReplaceCons(x[0], x[1..] + y);
    ConsAppend(x, ReplaceSpaceRuns(y));
  }

  lemma ConsAppend<T>(x: seq<T>, y: seq<T>)
    requires |x| > 0
    ensures x + y == [x[0]] + (x[1..] + y)
  {
    assert x == [x[0]] + x[1..];
  }

  lemma ReplaceCons(c: char, t: string)
    requires !IsSpace(c)
    ensures ReplaceSpaceRuns([c] + t) == [c] + ReplaceSpaceRuns(t)
  {
    assert ([c] + t)[0] == c;
    assert ([c] + t)[1..] == t;
  }

  /** A maximal run of whitespace, however long, becomes exactly one `-`. */
  lemma ReplaceRunByOneDash(w: string, y: string)
    requires |w| > 0 && AllSpaces(w) && (|y| == 0 || !IsSpace(y[0]))
    ensures ReplaceSpaceRuns(w + y) == "-" + ReplaceSpaceRuns(y)
  {
    assert (w + y)[0] == w[0];
    assert (w + y)[1..] == w[1..] + y;
    SkipSpacesRun(w[1..], y);
  }

  /** `name.toLowerCase().replace(/\s+/g, '-')`. */
  function Slug(name: string): (r: string)
    ensures NoSpaces(r)
    ensures |r| <= |name|
    ensures NoSpaces(name) ==> r == Lower(name)
  {
    LowerKeepsSpaces(name);
    ReplaceSpaceRuns(Lower(name))
  }

  lemma LowerKeepsSpaces(s: string)
    ensures forall i :: 0 <= i < |s| ==> (IsSpace(Lower(s)[i]) <==> IsSpace(s[i]))
  {
  }

  /** A slug is its own slug. */
  lemma SlugIdempotent(name: string)
    ensures Slug(Slug(name)) == Slug(name)
  {
    var s := Slug(name);
    LowerIdempotent(Lower(name));
    LowerOfReplace(Lower(name));
  }

  lemma LowerIdempotent(s: string)
    ensures Lower(Lower(s)) == Lower(s)
  {
  }

  /** Replacing whitespace runs in an already lower-cased string leaves it
      lower-cased. */
  lemma {:induction false} LowerOfReplace(s: string)
    requires Lower(s) == s
    ensures Lower(ReplaceSpaceRuns(s)) == ReplaceSpaceRuns(s)
    decreases |s|
  {
    if |s| > 0 {
      assert LowerChar(s[0]) == s[0] by { assert Lower(s)[0] == LowerChar(s[0]); }
      LowerSuffix(s, 1);
      if IsSpace(s[0]) {
        var t := SkipSpaces(s[1..]);
        LowerSuffix(s[1..], |s[1..]| - |t|);
        LowerOfReplace(t);
        LowerCons('-', ReplaceSpaceRuns(t));
      } else {
        LowerOfReplace(s[1..]);
        LowerCons(s[0], ReplaceSpaceRuns(s[1..]));
      }
    }
  }

  /** A suffix of a lower-cased string is lower-cased. */
  lemma LowerSuffix(s: string, k: nat)
    requires Lower(s) == s && k <= |s|
    ensures Lower(s[k..]) == s[k..]
  {
    forall i | 0 <= i < |s| - k
      ensures Lower(s[k..])[i] == s[k..][i]
    {
      assert Lower(s)[k + i] == LowerChar(s[k + i]);
    }
  }

  lemma LowerCons(c: char, t: string)
    ensures Lower([c] + t) == [LowerChar(c)] + Lower(t)
  {
  }

  /** The aggregation turns each space of "A  B" into its own `-`. */
  lemma AggregationSlugOfDoubleSpace()
    ensures AggregationSlug("A  B") == "a--b"
  {
    var spaced := seq(4, i requires 0 <= i < 4 => if "A  B"[i] == ' ' then '-' else "A  B"[i]);
    assert spaced == "A--B";
    assert Lower("A--B") == "a--b";
  }

  /** The handlers' slug turns the run of spaces in "A  B" into one `-`. */
  lemma SlugOfDoubleSpace()
    ensures Slug("A  B") == "a-b"
  {
    LowerExample();
    ReplaceExample();
  }

  lemma ReplaceExample()
    ensures ReplaceSpaceRuns("a  b") == "a-b"
  {
    var t := "a  b";
    assert !IsSpace(t[0]);
    assert t[1..] == "  b";
    SpaceRunExample();
  }

  lemma LowerExample()
    ensures Lower("A  B") == "a  b"
  {
  }

  lemma SpaceRunExample()
    ensures ReplaceSpaceRuns("  b") == "-b"
  {
    assert IsSpace(' ') && !IsSpace('b');
    assert "  b"[1..] == " b" && " b"[1..] == "b";
    assert SkipSpaces(" b") == "b";
    assert NoSpaces("b");
  }

  /** The aggregation's slug and the handlers' slug part on a double space:
      "Home  Garden" is grouped under a slug that `Slug` never produces. */
  lemma SlugsDisagreeOnDoubleSpace()
    ensures AggregationSlug("A  B") != Slug("A  B")
  {
    AggregationSlugOfDoubleSpace();
    SlugOfDoubleSpace();
    assert "a--b"[2] != "a-b"[2];
  }

  // ---------------------------------------------------------------------
  // Delete guards

  datatype DeleteError = HasProducts(count: nat) | NoNamesGiven | SomeHaveProducts(names: set<string>)

  /** `deleteCategory`: refused while any product carries the name. */
  function DeleteCategory(ps: seq<ListedProduct>, name: string): (r: Result<(), DeleteError>)
    ensures r.Ok? <==> forall i :: 0 <= i < |ps| ==> ps[i].category != Some(name)
    ensures r.Err? ==> r.error == HasProducts(CountIn(ps, Some(name))) && CountIn(ps, Some(name)) > 0
  {
    CountInZero(ps, Some(name));
    if CountIn(ps, Some(name)) > 0 then Err(HasProducts(CountIn(ps, Some(name)))) else Ok(())
  }

  lemma {:induction false} CountInZero(ps: seq<ListedProduct>, k: Option<string>)
    ensures CountIn(ps, k) == 0 <==> forall i :: 0 <= i < |ps| ==> ps[i].category != k
  {
    if |ps| > 0 {
      CountInZero(ps[..|ps| - 1], k);
      assert forall i :: 0 <= i < |ps| - 1 ==> ps[..|ps| - 1][i] == ps[i];
    }
  }

  /** The categories among `names` that some product uses. */
  function UsedAmong(ps: seq<ListedProduct>, names: seq<string>): (r: set<string>)
    ensures forall n :: n in r <==> n in names && exists i :: 0 <= i < |ps| && ps[i].category == Some(n)
  {
    set n, i | n in names && 0 <= i < |ps| && ps[i].category == Some(n) :: n
  }

  /** `bulkDeleteCategories`: a missing or empty list is refused, then a
      list naming any category still in use, with the names in use;
      otherwise it reports how many were deleted. */
  function BulkDeleteCategories(ps: seq<ListedProduct>, names: Option<seq<string>>): (r: Result<nat, DeleteError>)
    ensures names.None? || |names.value| == 0 ==> r == Err(NoNamesGiven)
    ensures r.Ok? <==> names.Some? && |names.value| > 0
                       && forall i :: 0 <= i < |ps| ==> ps[i].category.None? || ps[i].category.value !in names.value
    ensures r.Ok? ==> r.value == |names.value|
    ensures r.Err? && names.Some? && |names.value| > 0 ==>
      r.error.SomeHaveProducts? && r.error.names != {} && r.error.names == UsedAmong(ps, names.value)
  {
    match names
    case None => Err(NoNamesGiven)
    case Some(ns) =>
      if |ns| == 0 then Err(NoNamesGiven)
      else
        var used := UsedAmong(ps, ns);
        if used != {} then Err(SomeHaveProducts(used))
        else
          Ok(|ns|)
  }
}

=== FILE: common.dfy ===
/** Shared vocabulary of the storefront model: identifiers, optional values,
    results, the catalogue entry every controller looks up, and a few sequence
    and string helpers (ASCII case, JavaScript whitespace and `trim`). */
module Common {

  type UserId = nat
  type ProductId = nat

  /** Milliseconds since the epoch, the unit `Date.now()` returns. */
  type Time = int

  /** A JavaScript value that may be `undefined` or `null`. */
  datatype Option<T> = None | Some(value: T) {
    function GetOr(default: T): T {
      match this
      case Some(v) => v
      case None => default
    }
  }

  /** The two ways a request handler ends: a value, or a rejected request. */
  datatype Result<T, E> = Ok(value: T) | Err(error: E)

  /** The fields of a stored product that the controllers read. */
  datatype Product = Product(price: real, stock: int)

  type Catalog = map<ProductId, Product>

  /** `Array.prototype.filter`: keeps, in order, the elements satisfying `keep`. */
  function Filter<T>(s: seq<T>, keep: T -> bool): (r: seq<T>)
    ensures |r| <= |s|
    ensures forall i :: 0 <= i < |r| ==> keep(r[i])
    ensures (forall i :: 0 <= i < |s| ==> keep(s[i])) ==> r == s
  {
    if |s| == 0 then []
    else if keep(s[0]) then [s[0]] + Filter(s[1..], keep)
    else Filter(s[1..], keep)
  }

  /** An element survives filtering exactly when it was present and passes. */
  lemma {:induction false} FilterMembership<T>(s: seq<T>, keep: T -> bool, x: T)
    ensures x in Filter(s, keep) <==> x in s && keep(x)
  {
    if |s| > 0 {
      FilterMembership(s[1..], keep, x);
      assert x in s <==> x == s[0] || x in s[1..];
    }
  }

  /** `FilterMembership` for every element of `s` at once. */
  lemma FilterKeepsExactly<T>(s: seq<T>, keep: T -> bool)
    ensures forall i :: 0 <= i < |s| ==> (s[i] in Filter(s, keep) <==> keep(s[i]))
  {
    forall i | 0 <= i < |s|
      ensures s[i] in Filter(s, keep) <==> keep(s[i])
    {
      FilterMembership(s, keep, s[i]);
    }
  }

  /** Every element filtering keeps was present and passes. */
  lemma FilterSound<T>(s: seq<T>, keep: T -> bool)
    ensures forall j :: 0 <= j < |Filter(s, keep)| ==> Filter(s, keep)[j] in s && keep(Filter(s, keep)[j])
  {
    forall j | 0 <= j < |Filter(s, keep)|
      ensures Filter(s, keep)[j] in s && keep(Filter(s, keep)[j])
    {
      FilterMembership(s, keep, Filter(s, keep)[j]);
    }
  }

  /** Filtering distributes over concatenation. */
  lemma {:induction false} FilterConcat<T>(a: seq<T>, b: seq<T>, keep: T -> bool)
    ensures Filter(a + b, keep) == Filter(a, keep) + Filter(b, keep)
  {
    if |a| == 0 {
      assert a + b == b;
    } else {
      assert (a + b)[1..] == a[1..] + b;
      FilterConcat(a[1..], b, keep);
    }
  }

  /** Filtering out the only element that fails `keep` removes exactly that
      position and keeps everything else in order. */
  lemma {:induction false} FilterDropsOne<T>(s: seq<T>, k: nat, keep: T -> bool)
    requires k < |s| && !keep(s[k])
    requires forall i :: 0 <= i < |s| && i != k ==> keep(s[i])
    ensures Filter(s, keep) == s[..k] + s[k + 1..]
  {
    if k == 0 {
      assert Filter(s[1..], keep) == s[1..];
    } else {
      FilterDropsOne(s[1..], k - 1, keep);
      assert s[1..][..k - 1] == s[1..k];
      assert s[1..][k..] == s[k + 1..];
      assert [s[0]] + s[1..k] == s[..k];
    }
  }

  // There is no generic first-match finder here. Each controller declares its
  // own (`FindIp`, `FindLine`, `FindProductLine`, `FindById`, `FindAddress`,
  // `FindDefault`, `FindPurchase`, `FindReview`) over its own record type, so
  // that its contract names the field the source compares, and the proofs
  // that use it reason about that field directly rather than about a
  // function-valued argument, which keeps them small.

  /** Number of elements of `s` satisfying `p`. */
  function CountWhere<T>(s: seq<T>, p: T -> bool): (n: nat)
    ensures n <= |s|
    ensures n == |Filter(s, p)|
  {
    if |s| == 0 then 0
    else (if p(s[0]) then 1 else 0) + CountWhere(s[1..], p)
  }

  /** No value occurs twice. */
  predicate Distinct<T(==)>(s: seq<T>) {
    forall i, j :: 0 <= i < j < |s| ==> s[i] != s[j]
  }

  /** The sequence with every occurrence of `x` filtered out. */
  function Without<T(==)>(s: seq<T>, x: T): (r: seq<T>)
    ensures |r| <= |s|
  {
    Filter(s, y => y != x)
  }

  /** `Without` keeps every other value, and is the identity when `x` is
      absent. */
  lemma WithoutMembership<T>(s: seq<T>, x: T)
    ensures forall y :: y in Without(s, x) <==> y in s && y != x
    ensures x !in s ==> Without(s, x) == s
  {
    forall y | true
      ensures y in Without(s, x) <==> y in s && y != x
    {
      FilterMembership(s, z => z != x, y);
    }
  }

  /** Removing a value that was just appended to a sequence without it
      gives the sequence back. */
  lemma {:induction false} WithoutAppended<T>(s: seq<T>, x: T)
    requires x !in s
    ensures Without(s + [x], x) == s
  {
    FilterConcat(s, [x], y => y != x);
    assert Filter([x], y => y != x) == [];
    WithoutMembership(s, x);
  }

  /** A distinct sequence holds each of its values exactly once, so removing
      one value shortens it by exactly one. */
  lemma {:induction false} DistinctRemoveOne<T>(s: seq<T>, x: T)
    requires Distinct(s) && x in s
    ensures |Without(s, x)| == |s| - 1
    ensures Distinct(Without(s, x))
  {
    var k :| 0 <= k < |s| && s[k] == x;
    FilterDropsOne(s, k, y => y != x);
    var r := s[..k] + s[k + 1..];
    forall i, j | 0 <= i < j < |r|
      ensures r[i] != r[j]
    {
      var i' := if i < k then i else i + 1;
      var j' := if j < k then j else j + 1;
      assert r[i] == s[i'] && r[j] == s[j'] && i' < j';
    }
  }

  function LowerChar(c: char): char {
    if 'A' <= c <= 'Z' then (c as int + 32) as char else c
  }

  function UpperChar(c: char): char {
    if 'a' <= c <= 'z' then (c as int - 32) as char else c
  }

  /** `String.prototype.toLowerCase`, restricted to the ASCII letters. */
  function Lower(s: string): (r: string)
    ensures |r| == |s|
    ensures forall i :: 0 <= i < |s| ==> r[i] == LowerChar(s[i])
  {
    seq(|s|, i requires 0 <= i < |s| => LowerChar(s[i]))
  }

  /** `String.prototype.toUpperCase`, restricted to the ASCII letters. */
  function Upper(s: string): (r: string)
    ensures |r| == |s|
    ensures forall i :: 0 <= i < |s| ==> r[i] == UpperChar(s[i])
  {
    seq(|s|, i requires 0 <= i < |s| => UpperChar(s[i]))
  }

  predicate IsUpperCase(s: string) {
    forall i :: 0 <= i < |s| ==> !('a' <= s[i] <= 'z')
  }

  /** Upper-casing yields an upper-case string and leaves one unchanged, so
      upper-casing twice is upper-casing once. */
  lemma UpperIsUpperCase(s: string)
    ensures IsUpperCase(Upper(s))
    ensures IsUpperCase(s) ==> Upper(s) == s
    ensures Upper(Upper(s)) == Upper(s)
  {
  }

  /** JavaScript whitespace: the characters the regular expression `\s`
      matches and `String.prototype.trim` strips. */
  predicate IsSpace(c: char) {
    var n := c as int;
    (9 <= n <= 13) || n == 32 || n == 0xA0 || n == 0x1680 || (0x2000 <= n <= 0x200A)
    || n == 0x2028 || n == 0x2029 || n == 0x202F || n == 0x205F || n == 0x3000 || n == 0xFEFF
  }

  predicate NoSpaces(s: string) {
    forall i :: 0 <= i < |s| ==> !IsSpace(s[i])
  }

  /** The string after its leading whitespace. */
  function SkipSpaces(s: string): (r: string)
    ensures |r| <= |s| && r == s[|s| - |r|..]
    ensures |r| > 0 ==> !IsSpace(r[0])
  {
    if |s| > 0 && IsSpace(s[0]) then SkipSpaces(s[1..]) else s
  }

  predicate AllSpaces(s: string) {
    forall i :: 0 <= i < |s| ==> IsSpace(s[i])
  }

  /** A run of whitespace followed by a non-space (or the end) is skipped
      whole. */
  lemma {:induction false} SkipSpacesRun(w: string, y: string)
    requires AllSpaces(w) && (|y| == 0 || !IsSpace(y[0]))
    ensures SkipSpaces(w + y) == y
  {
    if |w| > 0 {
      assert (w + y)[0] == w[0];
      assert (w + y)[1..] == w[1..] + y;
      SkipSpacesRun(w[1..], y);
    } else {
      assert w + y == y;
    }
  }

  /** `String.prototype.trim`, which Mongoose applies to a `trim: true`
      string field when it is assigned: leading and trailing whitespace go. */
  function Trim(s: string): (r: string)
    ensures |r| <= |s|
    ensures |r| > 0 ==> !IsSpace(r[0]) && !IsSpace(r[|r| - 1])
    ensures r == "" <==> AllSpaces(s)
    decreases |s|
  {
    if |s| > 0 && IsSpace(s[0]) then Trim(s[1..])
    else if |s| > 0 && IsSpace(s[|s| - 1]) then Trim(s[..|s| - 1])
    else s
  }

  /** Trimming keeps exactly the block between the leading and the trailing
      whitespace: given any split of `s` into whitespace, a block with
      non-space ends, and whitespace, `Trim` returns that block. */
  lemma {:induction false} TrimKeepsCore(s: string, a: nat, b: nat)
    requires a < b <= |s| && !IsSpace(s[a]) && !IsSpace(s[b - 1])
    requires AllSpaces(s[..a]) && AllSpaces(s[b..])
    ensures Trim(s) == s[a..b]
    decreases |s|
  {
    if a > 0 {
      assert IsSpace(s[..a][0]);
      DropFirstSplit(s, a, b);
      TrimKeepsCore(s[1..], a - 1, b - 1);
    } else if b < |s| {
      assert IsSpace(s[b..][|s| - 1 - b]);
      DropLastSplit(s, b);
      TrimKeepsCore(s[..|s| - 1], 0, b);
    } else {
      assert s[0..|s|] == s;
    }
  }

  /** The split `TrimKeepsCore` needs, one character further on. */
  lemma DropFirstSplit(s: string, a: nat, b: nat)
    requires 0 < a < b <= |s| && AllSpaces(s[..a]) && AllSpaces(s[b..])
    ensures s[1..][a - 1] == s[a] && s[1..][b - 2] == s[b - 1]
    ensures AllSpaces(s[1..][..a - 1]) && AllSpaces(s[1..][b - 1..])
    ensures s[1..][a - 1..b - 1] == s[a..b]
  {
    assert s[1..][..a - 1] == s[1..a];
    assert s[1..][b - 1..] == s[b..];
    forall i | 0 <= i < a - 1 ensures IsSpace(s[1..a][i]) {
      assert s[1..a][i] == s[..a][i + 1];
    }
  }

  /** The split `TrimKeepsCore` needs, one character shorter. */
  lemma DropLastSplit(s: string, b: nat)
    requires 0 < b < |s| && AllSpaces(s[b..])
    ensures s[..|s| - 1][b - 1] == s[b - 1] && s[..|s| - 1][0] == s[0]
    ensures AllSpaces(s[..|s| - 1][..0]) && AllSpaces(s[..|s| - 1][b..])
    ensures s[..|s| - 1][0..b] == s[0..b]
  {
    var t := s[b..|s| - 1];
    assert s[..|s| - 1][b..] == t;
    forall i | 0 <= i < |t| ensures IsSpace(t[i]) {
      assert t[i] == s[b..][i];
    }
  }

  /** Trimming twice is trimming once. */
  lemma TrimIdempotent(s: string)
    ensures Trim(Trim(s)) == Trim(s)
  {
    var r := Trim(s);
    if |r| > 0 {
      assert r[..0] == [] && r[|r|..] == [];
      TrimKeepsCore(r, 0, |r|);
      assert r[0..|r|] == r;
    }
  }

  /** `String.prototype.includes`: `sub` occurs in `s` as a contiguous block. */
  predicate Contains(s: string, sub: string) {
    exists i :: 0 <= i <= |s| - |sub| && OccursAt(s, sub, i)
  }

  predicate OccursAt(s: string, sub: string, i: int) {
    0 <= i <= |s| - |sub| && s[i..i + |sub|] == sub
  }

  function Min(a: int, b: int): int { if a <= b then a else b }
  function Max(a: int, b: int): int { if a >= b then a else b }
}

=== FILE: decimal.dfy ===
/** Decimal strings as JavaScript builds them: `Number.prototype.toString` on a
    non-negative integer, `String.prototype.padStart` with '0', and
    `slice(-k)`; plus the reading back of a digit string, so that formatted
    values can be shown to round-trip. */
module Decimal {

  predicate IsDigit(c: char) { '0' <= c <= '9' }

  predicate AllDigits(s: string) {
    forall i :: 0 <= i < |s| ==> IsDigit(s[i])
  }

  function DigitChar(d: nat): (c: char)
    requires d < 10
    ensures IsDigit(c)
  {
    ('0' as int + d) as char
  }

  function DigitValue(c: char): (d: nat)
    requires IsDigit(c)
    ensures d < 10
  {
    c as int - '0' as int
  }

  /** `String(n)` for a non-negative integer: no leading zero, at least one digit. */
  function NatToString(n: nat): (s: string)
    ensures |s| >= 1 && AllDigits(s)
    ensures n >= 10 ==> s[0] != '0'
    decreases n
  {
    if n < 10 then [DigitChar(n)] else NatToString(n / 10) + [DigitChar(n % 10)]
  }

  /** The number a digit string denotes (most significant digit first). */
  function DigitsValue(s: string): nat
    requires AllDigits(s)
  {
    if |s| == 0 then 0 else DigitsValue(s[..|s| - 1]) * 10 + DigitValue(s[|s| - 1])
  }

  /** Reading back what `NatToString` wrote gives the number again. */
  lemma {:induction false} NatToStringRoundTrip(n: nat)
    ensures DigitsValue(NatToString(n)) == n
    decreases n
  {
    var s := NatToString(n);
    if n >= 10 {
      NatToStringRoundTrip(n / 10);
      assert s[..|s| - 1] == NatToString(n / 10);
    }
  }

  /** A number below 10^k has at most k digits; below 10, 100, 10000 in particular. */
  lemma {:induction false} NatToStringLength(n: nat, k: nat)
    requires n < Pow10(k)
    ensures |NatToString(n)| <= Max1(k)
    decreases n
  {
    assert Pow10(0) == 1 && Pow10(1) == 10;
    if n >= 10 {
      NatToStringLength(n / 10, k - 1);
    }
  }

  /** A number of at least 10^k has more than k digits. */
  lemma {:induction false} NatToStringLengthAtLeast(n: nat, k: nat)
    requires n >= Pow10(k)
    ensures |NatToString(n)| >= k + 1
    decreases n
  {
    if k > 0 {
      assert n >= 10;
      NatToStringLengthAtLeast(n / 10, k - 1);
    }
  }

  function Pow10(k: nat): (p: nat)
    ensures p >= 1
  {
    if k == 0 then 1 else 10 * Pow10(k - 1)
  }

  function Max1(k: nat): nat { if k == 0 then 1 else k }

  /** `s.padStart(width, pad)`: pads on the left to `width` characters; a
      string already that long is returned unchanged. */
  function PadStart(s: string, width: nat, pad: char): (r: string)
    ensures |r| == if |s| >= width then |s| else width
    ensures r[|r| - |s|..] == s
    ensures forall i :: 0 <= i < |r| - |s| ==> r[i] == pad
  {
    if |s| >= width then s else seq(width - |s|, _ => pad) + s
  }

  /** Leading zeros do not change the value of a digit string. */
  lemma {:induction false} LeadingZeros(z: string, s: string)
    requires forall i :: 0 <= i < |z| ==> z[i] == '0'
    requires AllDigits(s)
    ensures AllDigits(z + s)
    ensures DigitsValue(z + s) == DigitsValue(s)
    decreases |s|
  {
    if |s| == 0 {
      assert z + s == z;
      ZerosValue(z);
    } else {
      LeadingZeros(z, s[..|s| - 1]);
      assert (z + s)[..|z + s| - 1] == z + s[..|s| - 1];
    }
  }

  lemma {:induction false} ZerosValue(z: string)
    requires forall i :: 0 <= i < |z| ==> z[i] == '0'
    ensures AllDigits(z) && DigitsValue(z) == 0
  {
    if |z| > 0 {
      ZerosValue(z[..|z| - 1]);
    }
  }

  /** A zero-padded decimal reads back as the number it was made from. */
  lemma PaddedRoundTrip(n: nat, width: nat)
    ensures AllDigits(PadStart(NatToString(n), width, '0'))
    ensures DigitsValue(PadStart(NatToString(n), width, '0')) == n
  {
    var s := NatToString(n);
    var r := PadStart(s, width, '0');
    NatToStringRoundTrip(n);
    if |s| < width {
      LeadingZeros(r[..|r| - |s|], s);
      assert r == r[..|r| - |s|] + s;
    }
  }

  /** `s.slice(-k)`: the last `k` characters, or all of `s` when it is shorter. */
  function TakeLast(s: string, k: nat): (r: string)
    ensures |r| == if |s| <= k then |s| else k
    ensures r == s[|s| - |r|..]
  {
    if |s| <= k then s else s[|s| - k..]
  }

  /** The last two characters of a year of at least two digits are its
      year-of-century, written with two digits. */
  lemma {:induction false} LastTwoDigits(n: nat)
    requires n >= 10
    ensures |TakeLast(NatToString(n), 2)| == 2
    ensures AllDigits(TakeLast(NatToString(n), 2))
    ensures DigitsValue(TakeLast(NatToString(n), 2)) == n % 100
  {
    var s := NatToString(n);
    var high := NatToString(n / 10);
    assert s == high + [DigitChar(n % 10)];
    assert high[|high| - 1] == DigitChar((n / 10) % 10);
    var t := TakeLast(s, 2);
    assert t == [DigitChar((n / 10) % 10), DigitChar(n % 10)];
    assert t[..1] == [DigitChar((n / 10) % 10)];
    assert t[..1][..0] == [];
    assert DigitsValue(t[..1]) == (n / 10) % 10;
    assert DigitsValue(t) == ((n / 10) % 10) * 10 + n % 10;
    YearOfCentury(n);
  }

  lemma YearOfCentury(n: nat)
    ensures ((n / 10) % 10) * 10 + n % 10 == n % 100
  {
    var q := n / 10;
    var p := q / 10;
    assert n == 10 * q + n % 10;
    assert q == 10 * p + q % 10;
    assert n == 100 * p + (q % 10) * 10 + n % 10;
  }
}

=== FILE: order_controller.dfy ===
/** Orders (controllers/orderController.js, models/Order.js): placing an order
    from the request's items or from the cart, with the stock reservation,
    pricing and order number; cancelling it; and who may view it. The clock
    and `Math.random()` are parameters. */
module OrderController {
  import opened Common
  import opened Decimal
  import opened UserModel
  import CartController
  import PromoCodeModel

  datatype OrderStatus = Pending | Processing | Shipped | Delivered | Cancelled

  /** A line of a stored order; `price` is the product's price when ordered. */
  datatype OrderItem = OrderItem(product: ProductId, quantity: int, price: real)

  /** A line the customer asks for: from the request body, or a cart line. */
  datatype LineRequest = LineRequest(product: ProductId, quantity: int)

  /** The promotion recorded on an order by `applyPromoCode`. */
  datatype AppliedDiscount = AppliedDiscount(code: string, kind: PromoCodeModel.DiscountType, value: real, amount: real)

  /** The address part of `shippingAddress`. */
  datatype ShipTo = ShipTo(address: string, city: string, state: string, zip: string, country: string)

  datatype Order = Order(
    id: nat,
    orderNumber: string,
    user: UserId,
    items: seq<OrderItem>,
    subtotal: real,
    shipping: real,
    tax: real,
    total: real,
    status: OrderStatus,
    shippingAddress: ShipTo,
    discount: Option<AppliedDiscount>,
    finalTotal: Option<real>)

  datatype OrderError =
    | CartEmpty
    | ProductNotFound
    | InsufficientStock(product: ProductId)
    | NoShippingAddress
    | OrderNotFound
    | NotAuthorized
    | NotCancellable

  /** The local date the server reads: full year, month from 0, day of month. */
  datatype CalendarDate = CalendarDate(year: nat, month0: nat, day: nat)

  predicate ValidDate(d: CalendarDate) {
    d.month0 < 12 && 1 <= d.day <= 31
  }

  /** Subtotals strictly above this ship free. */
  const FreeShippingThreshold: real := 100.0
  const FlatShipping: real := 10.0
  /** Eight per cent. */
  const TaxRate: real := 0.08

  predicate StockNonNegative(c: Catalog) {
    forall p :: p in c ==> c[p].stock >= 0
  }

  /** Total quantity of `product` over the requests. */
  function QtyFor(reqs: seq<LineRequest>, product: ProductId): int
  {
    if |reqs| == 0 then 0
    else
      var last := reqs[|reqs| - 1];
      QtyFor(reqs[..|reqs| - 1], product) + (if last.product == product then last.quantity else 0)
  }

  /** The product and quantity of each order line. */
  function Requested(items: seq<OrderItem>): (r: seq<LineRequest>)
    ensures |r| == |items|
    ensures forall i :: 0 <= i < |items| ==> r[i] == LineRequest(items[i].product, items[i].quantity)
  {
    seq(|items|, i requires 0 <= i < |items| => LineRequest(items[i].product, items[i].quantity))
  }

  /** `after` is `before` with the requested quantities taken out of stock:
      same products, same prices. */
  predicate Deducted(before: Catalog, after: Catalog, reqs: seq<LineRequest>) {
    && after.Keys == before.Keys
    && (forall p :: p in before ==> after[p].price == before[p].price)
    && (forall p :: p in before ==> after[p].stock == before[p].stock - QtyFor(reqs, p))
  }

  /** `price * quantity` of one line. */
  function LineAmount(item: OrderItem): real {
    item.price * item.quantity as real
  }

  /** Sum of the line amounts. */
  function Subtotal(items: seq<OrderItem>): real {
    if |items| == 0 then 0.0
    else Subtotal(items[..|items| - 1]) + LineAmount(items[|items| - 1])
  }

  /** Shipping, tax and total for a subtotal. */
  datatype Pricing = Pricing(shipping: real, tax: real, total: real)

  /** Shipping is free exactly above the threshold and 10 otherwise; tax is
      eight per cent of the subtotal; the total adds the three. */
  function PriceOf(subtotal: real): (p: Pricing)
    ensures p.shipping == 0.0 <==> subtotal > FreeShippingThreshold
    ensures p.shipping == 0.0 || p.shipping == FlatShipping
    ensures p.tax * 100.0 == subtotal * 8.0
    ensures p.total == subtotal + p.shipping + p.tax
  {
    var shipping := if subtotal > FreeShippingThreshold then 0.0 else FlatShipping;
    var tax := subtotal * TaxRate;
    Pricing(shipping, tax, subtotal + shipping + tax)
  }

  /** Because shipping drops to zero just above the threshold, a larger
      basket can cost less in total: 100 costs 118, 100.5 costs 108.54. */
  lemma FreeShippingCliff()
    ensures PriceOf(100.0).total == 118.0
    ensures PriceOf(100.5).total == 108.54
    ensures PriceOf(100.5).total < PriceOf(100.0).total
  {
  }

  /** `Math.floor(Math.random() * 10000)` for a draw in [0, 1). */
  function RandomSuffix(rnd: real): (n: nat)
    requires 0.0 <= rnd < 1.0
    ensures n < 10000
    ensures n as real <= rnd * 10000.0 < n as real + 1.0
  {
    (rnd * 10000.0).Floor
  }

  /** `ORD-YYMMDD-NNNN`: the last two digits of the year, the month and day
      padded to two digits, and the four-digit random suffix. */
  function FormatOrderNumber(year: nat, month: nat, day: nat, suffix: nat): string {
    "ORD-" + TakeLast(NatToString(year), 2) + PadStart(NatToString(month), 2, '0')
      + PadStart(NatToString(day), 2, '0') + "-" + PadStart(NatToString(suffix), 4, '0')
  }

  datatype OrderNumberParts = OrderNumberParts(yearOfCentury: nat, month: nat, day: nat, suffix: nat)

  /** Reads an order number back into its four fields. */
  function ParseOrderNumber(s: string): (r: Option<OrderNumberParts>)
    ensures r.Some? ==> |s| == 15 && s[..4] == "ORD-" && s[10] == '-'
  {
    if |s| == 15 && s[..4] == "ORD-" && s[10] == '-'
       && AllDigits(s[4..6]) && AllDigits(s[6..8]) && AllDigits(s[8..10]) && AllDigits(s[11..])
    then Some(OrderNumberParts(DigitsValue(s[4..6]), DigitsValue(s[6..8]), DigitsValue(s[8..10]), DigitsValue(s[11..])))
    else None
  }

  /** Where the six pieces of an order number sit in the fifteen characters. */
  lemma {:induction false} OrderNumberLayout(a: string, b: string, c: string, d: string, e: string, f: string)
    requires |a| == 4 && |b| == 2 && |c| == 2 && |d| == 2 && |e| == 1 && |f| == 4
    ensures var s := a + b + c + d + e + f;
      && |s| == 15 && s[..4] == a && s[4..6] == b && s[6..8] == c
      && s[8..10] == d && s[10] == e[0] && s[11..] == f
  {
    var s := a + b + c + d + e + f;
    assert s[..4] == a by { assert forall i :: 0 <= i < 4 ==> s[i] == a[i]; }
    assert s[4..6] == b by { assert forall i :: 0 <= i < 2 ==> s[4 + i] == b[i]; }
    assert s[6..8] == c by { assert forall i :: 0 <= i < 2 ==> s[6 + i] == c[i]; }
    assert s[8..10] == d by { assert forall i :: 0 <= i < 2 ==> s[8 + i] == d[i]; }
    assert s[11..] == f by { assert forall i :: 0 <= i < 4 ==> s[11 + i] == f[i]; }
  }

  /** The two-, two- and four-digit fields of an order number are exactly
      that long and read back as the month, the day and the suffix. */
  lemma PaddedFields(month: nat, day: nat, suffix: nat)
    requires month < 100 && day < 100 && suffix < 10000
    ensures |PadStart(NatToString(month), 2, '0')| == 2
    ensures |PadStart(NatToString(day), 2, '0')| == 2
    ensures |PadStart(NatToString(suffix), 4, '0')| == 4
    ensures AllDigits(PadStart(NatToString(month), 2, '0'))
      && DigitsValue(PadStart(NatToString(month), 2, '0')) == month
    ensures AllDigits(PadStart(NatToString(day), 2, '0'))
      && DigitsValue(PadStart(NatToString(day), 2, '0')) == day
    ensures AllDigits(PadStart(NatToString(suffix), 4, '0'))
      && DigitsValue(PadStart(NatToString(suffix), 4, '0')) == suffix
  {
    assert Pow10(1) == 10 && Pow10(2) == 100 && Pow10(3) == 1000 && Pow10(4) == 10000;
    NatToStringLength(month, 2);
    NatToStringLength(day, 2);
    NatToStringLength(suffix, 4);
    PaddedRoundTrip(month, 2);
    PaddedRoundTrip(day, 2);
    PaddedRoundTrip(suffix, 4);
  }

  /** An order number is always fifteen characters and gives back the
      year of the century, the month, the day and the random suffix. */
  lemma OrderNumberRoundTrip(year: nat, month: nat, day: nat, suffix: nat)
    requires year >= 10 && 1 <= month <= 12 && 1 <= day <= 31 && suffix < 10000
    ensures |FormatOrderNumber(year, month, day, suffix)| == 15
    ensures ParseOrderNumber(FormatOrderNumber(year, month, day, suffix))
      == Some(OrderNumberParts(year % 100, month, day, suffix))
  {
    LastTwoDigits(year);
    PaddedFields(month, day, suffix);
    var yy := TakeLast(NatToString(year), 2);
    var mm := PadStart(NatToString(month), 2, '0');
    var dd := PadStart(NatToString(day), 2, '0');
    var nn := PadStart(NatToString(suffix), 4, '0');
    OrderNumberLayout("ORD-", yy, mm, dd, "-", nn);
  }

  /** The order number for a date and a random draw. */
  function OrderNumberFor(date: CalendarDate, rnd: real): (s: string)
    requires ValidDate(date) && 0.0 <= rnd < 1.0
    ensures date.year >= 10 ==>
      ParseOrderNumber(s) == Some(OrderNumberParts(date.year % 100, date.month0 + 1, date.day, RandomSuffix(rnd)))
  {
    var s := FormatOrderNumber(date.year, date.month0 + 1, date.day, RandomSuffix(rnd));
    if date.year >= 10 then
      OrderNumberRoundTrip(date.year, date.month0 + 1, date.day, RandomSuffix(rnd));
      s
    else s
  }

  /** Index of the first default address (`addresses.find(a => a.isDefault)`). */
  function FindDefault(book: seq<Address>): (r: Option<nat>)
    ensures r.Some? ==> r.value < |book| && book[r.value].isDefault
    ensures r.Some? ==> forall j :: 0 <= j < r.value ==> !book[j].isDefault
    ensures r.None? <==> forall j :: 0 <= j < |book| ==> !book[j].isDefault
  {
    if |book| == 0 then None
    else if book[0].isDefault then Some(0)
    else match FindDefault(book[1..])
      case None => None
      case Some(i) => Some(i + 1)
  }

  function ShipToOf(a: Address): ShipTo {
    ShipTo(a.street, a.city, a.state, a.zipCode, a.country)
  }

  /** The lines an order is placed for: the request's items when given,
      otherwise the cart's lines. */
  function OrderRequests(requested: Option<seq<LineRequest>>, cart: Option<seq<CartController.CartLine>>): (r: seq<LineRequest>)
    ensures requested.Some? ==> r == requested.value
    ensures requested.None? ==> |r| == |cart.GetOr([])|
    ensures requested.None? ==> forall i :: 0 <= i < |r| ==>
      r[i] == LineRequest(cart.value[i].product, cart.value[i].quantity)
  {
    match requested
    case Some(items) => items
    case None =>
      var lines := cart.GetOr([]);
      seq(|lines|, i requires 0 <= i < |lines| => LineRequest(lines[i].product, lines[i].quantity))
  }

  datatype CreateOutcome =
    | Created(order: Order, catalog: Catalog, cart: Option<seq<CartController.CartLine>>)
    | CreateFailed(error: OrderError, catalog: Catalog)

  datatype Reservation =
    | Reserved(catalog: Catalog, items: seq<OrderItem>, subtotal: real)
    | ReserveFailed(error: OrderError, catalog: Catalog)

  /** Taking one more line out of stock extends the deduction by that line. */
  lemma DeductStep(before: Catalog, stock: Catalog, reqs: seq<LineRequest>, k: nat)
    requires k < |reqs| && Deducted(before, stock, reqs[..k]) && reqs[k].product in stock
    requires StockNonNegative(stock) && reqs[k].quantity <= stock[reqs[k].product].stock
    ensures var p := reqs[k].product;
      var after := stock[p := stock[p].(stock := stock[p].stock - reqs[k].quantity)];
      Deducted(before, after, reqs[..k + 1]) && StockNonNegative(after)
  {
    assert reqs[..k + 1][..k] == reqs[..k];
  }

  /** Each order line is the request at the same position, priced at the
      catalogue price of its product. */
  predicate PricedFrom(catalog: Catalog, reqs: seq<LineRequest>, items: seq<OrderItem>) {
    && |items| == |reqs|
    && forall i :: 0 <= i < |reqs| ==>
         reqs[i].product in catalog
         && items[i] == OrderItem(reqs[i].product, reqs[i].quantity, catalog[reqs[i].product].price)
  }

  lemma PricedRequested(catalog: Catalog, reqs: seq<LineRequest>, items: seq<OrderItem>)
    requires PricedFrom(catalog, reqs, items)
    ensures Requested(items) == reqs
  {
  }

  /** Pricing one more line extends the priced prefix and the subtotal. */
  lemma PricedStep(catalog: Catalog, reqs: seq<LineRequest>, k: nat, items: seq<OrderItem>, subtotal: real)
    requires k < |reqs| && reqs[k].product in catalog
    requires PricedFrom(catalog, reqs[..k], items) && subtotal == Subtotal(items)
    ensures var item := OrderItem(reqs[k].product, reqs[k].quantity, catalog[reqs[k].product].price);
      && PricedFrom(catalog, reqs[..k + 1], items + [item])
      && Subtotal(items + [item]) == subtotal + LineAmount(item)
  {
    var item := OrderItem(reqs[k].product, reqs[k].quantity, catalog[reqs[k].product].price);
    assert (items + [item])[..|items|] == items;
    assert reqs[..k + 1] == reqs[..k] + [reqs[k]];
  }

  /** What holds after the stock loop has handled the first `k` lines. */
  predicate ReservedUpTo(catalog: Catalog, reqs: seq<LineRequest>, k: nat,
                         stock: Catalog, items: seq<OrderItem>, subtotal: real) {
    && k <= |reqs|
    && Deducted(catalog, stock, reqs[..k])
    && StockNonNegative(stock)
    && PricedFrom(catalog, reqs[..k], items)
    && subtotal == Subtotal(items)
  }

  /** One turn of the stock loop keeps `ReservedUpTo`. */
  lemma ReserveTurn(catalog: Catalog, reqs: seq<LineRequest>, k: nat,
                    stock: Catalog, items: seq<OrderItem>, subtotal: real)
    requires ReservedUpTo(catalog, reqs, k, stock, items, subtotal) && k < |reqs|
    requires reqs[k].product in stock && reqs[k].quantity <= stock[reqs[k].product].stock
    ensures var p := reqs[k].product;
      var item := OrderItem(p, reqs[k].quantity, stock[p].price);
      ReservedUpTo(catalog, reqs, k + 1,
        stock[p := stock[p].(stock := stock[p].stock - reqs[k].quantity)],
        items + [item], subtotal + LineAmount(item))
  {
    DeductStep(catalog, stock, reqs, k);
    PricedStep(catalog, reqs, k, items, subtotal);
  }

  /** The stock loop stopped at line `k`, the first line that fails: the
      lines before it name existing products and were taken out of stock, and
      line `k` names a product that does not exist or one whose remaining
      stock is below the line's quantity. */
  predicate FailsAt(catalog: Catalog, r: Reservation, reqs: seq<LineRequest>, k: int) {
    && r.ReserveFailed?
    && 0 <= k < |reqs|
    && (forall j :: 0 <= j < k ==> reqs[j].product in catalog)
    && Deducted(catalog, r.catalog, reqs[..k])
    && (r.error == ProductNotFound <==> reqs[k].product !in catalog)
    && (r.error != ProductNotFound ==>
          r.error == InsufficientStock(reqs[k].product) && r.catalog[reqs[k].product].stock < reqs[k].quantity)
  }

  /** The stock loop of `createOrder`: each line in turn must name an existing
      product whose current stock covers it, and its quantity is then taken
      out of stock and the line priced at the stored price. The first line
      that fails ends the loop; what earlier lines took stays taken. */
  method ReserveStock(catalog: Catalog, reqs: seq<LineRequest>) returns (r: Reservation)
    requires StockNonNegative(catalog)
    requires forall i :: 0 <= i < |reqs| ==> reqs[i].quantity >= 1
    ensures StockNonNegative(r.catalog)
    ensures r.Reserved? ==>
      && Deducted(catalog, r.catalog, reqs)
      && PricedFrom(catalog, reqs, r.items)
      && r.subtotal == Subtotal(r.items)
    ensures r.ReserveFailed? ==> exists k :: FailsAt(catalog, r, reqs, k)
  {
    var stock: Catalog := catalog;
    var items: seq<OrderItem> := [];
    var subtotal := 0.0;
    var k := 0;
    while k < |reqs|
      invariant ReservedUpTo(catalog, reqs, k, stock, items, subtotal)
    {
      var req := reqs[k];
      if req.product !in stock {
        assert req.product !in catalog;
        r := ReserveFailed(ProductNotFound, stock);
        assert FailsAt(catalog, r, reqs, k);
        return;
      }
      var product := stock[req.product];
      if product.stock < req.quantity {
        r := ReserveFailed(InsufficientStock(req.product), stock);
        assert FailsAt(catalog, r, reqs, k);
        return;
      }
      ReserveTurn(catalog, reqs, k, stock, items, subtotal);
      stock := stock[req.product := product.(stock := product.stock - req.quantity)];
      var item := OrderItem(req.product, req.quantity, product.price);
      items := items + [item];
      subtotal := subtotal + LineAmount(item);
      k := k + 1;
    }
    assert reqs[..k] == reqs;
    r := Reserved(stock, items, subtotal);
  }

  /** `createOrder`. The cart must be non-empty when the request names no
      items; the stock loop runs; a missing shipping address is only noticed
      after all the stock is taken, and nothing is given back then. On
      success the order is pending, priced from the stored prices, and the
      cart is deleted if the lines came from it. */
  method CreateOrder(catalog: Catalog, requested: Option<seq<LineRequest>>, cart: Option<seq<CartController.CartLine>>,
                     shipTo: Option<ShipTo>, account: Account, date: CalendarDate, rnd: real, orderId: nat)
    returns (r: CreateOutcome)
    requires StockNonNegative(catalog)
    requires requested.Some? ==> forall i :: 0 <= i < |requested.value| ==> requested.value[i].quantity >= 1
    requires cart.Some? ==> forall i :: 0 <= i < |cart.value| ==> cart.value[i].quantity >= 1
    requires ValidDate(date) && 0.0 <= rnd < 1.0
    ensures requested.None? && |cart.GetOr([])| == 0 ==> r == CreateFailed(CartEmpty, catalog)
    ensures r.CreateFailed? && r.error == CartEmpty ==> requested.None? && |cart.GetOr([])| == 0
    ensures StockNonNegative(r.catalog)
    ensures r.Created? ==> var reqs := OrderRequests(requested, cart);
      && Deducted(catalog, r.catalog, reqs)
      && PricedFrom(catalog, reqs, r.order.items)
      && Requested(r.order.items) == reqs
    ensures r.Created? ==>
      && r.order.id == orderId
      && r.order.user == account.id
      && r.order.status == Pending
      && r.order.discount.None? && r.order.finalTotal.None?
      && r.order.subtotal == Subtotal(r.order.items)
      && Pricing(r.order.shipping, r.order.tax, r.order.total) == PriceOf(r.order.subtotal)
      && r.order.orderNumber == OrderNumberFor(date, rnd)
    ensures r.Created? ==> match shipTo
      case Some(a) => r.order.shippingAddress == a
      case None =>
        && FindDefault(account.addresses).Some?
        && r.order.shippingAddress == ShipToOf(account.addresses[FindDefault(account.addresses).value])
    ensures r.Created? ==> r.cart == (if requested.None? then None else cart)
    ensures r.CreateFailed? && r.error != CartEmpty && r.error != NoShippingAddress ==>
      exists k :: FailsAt(catalog, ReserveFailed(r.error, r.catalog), OrderRequests(requested, cart), k)
    ensures r.CreateFailed? && r.error == NoShippingAddress ==>
      && shipTo.None? && FindDefault(account.addresses).None?
      && Deducted(catalog, r.catalog, OrderRequests(requested, cart))
      && forall i :: 0 <= i < |OrderRequests(requested, cart)| ==> OrderRequests(requested, cart)[i].product in catalog
  {
    if requested.None? && |cart.GetOr([])| == 0 {
      return CreateFailed(CartEmpty, catalog);
    }
    var reqs := OrderRequests(requested, cart);
    var reservation := ReserveStock(catalog, reqs);
    if reservation.ReserveFailed? {
      return CreateFailed(reservation.error, reservation.catalog);
    }
    var address: ShipTo;
    match shipTo {
      case Some(a) => address := a;
      case None =>
        match FindDefault(account.addresses) {
          case None => return CreateFailed(NoShippingAddress, reservation.catalog);
          case Some(i) => address := ShipToOf(account.addresses[i]);
        }
    }
    PricedRequested(catalog, reqs, reservation.items);
    var pricing := PriceOf(reservation.subtotal);
    var order := Order(orderId, OrderNumberFor(date, rnd), account.id, reservation.items, reservation.subtotal,
                       pricing.shipping, pricing.tax, pricing.total, Pending, address, None, None);
    r := Created(order, reservation.catalog, if requested.None? then None else cart);
  }

  /** Stock after `$inc`-ing each order line back. */
  function Restock(catalog: Catalog, items: seq<OrderItem>): (c: Catalog)
    ensures c.Keys == catalog.Keys
    ensures forall p :: p in catalog ==> c[p].price == catalog[p].price
    ensures forall p :: p in catalog ==> c[p].stock == catalog[p].stock + QtyFor(Requested(items), p)
  {
    if |items| == 0 then catalog
    else
      var prefix := items[..|items| - 1];
      var last := items[|items| - 1];
      var c := Restock(catalog, prefix);
      assert Requested(items)[..|items| - 1] == Requested(prefix);
      if last.product in c then c[last.product := c[last.product].(stock := c[last.product].stock + last.quantity)]
      else c
  }

  datatype CancelOutcome =
    | CancelledOrder(order: Order, catalog: Catalog)
    | CancelFailed(error: OrderError)

  /** `cancelOrder`: only the owner, and only while pending; the ordered
      quantities go back into stock (lines whose product is gone are skipped)
      and the status becomes cancelled. */
  function CancelOrder(order: Option<Order>, caller: UserId, catalog: Catalog): (r: CancelOutcome)
    ensures order.None? ==> r == CancelFailed(OrderNotFound)
    ensures order.Some? && order.value.user != caller ==> r == CancelFailed(NotAuthorized)
    ensures order.Some? && order.value.user == caller && order.value.status != Pending ==>
      r == CancelFailed(NotCancellable)
    ensures r.CancelledOrder? <==> order.Some? && order.value.user == caller && order.value.status == Pending
    ensures r.CancelledOrder? ==> r.order == order.value.(status := Cancelled)
    ensures r.CancelledOrder? ==> r.catalog.Keys == catalog.Keys
    ensures r.CancelledOrder? ==> forall p :: p in catalog ==>
      r.catalog[p] == catalog[p].(stock := catalog[p].stock + QtyFor(Requested(order.value.items), p))
  {
    match order
    case None => CancelFailed(OrderNotFound)
    case Some(o) =>
      if o.user != caller then CancelFailed(NotAuthorized)
      else if o.status != Pending then CancelFailed(NotCancellable)
      else CancelledOrder(o.(status := Cancelled), Restock(catalog, o.items))
  }

  /** Cancelling an order that was just placed gives back exactly the stock
      placing it took, and a cancelled order cannot be cancelled again. */
  lemma CancelUndoesCreate(before: Catalog, after: Catalog, o: Order, caller: UserId)
    requires Deducted(before, after, Requested(o.items))
    requires o.status == Pending && o.user == caller
    ensures CancelOrder(Some(o), caller, after) == CancelledOrder(o.(status := Cancelled), before)
    ensures CancelOrder(Some(o.(status := Cancelled)), caller, before) == CancelFailed(NotCancellable)
  {
    var c := CancelOrder(Some(o), caller, after).catalog;
    assert c.Keys == before.Keys;
    forall p | p in before
      ensures c[p] == before[p]
    {
    }
  }

  /** `getOrder`: the owner or an administrator may see an order. */
  function ViewOrder(order: Option<Order>, caller: UserId, role: Role): (r: Result<Order, OrderError>)
    ensures order.None? ==> r == Err(OrderNotFound)
    ensures r.Ok? <==> order.Some? && (order.value.user == caller || role == Admin)
    ensures r.Ok? ==> r.value == order.value
    ensures r.Err? && order.Some? ==> r.error == NotAuthorized
  {
    match order
    case None => Err(OrderNotFound)
    case Some(o) =>
      if o.user != caller && role != Admin then Err(NotAuthorized) else Ok(o)
  }
}

=== FILE: promo_code.dfy ===
/** The stored promo code (models/PromoCode.js): its fields and schema bounds,
    the validity predicate `isValid`, the per-user eligibility `canUserUse`,
    and the usage ledger they read. */
module PromoCodeModel {
  import opened Common

  datatype DiscountType = Percentage | Fixed

  /** One element of `userUsage`: how often `user` redeemed, and when last. */
  datatype UsageEntry = UsageEntry(user: UserId, count: int, usedAt: Time)

  /** The promo fields the rules read. `applicableProducts`,
      `applicableCategories` and `excludedProducts` are stored but never
      evaluated, so they are not part of the model. */
  datatype Promo = Promo(
    id: nat,
    code: string,
    discountType: DiscountType,
    discountValue: real,
    minOrderAmount: real,
    maxDiscount: Option<real>,
    startDate: Time,
    endDate: Time,
    usageLimit: Option<int>,
    usedCount: int,
    perUserLimit: int,
    userUsage: seq<UsageEntry>,
    firstTimeOnly: bool,
    isActive: bool)

  const MaxCodeLength: nat := 50
  const DefaultPerUserLimit: int := 1

  /** The bounds the schema's validators put on every stored promo: the code
      is upper-cased and at most 50 characters, amounts are non-negative, a
      usage limit is at least 1 when set, the per-user limit at least 1. */
  predicate SchemaValid(p: Promo) {
    && |p.code| <= MaxCodeLength
    && IsUpperCase(p.code)
    && p.discountValue >= 0.0
    && p.minOrderAmount >= 0.0
    && (p.maxDiscount.Some? ==> p.maxDiscount.value >= 0.0)
    && (p.usageLimit.Some? ==> p.usageLimit.value >= 1)
    && p.usedCount >= 0
    && p.perUserLimit >= 1
  }

  /** `isValid`: active, inside the inclusive date window, and below the
      global usage limit when one is set (`null` means unlimited). */
  predicate IsValid(p: Promo, now: Time) {
    && p.isActive
    && now >= p.startDate
    && now <= p.endDate
    && (p.usageLimit.None? || p.usedCount < p.usageLimit.value)
  }

  /** Index of the first ledger entry of `user` (`Array.prototype.find`). */
  function FindUsage(entries: seq<UsageEntry>, user: UserId): (r: Option<nat>)
    ensures r.Some? ==> r.value < |entries| && entries[r.value].user == user
    ensures r.Some? ==> forall j :: 0 <= j < r.value ==> entries[j].user != user
    ensures r.None? <==> forall j :: 0 <= j < |entries| ==> entries[j].user != user
  {
    if |entries| == 0 then None
    else if entries[0].user == user then Some(0)
    else match FindUsage(entries[1..], user)
      case None => None
      case Some(i) => Some(i + 1)
  }

  /** How often `user` has redeemed according to the ledger (0 when absent). */
  function UsageCount(entries: seq<UsageEntry>, user: UserId): int {
    match FindUsage(entries, user)
    case None => 0
    case Some(i) => entries[i].count
  }

  /** `canUserUse`: a first-time-only promo that has been used by anyone is
      closed to everybody; otherwise a user without a ledger entry may use
      it, and one with an entry only while below the per-user limit. */
  function CanUserUse(p: Promo, user: UserId): (ok: bool)
    ensures p.firstTimeOnly && p.usedCount > 0 ==> !ok
    ensures !(p.firstTimeOnly && p.usedCount > 0) && FindUsage(p.userUsage, user).None? ==> ok
    ensures FindUsage(p.userUsage, user).Some? && ok ==> UsageCount(p.userUsage, user) < p.perUserLimit
    ensures !(p.firstTimeOnly && p.usedCount > 0) && UsageCount(p.userUsage, user) < p.perUserLimit ==> ok
  {
    if p.firstTimeOnly && p.usedCount > 0 then false
    else match FindUsage(p.userUsage, user)
      case None => true
      case Some(i) => p.userUsage[i].count < p.perUserLimit
  }

  /** Sum of the ledger's counts. */
  function TotalCount(entries: seq<UsageEntry>): int {
    if |entries| == 0 then 0 else entries[0].count + TotalCount(entries[1..])
  }

  predicate DistinctUsers(entries: seq<UsageEntry>) {
    forall i, j :: 0 <= i < j < |entries| ==> entries[i].user != entries[j].user
  }

  /** What every redemption keeps true of a stored promo: the schema bounds,
      `usedCount <= usageLimit`, every ledger count in `1..perUserLimit`, one
      ledger entry per user, and `usedCount` equal to the ledger's total. */
  predicate Invariant(p: Promo) {
    && SchemaValid(p)
    && (p.usageLimit.Some? ==> p.usedCount <= p.usageLimit.value)
    && (forall i :: 0 <= i < |p.userUsage| ==> 1 <= p.userUsage[i].count <= p.perUserLimit)
    && DistinctUsers(p.userUsage)
    && p.usedCount == TotalCount(p.userUsage)
  }

  /** The date window is inclusive at both ends, and the promo is invalid
      whenever it is inactive, not yet started, ended, or used up. */
  lemma ValidityConditions(p: Promo, now: Time)
    ensures !p.isActive ==> !IsValid(p, now)
    ensures now < p.startDate || now > p.endDate ==> !IsValid(p, now)
    ensures p.usageLimit.Some? && p.usedCount >= p.usageLimit.value ==> !IsValid(p, now)
    ensures p.isActive && p.usageLimit.None? && p.startDate <= p.endDate ==>
      IsValid(p, p.startDate) && IsValid(p, p.endDate)
  {
  }
}

=== FILE: promo_controller.dfy ===
/** The promo handlers (controllers/promoController.js): quoting a code,
    redeeming it against an order with the usage bookkeeping, creating a code,
    and the delete guards. The promo collection is a sequence of stored
    promos; the order is the stored order the request names, or `None`. */
module PromoController {
  import opened Common
  import opened PromoCodeModel
  import OrderController

  datatype PromoError =
    | PromoNotFound
    | ExpiredOrInactive
    | BelowMinimum(minimum: real)
    | UsageLimitReached
    | OrderNotFound
    | NotOrderOwner
    | CodeExists
    | AlreadyUsed
    | SomeAlreadyUsed(codes: seq<string>)
    | NoIdsGiven
    | OrderSaveFailed

  /** JavaScript truthiness of an optional number: absent and zero are false. */
  predicate Truthy(x: Option<real>) {
    x.Some? && x.value != 0.0
  }

  /** Index of the stored promo whose code is the upper-cased request code. */
  function FindByCode(store: seq<Promo>, code: string): (r: Option<nat>)
    ensures r.Some? ==> r.value < |store| && store[r.value].code == Upper(code)
    ensures r.Some? ==> forall j :: 0 <= j < r.value ==> store[j].code != Upper(code)
    ensures r.None? <==> forall j :: 0 <= j < |store| ==> store[j].code != Upper(code)
  {
    if |store| == 0 then None
    else if store[0].code == Upper(code) then Some(0)
    else match FindByCode(store[1..], code)
      case None => None
      case Some(i) => Some(i + 1)
  }

  /** Index of the stored promo with the given id. */
  function FindById(store: seq<Promo>, id: nat): (r: Option<nat>)
    ensures r.Some? ==> r.value < |store| && store[r.value].id == id
    ensures r.Some? ==> forall j :: 0 <= j < r.value ==> store[j].id != id
    ensures r.None? <==> forall j :: 0 <= j < |store| ==> store[j].id != id
  {
    if |store| == 0 then None
    else if store[0].id == id then Some(0)
    else match FindById(store[1..], id)
      case None => None
      case Some(i) => Some(i + 1)
  }

  /** The discount on `amount`: a percentage of it, cut down to `maxDiscount`
      when that is truthy (so a cap of 0 or none is no cap), or the fixed
      value whatever the amount. */
  function ComputeDiscount(p: Promo, amount: real): (d: real)
    ensures p.discountType == Fixed ==> d == p.discountValue
    ensures p.discountType == Percentage && !Truthy(p.maxDiscount) ==> d * 100.0 == amount * p.discountValue
    ensures p.discountType == Percentage && Truthy(p.maxDiscount) ==>
      && d <= p.maxDiscount.value
      && d * 100.0 <= amount * p.discountValue
      && (d * 100.0 == amount * p.discountValue || d == p.maxDiscount.value)
  {
    match p.discountType
    case Percentage =>
      var raw := amount * p.discountValue / 100.0;
      if Truthy(p.maxDiscount) && p.maxDiscount.value < raw then p.maxDiscount.value else raw
    case Fixed => p.discountValue
  }

  /** A percentage of at most 100 on a non-negative amount never exceeds the
      amount and is never negative, with or without a cap. */
  lemma PercentageWithinAmount(p: Promo, amount: real)
    requires SchemaValid(p) && p.discountType == Percentage && p.discountValue <= 100.0
    requires amount >= 0.0
    ensures 0.0 <= ComputeDiscount(p, amount) <= amount
  {
    var w := 100.0 - p.discountValue;
    assert amount * p.discountValue >= 0.0;
    assert amount * w >= 0.0;
    assert amount * p.discountValue + amount * w == amount * 100.0;
  }

  /** The worked examples: 20% capped at 30 on 200 gives 30; 20% with a cap
      of 0 on 200 gives the uncapped 40; a fixed 15 gives 15 on any amount. */
  lemma DiscountExamples(p: Promo)
    ensures ComputeDiscount(p.(discountType := Percentage, discountValue := 20.0, maxDiscount := Some(30.0)), 200.0) == 30.0
    ensures ComputeDiscount(p.(discountType := Percentage, discountValue := 20.0, maxDiscount := Some(0.0)), 200.0) == 40.0
    ensures ComputeDiscount(p.(discountType := Fixed, discountValue := 15.0), 200.0) == 15.0
    ensures ComputeDiscount(p.(discountType := Fixed, discountValue := 15.0), 5.0) == 15.0
  {
  }

  /** What `validatePromoCode` returns on success. */
  datatype Quote = Quote(promoId: nat, code: string, discountAmount: real)

  /** `validatePromoCode`. Checks, in order: the code exists, the promo is
      valid now, the amount (only when truthy) reaches the minimum, and the
      user (only when given) may still use it. The discount is 0 when no
      truthy amount is given. */
  function ValidatePromo(store: seq<Promo>, code: string, orderAmount: Option<real>,
                         user: Option<UserId>, now: Time): (r: Result<Quote, PromoError>)
    ensures FindByCode(store, code).None? ==> r == Err(PromoNotFound)
    ensures FindByCode(store, code).Some? ==> var p := store[FindByCode(store, code).value];
      && (!IsValid(p, now) ==> r == Err(ExpiredOrInactive))
      && (IsValid(p, now) && Truthy(orderAmount) && orderAmount.value < p.minOrderAmount ==>
            r == Err(BelowMinimum(p.minOrderAmount)))
      && (r.Ok? <==>
            && IsValid(p, now)
            && (Truthy(orderAmount) ==> orderAmount.value >= p.minOrderAmount)
            && (user.Some? ==> CanUserUse(p, user.value)))
      && (r.Err? && IsValid(p, now) && !(Truthy(orderAmount) && orderAmount.value < p.minOrderAmount) ==>
            r == Err(UsageLimitReached))
      && (r.Ok? ==> r.value.promoId == p.id && r.value.code == p.code)
      && (r.Ok? && !Truthy(orderAmount) ==> r.value.discountAmount == 0.0)
      && (r.Ok? && Truthy(orderAmount) ==> r.value.discountAmount == ComputeDiscount(p, orderAmount.value))
  {
    match FindByCode(store, code)
    case None => Err(PromoNotFound)
    case Some(i) =>
      var p := store[i];
      if !IsValid(p, now) then Err(ExpiredOrInactive)
      else if Truthy(orderAmount) && orderAmount.value < p.minOrderAmount then Err(BelowMinimum(p.minOrderAmount))
      else if user.Some? && !CanUserUse(p, user.value) then Err(UsageLimitReached)
      else Ok(Quote(p.id, p.code, if Truthy(orderAmount) then ComputeDiscount(p, orderAmount.value) else 0.0))
  }

  /** Sum of counts after replacing one ledger entry. */
  lemma {:induction false} TotalCountUpdate(entries: seq<UsageEntry>, i: nat, e: UsageEntry)
    requires i < |entries|
    ensures TotalCount(entries[i := e]) == TotalCount(entries) - entries[i].count + e.count
  {
    if i > 0 {
      TotalCountUpdate(entries[1..], i - 1, e);
      assert entries[i := e][1..] == entries[1..][i - 1 := e];
    }
  }

  /** Sum of counts after appending one ledger entry. */
  lemma {:induction false} TotalCountAppend(entries: seq<UsageEntry>, e: UsageEntry)
    ensures TotalCount(entries + [e]) == TotalCount(entries) + e.count
  {
    if |entries| == 0 {
      assert entries + [e] == [e];
    } else {
      TotalCountAppend(entries[1..], e);
      assert (entries + [e])[1..] == entries[1..] + [e];
    }
  }

  /** The ledger lookup only reads the users of the entries. */
  lemma {:induction false} FindUsageSameUsers(a: seq<UsageEntry>, b: seq<UsageEntry>, u: UserId)
    requires |a| == |b| && forall k :: 0 <= k < |a| ==> a[k].user == b[k].user
    ensures FindUsage(a, u) == FindUsage(b, u)
  {
    if |a| > 0 {
      FindUsageSameUsers(a[1..], b[1..], u);
    }
  }

  /** Looking up a user after appending an entry. */
  lemma {:induction false} FindUsageAppend(entries: seq<UsageEntry>, e: UsageEntry, u: UserId)
    ensures FindUsage(entries + [e], u) ==
      match FindUsage(entries, u)
      case Some(i) => Some(i)
      case None => if e.user == u then Some(|entries|) else None
  {
    if |entries| == 0 {
      assert entries + [e] == [e];
    } else {
      FindUsageAppend(entries[1..], e, u);
      assert (entries + [e])[1..] == entries[1..] + [e];
    }
  }

  /** The usage bookkeeping of a redemption: `usedCount` goes up by one; the
      user's first ledger entry gets one more use and a new `usedAt`, or a
      new entry with one use is appended. */
  function RecordUsage(p: Promo, user: UserId, now: Time): (q: Promo)
    ensures q.usedCount == p.usedCount + 1
    ensures FindUsage(p.userUsage, user).None? ==> q.userUsage == p.userUsage + [UsageEntry(user, 1, now)]
    ensures FindUsage(p.userUsage, user).Some? ==> |q.userUsage| == |p.userUsage|
    ensures q == p.(usedCount := q.usedCount, userUsage := q.userUsage)
  {
    var ledger := match FindUsage(p.userUsage, user)
      case Some(i) => p.userUsage[i := p.userUsage[i].(count := p.userUsage[i].count + 1, usedAt := now)]
      case None => p.userUsage + [UsageEntry(user, 1, now)];
    p.(usedCount := p.usedCount + 1, userUsage := ledger)
  }

  /** A redemption gives the redeeming user exactly one more recorded use
      and leaves every other user's count as it was. */
  lemma RecordUsageCounts(p: Promo, user: UserId, now: Time)
    ensures UsageCount(RecordUsage(p, user, now).userUsage, user) == UsageCount(p.userUsage, user) + 1
    ensures forall u :: u != user ==>
      UsageCount(RecordUsage(p, user, now).userUsage, u) == UsageCount(p.userUsage, u)
  {
    var ledger := RecordUsage(p, user, now).userUsage;
    forall u
      ensures FindUsage(ledger, u) == FindUsage(p.userUsage, u) || (u == user && FindUsage(p.userUsage, u).None?)
      ensures u == user && FindUsage(p.userUsage, u).None? ==> FindUsage(ledger, u) == Some(|p.userUsage|)
    {
      match FindUsage(p.userUsage, user)
      case Some(i) => FindUsageSameUsers(ledger, p.userUsage, u);
      case None => FindUsageAppend(p.userUsage, UsageEntry(user, 1, now), u);
    }
  }

  /** A redemption keeps every stored-promo invariant, provided it passed the
      validity and per-user checks: the global count stays within the usage
      limit, each user's count within the per-user limit, one entry per user,
      and `usedCount` equal to the ledger total. */
  lemma RecordUsageKeepsInvariant(p: Promo, user: UserId, now: Time)
    requires Invariant(p) && IsValid(p, now) && CanUserUse(p, user)
    ensures Invariant(RecordUsage(p, user, now))
  {
    RecordUsageCounts(p, user, now);
    match FindUsage(p.userUsage, user)
    case Some(i) => RepeatUseKeepsInvariant(p, user, now, i);
    case None => FirstUseKeepsInvariant(p, user, now);
  }

  lemma RepeatUseKeepsInvariant(p: Promo, user: UserId, now: Time, i: nat)
    requires Invariant(p) && IsValid(p, now) && CanUserUse(p, user)
    requires FindUsage(p.userUsage, user) == Some(i)
    requires UsageCount(RecordUsage(p, user, now).userUsage, user) == UsageCount(p.userUsage, user) + 1
    ensures Invariant(RecordUsage(p, user, now))
  {
    var q := RecordUsage(p, user, now);
    var e := p.userUsage[i].(count := p.userUsage[i].count + 1, usedAt := now);
    assert q.userUsage == p.userUsage[i := e];
    TotalCountUpdate(p.userUsage, i, e);
    assert DistinctUsers(q.userUsage);
  }

  lemma FirstUseKeepsInvariant(p: Promo, user: UserId, now: Time)
    requires Invariant(p) && IsValid(p, now) && CanUserUse(p, user)
    requires FindUsage(p.userUsage, user).None?
    ensures Invariant(RecordUsage(p, user, now))
  {
    var q := RecordUsage(p, user, now);
    TotalCountAppend(p.userUsage, UsageEntry(user, 1, now));
    assert DistinctUsers(q.userUsage);
  }

  /** What `applyPromoCode` produces: the updated order and promo collection. */
  datatype Redemption = Redemption(order: OrderController.Order, store: seq<Promo>, discountAmount: real)

  /** `applyPromoCode`. The order must exist and belong to the caller before
      the promo is looked at; then the same checks as a quote, but the
      minimum and the per-user limit are always checked, against the order
      total. On success the order records the discount and `finalTotal =
      total - discount` (which a fixed discount can make negative), and the
      promo's usage is recorded for the caller. */
  function ApplyPromo(store: seq<Promo>, code: string, order: Option<OrderController.Order>, caller: UserId, now: Time):
    (r: Result<Redemption, PromoError>)
    ensures order.None? ==> r == Err(PromoError.OrderNotFound)
    ensures order.Some? && order.value.user != caller ==> r == Err(NotOrderOwner)
    ensures order.Some? && order.value.user == caller && FindByCode(store, code).None? ==> r == Err(PromoNotFound)
    ensures r.Ok? <==>
      && order.Some? && order.value.user == caller
      && FindByCode(store, code).Some?
      && IsValid(store[FindByCode(store, code).value], now)
      && order.value.total >= store[FindByCode(store, code).value].minOrderAmount
      && CanUserUse(store[FindByCode(store, code).value], caller)
    ensures r.Ok? ==> var i := FindByCode(store, code).value; var p := store[i];
      var d := ComputeDiscount(p, order.value.total);
      && r.value.discountAmount == d
      && r.value.order == order.value.(discount := Some(OrderController.AppliedDiscount(p.code, p.discountType, p.discountValue, d)),
                                       finalTotal := Some(order.value.total - d))
      && r.value.store == store[i := RecordUsage(p, caller, now)]
  {
    match order
    case None => Err(PromoError.OrderNotFound)
    case Some(o) =>
      if o.user != caller then Err(NotOrderOwner)
      else match FindByCode(store, code)
        case None => Err(PromoNotFound)
        case Some(i) =>
          var p := store[i];
          if !IsValid(p, now) then Err(ExpiredOrInactive)
          else if o.total < p.minOrderAmount then Err(BelowMinimum(p.minOrderAmount))
          else if !CanUserUse(p, caller) then Err(UsageLimitReached)
          else
            var d := ComputeDiscount(p, o.total);
            Ok(Redemption(
              o.(discount := Some(OrderController.AppliedDiscount(p.code, p.discountType, p.discountValue, d)),
                 finalTotal := Some(o.total - d)),
              store[i := RecordUsage(p, caller, now)],
              d))
  }

  /** Every stored promo satisfies the invariant. */
  predicate StoreInvariant(store: seq<Promo>) {
    forall i :: 0 <= i < |store| ==> Invariant(store[i])
  }

  /** A successful apply keeps the invariant of the whole promo collection,
      and changes only the redeemed promo, and that by exactly one use by
      the caller. */
  lemma ApplyKeepsInvariant(store: seq<Promo>, code: string, order: Option<OrderController.Order>, caller: UserId, now: Time)
    requires StoreInvariant(store)
    ensures var r := ApplyPromo(store, code, order, caller, now);
      r.Ok? ==> StoreInvariant(r.value.store) && |r.value.store| == |store|
    ensures var r := ApplyPromo(store, code, order, caller, now);
      r.Ok? ==> var i := FindByCode(store, code).value;
        && r.value.store[i].usedCount == store[i].usedCount + 1
        && UsageCount(r.value.store[i].userUsage, caller) == UsageCount(store[i].userUsage, caller) + 1
        && (forall j :: 0 <= j < |store| && j != i ==> r.value.store[j] == store[j])
  {
    var r := ApplyPromo(store, code, order, caller, now);
    if r.Ok? {
      var i := FindByCode(store, code).value;
      RecordUsageKeepsInvariant(store[i], caller, now);
      RecordUsageCounts(store[i], caller, now);
    }
  }

  /** The quote and the redemption agree whenever the order total is not
      zero: same verdict, same discount. */
  lemma QuoteMatchesApply(store: seq<Promo>, code: string, o: OrderController.Order, caller: UserId, now: Time)
    requires o.user == caller && o.total != 0.0
    ensures var q := ValidatePromo(store, code, Some(o.total), Some(caller), now);
      var r := ApplyPromo(store, code, Some(o), caller, now);
      && (q.Ok? <==> r.Ok?)
      && (q.Ok? ==> q.value.discountAmount == r.value.discountAmount)
      && (q.Err? ==> q.error == r.error)
  {
  }

  /** With a zero total the two disagree: a quote skips the minimum for a
      falsy amount, while the redemption still rejects 0 below a positive
      minimum. */
  lemma ZeroTotalQuoteDiffers(store: seq<Promo>, code: string, o: OrderController.Order, caller: UserId, now: Time)
    requires o.user == caller && o.total == 0.0
    requires FindByCode(store, code).Some?
    requires var p := store[FindByCode(store, code).value];
      IsValid(p, now) && p.minOrderAmount > 0.0 && CanUserUse(p, caller)
    ensures ValidatePromo(store, code, Some(o.total), Some(caller), now).Ok?
    ensures ApplyPromo(store, code, Some(o), caller, now)
      == Err(BelowMinimum(store[FindByCode(store, code).value].minOrderAmount))
  {
  }

  /** A fixed discount larger than the total leaves a negative final total. */
  lemma FixedDiscountCanExceedTotal(store: seq<Promo>, code: string, o: OrderController.Order, caller: UserId, now: Time)
    requires ApplyPromo(store, code, Some(o), caller, now).Ok?
    requires store[FindByCode(store, code).value].discountType == Fixed
    requires store[FindByCode(store, code).value].discountValue > o.total
    ensures ApplyPromo(store, code, Some(o), caller, now).value.order.finalTotal.value < 0.0
  {
  }

  /** `applyPromoCode` as written. The Order schema declares `discount` as a
      Number (models/Order.js:81-84), so assigning the discount object fails
      the cast and `order.save()` rejects; the error reaches Express as a 500
      before the usage update runs. Every request that passes the checks
      therefore fails, and neither the order nor the promo collection is
      changed. */
  function ApplyPromoAsWritten(store: seq<Promo>, code: string, order: Option<OrderController.Order>, caller: UserId, now: Time):
    (r: Result<Redemption, PromoError>)
    ensures r.Err?
    ensures r == Err(OrderSaveFailed) <==>
      && order.Some? && order.value.user == caller
      && FindByCode(store, code).Some?
      && IsValid(store[FindByCode(store, code).value], now)
      && order.value.total >= store[FindByCode(store, code).value].minOrderAmount
      && CanUserUse(store[FindByCode(store, code).value], caller)
  {
    match ApplyPromo(store, code, order, caller, now)
    case Ok(_) => Err(OrderSaveFailed)
    case Err(e) => Err(e)
  }

  /** The discrepancy: a first redemption of a valid 10% code on a 100.00
      order succeeds in the corrected model, recording one use, while the
      code as written answers with the save error and records nothing. */
  lemma ApplyAsWrittenNeverRedeems(now: Time)
    ensures var p := Promo(0, "SAVE10", Percentage, 10.0, 0.0, None, now, now + 1, None, 0, 1, [], false, true);
      var o := OrderController.Order(5, "ORD-5", 1, [], 100.0, 0.0, 0.0, 100.0, OrderController.Pending,
                                     OrderController.ShipTo("1 Main St", "Springfield", "IL", "62701", "US"), None, None);
      && ApplyPromo([p], "save10", Some(o), 1, now).Ok?
      && ApplyPromo([p], "save10", Some(o), 1, now).value.store[0].usedCount == 1
      && ApplyPromoAsWritten([p], "save10", Some(o), 1, now) == Err(OrderSaveFailed)
  {
  }

  /** After redeeming a promo, the caller is turned away once they reach the
      per-user limit, and a first-time-only promo is closed to everyone. */
  lemma RedeemedPromoLimits(p: Promo, caller: UserId, other: UserId, now: Time)
    requires Invariant(p) && IsValid(p, now) && CanUserUse(p, caller)
    ensures UsageCount(RecordUsage(p, caller, now).userUsage, caller) == p.perUserLimit ==>
      !CanUserUse(RecordUsage(p, caller, now), caller)
    ensures p.perUserLimit == 1 ==> !CanUserUse(RecordUsage(p, caller, now), caller)
    ensures p.firstTimeOnly ==> !CanUserUse(RecordUsage(p, caller, now), other)
  {
    RecordUsageCounts(p, caller, now);
    if FindUsage(p.userUsage, caller).Some? {
      assert UsageCount(p.userUsage, caller) >= 1;
    }
  }

  /** The fields of a create request; `None` is a field the body leaves out. */
  datatype PromoInput = PromoInput(
    code: string,
    discountType: DiscountType,
    discountValue: real,
    minOrderAmount: Option<real>,
    maxDiscount: Option<real>,
    startDate: Time,
    endDate: Time,
    usageLimit: Option<int>,
    perUserLimit: Option<int>,
    firstTimeOnly: Option<bool>,
    isActive: Option<bool>)

  /** What the request validator accepts. */
  predicate InputAccepted(input: PromoInput) {
    && 1 <= |input.code| <= MaxCodeLength
    && input.discountValue >= 0.0
    && (input.minOrderAmount.Some? ==> input.minOrderAmount.value >= 0.0)
    && (input.maxDiscount.Some? ==> input.maxDiscount.value >= 0.0)
    && input.endDate > input.startDate
    && (input.usageLimit.Some? ==> input.usageLimit.value >= 1)
    && (input.perUserLimit.Some? ==> input.perUserLimit.value >= 1)
  }

  /** No two stored promos share a code. */
  predicate UniqueCodes(store: seq<Promo>) {
    forall i, j :: 0 <= i < j < |store| ==> store[i].code != store[j].code
  }

  /** The promo a create request stores: the upper-cased code, no uses,
      and the defaults `minOrderAmount || 0`, `perUserLimit || 1`,
      `firstTimeOnly || false`, and active unless `isActive` is given. */
  function NewPromo(input: PromoInput, newId: nat): (p: Promo)
    requires InputAccepted(input)
    ensures p.id == newId && p.code == Upper(input.code)
    ensures p.usedCount == 0 && p.userUsage == []
    ensures p.minOrderAmount == input.minOrderAmount.GetOr(0.0)
    ensures p.perUserLimit == input.perUserLimit.GetOr(DefaultPerUserLimit)
    ensures p.firstTimeOnly == input.firstTimeOnly.GetOr(false)
    ensures p.isActive == input.isActive.GetOr(true)
    ensures p.discountType == input.discountType && p.discountValue == input.discountValue
    ensures p.maxDiscount == input.maxDiscount && p.usageLimit == input.usageLimit
    ensures p.startDate == input.startDate && p.endDate == input.endDate
    ensures Invariant(p)
  {
    UpperIsUpperCase(input.code);
    Promo(
      newId,
      Upper(input.code),
      input.discountType,
      input.discountValue,
      if input.minOrderAmount.Some? && input.minOrderAmount.value != 0.0 then input.minOrderAmount.value else 0.0,
      input.maxDiscount,
      input.startDate,
      input.endDate,
      input.usageLimit,
      0,
      if input.perUserLimit.Some? && input.perUserLimit.value != 0 then input.perUserLimit.value else DefaultPerUserLimit,
      [],
      input.firstTimeOnly.GetOr(false),
      input.isActive.GetOr(true))
  }

  /** `createPromoCode`: rejects a code that, upper-cased, is already
      stored; otherwise appends the new promo, which keeps codes unique and
      is then what the code finds. */
  function CreatePromo(store: seq<Promo>, input: PromoInput, newId: nat): (r: Result<seq<Promo>, PromoError>)
    requires InputAccepted(input)
    ensures FindByCode(store, input.code).Some? <==> r == Err(CodeExists)
    ensures r.Err? ==> r == Err(CodeExists)
    ensures r.Ok? ==> r.value == store + [NewPromo(input, newId)]
    ensures r.Ok? && UniqueCodes(store) ==> UniqueCodes(r.value)
    ensures r.Ok? ==> FindByCode(r.value, input.code) == Some(|store|)
  {
    match FindByCode(store, input.code)
    case Some(_) => Err(CodeExists)
    case None =>
      var p := NewPromo(input, newId);
      FindByCodeAppend(store, p, input.code);
      Ok(store + [p])
  }

  /** Looking a code up after appending a promo that carries it, when no
      earlier promo does, finds the appended one. */
  lemma {:induction false} FindByCodeAppend(store: seq<Promo>, p: Promo, code: string)
    requires FindByCode(store, code).None? && p.code == Upper(code)
    ensures FindByCode(store + [p], code) == Some(|store|)
  {
    if |store| == 0 {
      assert store + [p] == [p];
    } else {
      assert (store + [p])[1..] == store[1..] + [p];
      FindByCodeAppend(store[1..], p, code);
    }
  }

  /** `deletePromoCode`: an unknown id or a promo used at least once is
      refused; otherwise exactly that promo is removed. */
  function DeletePromo(store: seq<Promo>, id: nat): (r: Result<seq<Promo>, PromoError>)
    ensures FindById(store, id).None? ==> r == Err(PromoNotFound)
    ensures FindById(store, id).Some? && store[FindById(store, id).value].usedCount > 0 ==> r == Err(AlreadyUsed)
    ensures FindById(store, id).Some? && store[FindById(store, id).value].usedCount <= 0 ==> r.Ok?
    ensures r.Ok? ==> var i := FindById(store, id).value;
      store[i].usedCount <= 0 && r.value == store[..i] + store[i + 1..]
  {
    match FindById(store, id)
    case None => Err(PromoNotFound)
    case Some(i) =>
      if store[i].usedCount > 0 then Err(AlreadyUsed)
      else Ok(store[..i] + store[i + 1..])
  }

  function CodesOf(store: seq<Promo>): (codes: seq<string>)
    ensures |codes| == |store|
    ensures forall i :: 0 <= i < |store| ==> codes[i] == store[i].code
  {
    seq(|store|, i requires 0 <= i < |store| => store[i].code)
  }

  /** `bulkDeletePromoCodes`: refuses a missing or empty id list; refuses,
      naming their codes, if any listed promo has been used, and then deletes
      nothing; otherwise removes exactly the listed promos. */
  function BulkDeletePromos(store: seq<Promo>, ids: Option<seq<nat>>): (r: Result<seq<Promo>, PromoError>)
    ensures ids.None? || |ids.value| == 0 ==> r == Err(NoIdsGiven)
    ensures r.Err? && ids.Some? && |ids.value| > 0 ==>
      && r.error.SomeAlreadyUsed? && |r.error.codes| > 0
      && exists i :: 0 <= i < |store| && store[i].id in ids.value && store[i].usedCount > 0
    ensures r.Err? && ids.Some? && |ids.value| > 0 ==>
      forall i :: 0 <= i < |store| && store[i].id in ids.value && store[i].usedCount > 0 ==> store[i].code in r.error.codes
    ensures r.Err? && ids.Some? && |ids.value| > 0 ==>
      forall j :: 0 <= j < |r.error.codes| ==>
        exists i :: 0 <= i < |store| && store[i].id in ids.value && store[i].usedCount > 0 && store[i].code == r.error.codes[j]
    ensures r.Ok? ==> ids.Some?
    ensures r.Ok? ==> forall i :: 0 <= i < |store| && store[i].id in ids.value ==> store[i].usedCount <= 0
    ensures r.Ok? ==> forall i :: 0 <= i < |r.value| ==> r.value[i].id !in ids.value
    ensures r.Ok? ==> forall i :: 0 <= i < |store| ==> (store[i] in r.value <==> store[i].id !in ids.value)
    ensures r.Ok? ==> r.value == Filter(store, (p: Promo) => p.id !in ids.value)
  {
    match ids
    case None => Err(NoIdsGiven)
    case Some(list) =>
      if |list| == 0 then Err(NoIdsGiven)
      else
        var used := Filter(store, (p: Promo) => p.id in list && p.usedCount > 0);
        FilterKeepsExactly(store, (p: Promo) => p.id in list && p.usedCount > 0);
        if |used| > 0 then
          FilterMembership(store, (p: Promo) => p.id in list && p.usedCount > 0, used[0]);
          FilterSound(store, (p: Promo) => p.id in list && p.usedCount > 0);
          Err(SomeAlreadyUsed(CodesOf(used)))
        else
          var kept := Filter(store, (p: Promo) => p.id !in list);
          FilterKeepsExactly(store, (p: Promo) => p.id !in list);
          Ok(kept)
  }

  /** A promo that has been used survives every delete request. */
  lemma UsedPromoNeverDeleted(store: seq<Promo>, k: nat, id: nat, ids: Option<seq<nat>>)
    requires k < |store| && store[k].usedCount > 0
    ensures DeletePromo(store, id).Ok? ==> store[k] in DeletePromo(store, id).value
    ensures BulkDeletePromos(store, ids).Ok? ==> store[k] in BulkDeletePromos(store, ids).value
  {
    if DeletePromo(store, id).Ok? {
      var i := FindById(store, id).value;
      assert k != i;
      if k < i {
        assert store[k] == (store[..i] + store[i + 1..])[k];
      } else {
        assert store[k] == (store[..i] + store[i + 1..])[k - 1];
      }
    }
  }
}

=== FILE: review_controller.dfy ===
/** The review handlers of controllers/reviewController.js: creating a
    review after a delivered purchase, editing one's own review, the
    "helpful" toggle, reporting, and moderation. The review collection is a
    sequence; the orders the purchase check searches are an input. */
module ReviewController {
  import opened Common
  import opened ReviewModel
  import OrderController

  datatype ReviewError =
    | ProductNotFound
    | NotPurchased
    | AlreadyReviewed
    | ReviewNotFound
    | CannotUpdateApproved
    | AlreadyReported
    | FieldRequired

  /** The validated body of a new review. */
  datatype ReviewInput = ReviewInput(rating: int, title: string, comment: string, images: Option<seq<string>>)

  /** An edit; `None` and the empty string are the falsy values that keep
      the old field. */
  datatype ReviewPatch = ReviewPatch(
    rating: Option<int>, title: Option<string>, comment: Option<string>, images: Option<seq<string>>)

  predicate HasProduct(o: OrderController.Order, product: ProductId) {
    exists j :: 0 <= j < |o.items| && o.items[j].product == product
  }

  /** The order that proves the purchase: a delivered order of the user's
      that holds the product. */
  predicate ProvesPurchase(o: OrderController.Order, user: UserId, product: ProductId) {
    o.user == user && o.status == OrderController.Delivered && HasProduct(o, product)
  }

  /** `Order.findOne(...)`: the first order proving the purchase. */
  function FindPurchase(orders: seq<OrderController.Order>, user: UserId, product: ProductId): (r: Option<nat>)
    ensures r.Some? ==> r.value < |orders| && ProvesPurchase(orders[r.value], user, product)
    ensures r.Some? ==> forall i :: 0 <= i < r.value ==> !ProvesPurchase(orders[i], user, product)
    ensures r.None? <==> forall i :: 0 <= i < |orders| ==> !ProvesPurchase(orders[i], user, product)
  {
    if |orders| == 0 then None
    else if ProvesPurchase(orders[0], user, product) then Some(0)
    else match FindPurchase(orders[1..], user, product)
      case None => None
      case Some(i) => Some(i + 1)
  }

  /** Whether the user already has a review of the product. */
  predicate HasReviewed(reviews: seq<Review>, product: ProductId, user: UserId) {
    exists i :: 0 <= i < |reviews| && reviews[i].product == product && reviews[i].user == user
  }

  /** Appending a review adds its rating to the product's rating input only
      when it is approved. */
  lemma {:induction false} ApprovedRatingsAppend(reviews: seq<Review>, x: Review, product: ProductId)
    ensures ApprovedRatings(reviews + [x], product)
         == ApprovedRatings(reviews, product) + (if Counted(x, product) then [x.rating] else [])
    decreases |reviews|
  {
    if |reviews| == 0 {
      assert reviews + [x] == [x];
    } else {
      ApprovedRatingsAppend(reviews[1..], x, product);
      ApprovedRatingsUnfold(reviews, x, product);
    }
  }

  /** One unfolding of `ApprovedRatings` on `reviews + [x]`. */
  lemma ApprovedRatingsUnfold(reviews: seq<Review>, x: Review, product: ProductId)
    requires |reviews| > 0
    ensures ApprovedRatings(reviews + [x], product)
         == (if Counted(reviews[0], product) then [reviews[0].rating] else [])
            + ApprovedRatings(reviews[1..] + [x], product)
  {
    assert (reviews + [x])[0] == reviews[0];
    assert (reviews + [x])[1..] == reviews[1..] + [x];
  }

  /** The review `Review.create` stores: the given ids, the order that
      proves the purchase, the trimmed title and comment, pending and a
      verified purchase, with no helpful marks and no reports. */
  predicate FreshReview(n: Review, id: nat, product: ProductId, user: UserId, order: nat, input: ReviewInput) {
    && n.id == id && n.product == product && n.user == user && n.order == order
    && n.rating == input.rating && n.title == Trim(input.title) && n.comment == Trim(input.comment)
    && n.images == input.images.GetOr([])
    && n.status == Pending && n.isVerifiedPurchase
    && n.helpful == [] && n.helpfulCount == 0 && n.reported == [] && n.reportCount == 0
  }

  /** `createReview`: an unknown product, a user without a delivered order
      holding it, and a second review by the same user are refused, in that
      order. The schema trims the title and the comment and requires both,
      so a title or comment of only whitespace fails when the review is
      created. Otherwise a pending, verified-purchase review is added. */
  function CreateReview(catalog: Catalog, orders: seq<OrderController.Order>, reviews: seq<Review>,
                        product: ProductId, user: UserId, input: ReviewInput, newId: nat):
    (r: Result<seq<Review>, ReviewError>)
    requires RatingInRange(input.rating)
    ensures product !in catalog ==> r == Err(ProductNotFound)
    ensures product in catalog && FindPurchase(orders, user, product).None? ==> r == Err(NotPurchased)
    ensures r.Ok? <==> product in catalog && FindPurchase(orders, user, product).Some?
                       && !HasReviewed(reviews, product, user)
                       && Trim(input.title) != "" && Trim(input.comment) != ""
    ensures product in catalog && FindPurchase(orders, user, product).Some? && HasReviewed(reviews, product, user) ==>
      r == Err(AlreadyReviewed)
    ensures r.Err? && product in catalog && FindPurchase(orders, user, product).Some?
              && !HasReviewed(reviews, product, user) ==>
      r == Err(FieldRequired)
    ensures r.Ok? ==> |r.value| == |reviews| + 1 && r.value[..|reviews|] == reviews
    ensures r.Ok? ==>
      FreshReview(r.value[|reviews|], newId, product, user, orders[FindPurchase(orders, user, product).value].id, input)
    ensures r.Ok? && OneReviewPerUser(reviews) ==> OneReviewPerUser(r.value)
    ensures r.Ok? && AllRatingsInRange(reviews) ==> AllRatingsInRange(r.value)
  {
    if product !in catalog then Err(ProductNotFound)
    else match FindPurchase(orders, user, product)
      case None => Err(NotPurchased)
      case Some(k) =>
        if HasReviewed(reviews, product, user) then Err(AlreadyReviewed)
        else if Trim(input.title) == "" || Trim(input.comment) == "" then Err(FieldRequired)
        else
          var review := Review(newId, product, user, orders[k].id, input.rating, Trim(input.title), Trim(input.comment),
                               input.images.GetOr([]), Pending, true, [], 0, [], 0);
          Ok(reviews + [review])
  }

  /** A new review waits for moderation, so creating one leaves every
      product's rating input as it was. */
  lemma CreateLeavesRatingsAlone(catalog: Catalog, orders: seq<OrderController.Order>, reviews: seq<Review>,
                                 product: ProductId, user: UserId, input: ReviewInput, newId: nat, p: ProductId)
    requires RatingInRange(input.rating)
    requires CreateReview(catalog, orders, reviews, product, user, input, newId).Ok?
    ensures ApprovedRatings(CreateReview(catalog, orders, reviews, product, user, input, newId).value, p)
         == ApprovedRatings(reviews, p)
  {
    var r := CreateReview(catalog, orders, reviews, product, user, input, newId).value;
    assert r == reviews + [r[|reviews|]];
    ApprovedRatingsAppend(reviews, r[|reviews|], p);
  }

  /** Index of the first review with the given id, optionally also owned by
      the given user. */
  function FindReview(reviews: seq<Review>, id: nat, owner: Option<UserId>): (r: Option<nat>)
    ensures r.Some? ==> r.value < |reviews| && reviews[r.value].id == id
    ensures r.Some? && owner.Some? ==> reviews[r.value].user == owner.value
    ensures r.Some? ==> forall i :: 0 <= i < r.value ==>
      reviews[i].id != id || (owner.Some? && reviews[i].user != owner.value)
    ensures r.None? <==> forall i :: 0 <= i < |reviews| ==>
      reviews[i].id != id || (owner.Some? && reviews[i].user != owner.value)
  {
    if |reviews| == 0 then None
    else if reviews[0].id == id && (owner.None? || reviews[0].user == owner.value) then Some(0)
    else match FindReview(reviews[1..], id, owner)
      case None => None
      case Some(i) => Some(i + 1)
  }

  function KeepIfFalsy<T>(incoming: Option<T>, current: T, falsy: T -> bool): T {
    if incoming.Some? && !falsy(incoming.value) then incoming.value else current
  }

  /** The string `incoming || current` assigns. */
  function Assigned(incoming: Option<string>, current: string): string {
    if incoming.Some? && incoming.value != "" then incoming.value else current
  }

  /** The four assignments of `updateReview`, each `incoming || current`;
      the title and the comment go through the schema's trim. */
  function Edited(current: Review, patch: ReviewPatch): (e: Review)
    ensures patch.rating.Some? && patch.rating.value != 0 ==> e.rating == patch.rating.value
    ensures patch.rating.None? || patch.rating.value == 0 ==> e.rating == current.rating
    ensures e.title == Trim(Assigned(patch.title, current.title))
    ensures e.comment == Trim(Assigned(patch.comment, current.comment))
    ensures e.images == patch.images.GetOr(current.images)
    ensures e == current.(rating := e.rating, title := e.title, comment := e.comment, images := e.images)
  {
    current.(
      rating := KeepIfFalsy(patch.rating, current.rating, (v: int) => v == 0),
      title := Trim(Assigned(patch.title, current.title)),
      comment := Trim(Assigned(patch.comment, current.comment)),
      images := KeepIfFalsy(patch.images, current.images, (s: seq<string>) => false))
  }

  /** `updateReview`: only the caller's own review, and not once approved;
      each truthy incoming field replaces the stored one. The title and the
      comment pass through the schema's trim on assignment, and saving fails
      when either is then empty. */
  function UpdateReview(reviews: seq<Review>, reviewId: nat, caller: UserId, patch: ReviewPatch):
    (r: Result<seq<Review>, ReviewError>)
    requires patch.rating.Some? ==> RatingInRange(patch.rating.value)
    ensures FindReview(reviews, reviewId, Some(caller)).None? ==> r == Err(ReviewNotFound)
    ensures r.Ok? <==> FindReview(reviews, reviewId, Some(caller)).Some?
                       && var prior := reviews[FindReview(reviews, reviewId, Some(caller)).value];
                       && prior.status != Approved
                       && Trim(Assigned(patch.title, prior.title)) != ""
                       && Trim(Assigned(patch.comment, prior.comment)) != ""
    ensures FindReview(reviews, reviewId, Some(caller)).Some?
            && reviews[FindReview(reviews, reviewId, Some(caller)).value].status == Approved ==>
      r == Err(CannotUpdateApproved)
    ensures r.Err? && FindReview(reviews, reviewId, Some(caller)).Some?
            && reviews[FindReview(reviews, reviewId, Some(caller)).value].status != Approved ==>
      r == Err(FieldRequired)
    ensures r.Ok? ==> var i := FindReview(reviews, reviewId, Some(caller)).value;
      && |r.value| == |reviews|
      && (forall j :: 0 <= j < |reviews| && j != i ==> r.value[j] == reviews[j])
      && r.value[i].rating == patch.rating.GetOr(reviews[i].rating)
      && (patch.title.Some? && patch.title.value != "" ==> r.value[i].title == Trim(patch.title.value))
      && (patch.title.None? || patch.title.value == "" ==> r.value[i].title == Trim(reviews[i].title))
      && (patch.comment.Some? && patch.comment.value != "" ==> r.value[i].comment == Trim(patch.comment.value))
      && (patch.comment.None? || patch.comment.value == "" ==> r.value[i].comment == Trim(reviews[i].comment))
      && r.value[i].images == patch.images.GetOr(reviews[i].images)
      && r.value[i] == reviews[i].(rating := r.value[i].rating, title := r.value[i].title,
                                   comment := r.value[i].comment, images := r.value[i].images)
    ensures r.Ok? && AllRatingsInRange(reviews) ==> AllRatingsInRange(r.value)
  {
    match FindReview(reviews, reviewId, Some(caller))
    case None => Err(ReviewNotFound)
    case Some(i) =>
      var current := reviews[i];
      if current.status == Approved then Err(CannotUpdateApproved)
      else
        var edited := Edited(current, patch);
        if edited.title == "" || edited.comment == "" then Err(FieldRequired)
        else Ok(reviews[i := edited])
  }

  /** An edit is only possible before approval, and it keeps the review
      out of the rating, so no product's rating input changes. */
  lemma UpdateLeavesRatingsAlone(reviews: seq<Review>, reviewId: nat, caller: UserId, patch: ReviewPatch, p: ProductId)
    requires patch.rating.Some? ==> RatingInRange(patch.rating.value)
    requires UpdateReview(reviews, reviewId, caller, patch).Ok?
    ensures ApprovedRatings(UpdateReview(reviews, reviewId, caller, patch).value, p) == ApprovedRatings(reviews, p)
  {
    var i := FindReview(reviews, reviewId, Some(caller)).value;
    var r := UpdateReview(reviews, reviewId, caller, patch).value;
    assert r == reviews[i := r[i]];
    UncountedIrrelevant(reviews, p, i, r[i]);
  }

  /** The helpful list holds each user once and the counter matches it. */
  predicate HelpfulConsistent(rv: Review) {
    Distinct(rv.helpful) && rv.helpfulCount == |rv.helpful|
  }

  /** The review after the toggle, and whether it is now marked helpful. */
  datatype HelpfulMark = HelpfulMark(review: Review, isHelpful: bool)

  /** `markHelpful`: a user already in the helpful list is taken out and the
      counter goes down; anyone else is appended and the counter goes up. */
  function MarkHelpful(review: Option<Review>, user: UserId): (r: Result<HelpfulMark, ReviewError>)
    ensures r.Err? <==> review.None?
    ensures r.Err? ==> r.error == ReviewNotFound
    ensures r.Ok? ==> var rv := review.value; var nv := r.value.review;
      && (r.value.isHelpful <==> user !in rv.helpful)
      && (user in nv.helpful <==> r.value.isHelpful)
      && (forall u :: u != user ==> (u in nv.helpful <==> u in rv.helpful))
      && (user in rv.helpful ==> nv.helpfulCount == rv.helpfulCount - 1)
      && (user !in rv.helpful ==> nv.helpful == rv.helpful + [user] && nv.helpfulCount == rv.helpfulCount + 1)
      && nv == rv.(helpful := nv.helpful, helpfulCount := nv.helpfulCount)
    ensures r.Ok? && HelpfulConsistent(review.value) ==> HelpfulConsistent(r.value.review)
  {
    match review
    case None => Err(ReviewNotFound)
    case Some(rv) =>
      WithoutMembership(rv.helpful, user);
      if user in rv.helpful then
        if Distinct(rv.helpful) then
          DistinctRemoveOne(rv.helpful, user);
          Ok(HelpfulMark(rv.(helpful := Without(rv.helpful, user), helpfulCount := rv.helpfulCount - 1), false))
        else
          Ok(HelpfulMark(rv.(helpful := Without(rv.helpful, user), helpfulCount := rv.helpfulCount - 1), false))
      else
        Ok(HelpfulMark(rv.(helpful := rv.helpful + [user], helpfulCount := rv.helpfulCount + 1), true))
  }

  /** Two toggles by the same user cancel: the same users are marked and the
      counter is back where it was; from an unmarked review the list itself
      comes back unchanged. */
  lemma HelpfulTwiceRestores(rv: Review, user: UserId)
    requires HelpfulConsistent(rv)
    ensures var once := MarkHelpful(Some(rv), user).value.review;
      var twice := MarkHelpful(Some(once), user).value.review;
      && (forall u :: u in twice.helpful <==> u in rv.helpful)
      && twice.helpfulCount == rv.helpfulCount
      && HelpfulConsistent(twice)
      && (user !in rv.helpful ==> twice == rv)
  {
    var once := MarkHelpful(Some(rv), user).value.review;
    if user !in rv.helpful {
      WithoutAppended(rv.helpful, user);
    }
  }

  predicate HasReported(rv: Review, user: UserId) {
    exists j :: 0 <= j < |rv.reported| && rv.reported[j].user == user
  }

  /** One report per user, and the counter matches the reports. */
  predicate ReportsConsistent(rv: Review) {
    rv.reportCount == |rv.reported|
    && forall i, j :: 0 <= i < j < |rv.reported| ==> rv.reported[i].user != rv.reported[j].user
  }

  /** `reportReview`: a user who already reported the review is refused;
      otherwise one report is appended and the counter goes up by one. */
  function ReportReview(review: Option<Review>, user: UserId, reason: string, now: Time): (r: Result<Review, ReviewError>)
    ensures review.None? ==> r == Err(ReviewNotFound)
    ensures review.Some? && HasReported(review.value, user) ==> r == Err(AlreadyReported)
    ensures r.Ok? <==> review.Some? && !HasReported(review.value, user)
    ensures r.Ok? ==> r.value.reported == review.value.reported + [Report(user, reason, now)]
    ensures r.Ok? ==> r.value.reportCount == review.value.reportCount + 1
    ensures r.Ok? ==> r.value == review.value.(reported := r.value.reported, reportCount := r.value.reportCount)
    ensures r.Ok? && ReportsConsistent(review.value) ==> ReportsConsistent(r.value)
  {
    match review
    case None => Err(ReviewNotFound)
    case Some(rv) =>
      if HasReported(rv, user) then Err(AlreadyReported)
      else Ok(rv.(reported := rv.reported + [Report(user, reason, now)], reportCount := rv.reportCount + 1))
  }

  /** A second report by the same user is always refused. */
  lemma SecondReportRefused(rv: Review, user: UserId, reason: string, reason2: string, now: Time, later: Time)
    requires ReportReview(Some(rv), user, reason, now).Ok?
    ensures ReportReview(Some(ReportReview(Some(rv), user, reason, now).value), user, reason2, later)
         == Err(AlreadyReported)
  {
    var once := ReportReview(Some(rv), user, reason, now).value;
    assert once.reported[|rv.reported|].user == user;
  }

  /** `approveReview` / `rejectReview`: the review with the id gets the
      status, whatever it was before. */
  function Moderate(reviews: seq<Review>, reviewId: nat, status: ReviewStatus): (r: Result<seq<Review>, ReviewError>)
    requires status != Pending
    ensures r.Err? <==> FindReview(reviews, reviewId, None).None?
    ensures r.Err? ==> r.error == ReviewNotFound
    ensures r.Ok? ==> var i := FindReview(reviews, reviewId, None).value;
      && r.value == reviews[i := reviews[i].(status := status)]
      && r.value[i].status == status
  {
    match FindReview(reviews, reviewId, None)
    case None => Err(ReviewNotFound)
    case Some(i) => Ok(reviews[i := reviews[i].(status := status)])
  }

  /** The number of reviews counted for a product after replacing one
      review: the old one leaves the count if it was counted, the new one
      joins it if it is. */
  lemma {:induction false} ReplaceCount(reviews: seq<Review>, p: ProductId, i: nat, x: Review)
    requires i < |reviews|
    ensures |ApprovedRatings(reviews[i := x], p)| + (if Counted(reviews[i], p) then 1 else 0)
         == |ApprovedRatings(reviews, p)| + (if Counted(x, p) then 1 else 0)
  {
    if i > 0 {
      ReplaceCount(reviews[1..], p, i - 1, x);
      assert reviews[i := x][1..] == reviews[1..][i - 1 := x];
    } else {
      assert reviews[i := x][1..] == reviews[1..];
    }
  }

  /** Approving a review adds one to its product's rating count unless it
      was already approved; rejecting one takes one away exactly when it was
      approved. */
  lemma ModerationMovesCount(reviews: seq<Review>, reviewId: nat)
    requires FindReview(reviews, reviewId, None).Some?
    ensures var i := FindReview(reviews, reviewId, None).value; var p := reviews[i].product;
      && (reviews[i].status != Approved ==>
            |ApprovedRatings(Moderate(reviews, reviewId, Approved).value, p)| == |ApprovedRatings(reviews, p)| + 1)
      && (reviews[i].status == Approved ==>
            |ApprovedRatings(Moderate(reviews, reviewId, Rejected).value, p)| + 1 == |ApprovedRatings(reviews, p)|)
      && (reviews[i].status == Approved ==>
            |ApprovedRatings(Moderate(reviews, reviewId, Approved).value, p)| == |ApprovedRatings(reviews, p)|)
      && (reviews[i].status != Approved ==>
            |ApprovedRatings(Moderate(reviews, reviewId, Rejected).value, p)| == |ApprovedRatings(reviews, p)|)
  {
    var i := FindReview(reviews, reviewId, None).value;
    ReplaceCount(reviews, reviews[i].product, i, reviews[i].(status := Approved));
    ReplaceCount(reviews, reviews[i].product, i, reviews[i].(status := Rejected));
  }
}

=== FILE: review_model.dfy ===
/** The stored review (models/Review.js) and the product rating that the
    model recomputes after every save: the average, count and per-star
    breakdown over the product's approved reviews. */
module ReviewModel {
  import opened Common

  datatype ReviewStatus = Pending | Approved | Rejected

  datatype Report = Report(user: UserId, reason: string, at: Time)

  datatype Review = Review(
    id: nat,
    product: ProductId,
    user: UserId,
    order: nat,
    rating: int,
    title: string,
    comment: string,
    images: seq<string>,
    status: ReviewStatus,
    isVerifiedPurchase: bool,
    helpful: seq<UserId>,
    helpfulCount: int,
    reported: seq<Report>,
    reportCount: int)

  /** The schema bounds a rating to 1..5. */
  predicate RatingInRange(rating: int) {
    1 <= rating <= 5
  }

  predicate AllRatingsInRange(reviews: seq<Review>) {
    forall i :: 0 <= i < |reviews| ==> RatingInRange(reviews[i].rating)
  }

  /** The unique index on (product, user): one review per user per product. */
  predicate OneReviewPerUser(reviews: seq<Review>) {
    forall i, j :: 0 <= i < j < |reviews| ==>
      reviews[i].product != reviews[j].product || reviews[i].user != reviews[j].user
  }

  /** Whether a review takes part in the product's rating. */
  predicate Counted(r: Review, product: ProductId) {
    r.product == product && r.status == Approved
  }

  /** The ratings of the product's approved reviews, in store order: what the
      aggregation's `$match` keeps and its `$push` collects. */
  function ApprovedRatings(reviews: seq<Review>, product: ProductId): (r: seq<int>)
    ensures |r| <= |reviews|
    ensures AllRatingsInRange(reviews) ==> forall j :: 0 <= j < |r| ==> RatingInRange(r[j])
    ensures (forall i :: 0 <= i < |reviews| ==> !Counted(reviews[i], product)) ==> r == []
  {
    if |reviews| == 0 then []
    else (if Counted(reviews[0], product) then [reviews[0].rating] else [])
         + ApprovedRatings(reviews[1..], product)
  }

  /** Replacing a review that is not counted by another that is not counted
      leaves the product's rating input unchanged: pending and rejected
      reviews never affect the rating. */
  lemma {:induction false} UncountedIrrelevant(reviews: seq<Review>, product: ProductId, i: nat, x: Review)
    requires i < |reviews| && !Counted(reviews[i], product) && !Counted(x, product)
    ensures ApprovedRatings(reviews[i := x], product) == ApprovedRatings(reviews, product)
  {
    if i > 0 {
      UncountedIrrelevant(reviews[1..], product, i - 1, x);
      assert reviews[i := x][1..] == reviews[1..][i - 1 := x];
    } else {
      assert reviews[i := x][1..] == reviews[1..];
    }
  }

  /** How many of the ratings equal `k`. */
  function CountRating(ratings: seq<int>, k: int): (n: nat)
    ensures n <= |ratings|
  {
    if |ratings| == 0 then 0
    else CountRating(ratings[..|ratings| - 1], k) + (if ratings[|ratings| - 1] == k then 1 else 0)
  }

  function Sum(ratings: seq<int>): int {
    if |ratings| == 0 then 0 else Sum(ratings[..|ratings| - 1]) + ratings[|ratings| - 1]
  }

  /** When every rating is a star count 1..5, the five star counts add up to
      the number of ratings. */
  lemma {:induction false} BreakdownCoversAll(ratings: seq<int>)
    requires forall j :: 0 <= j < |ratings| ==> RatingInRange(ratings[j])
    ensures CountRating(ratings, 1) + CountRating(ratings, 2) + CountRating(ratings, 3)
            + CountRating(ratings, 4) + CountRating(ratings, 5) == |ratings|
  {
    if |ratings| > 0 {
      BreakdownCoversAll(ratings[..|ratings| - 1]);
    }
  }

  /** Ratings of 1..5 add up to between one and five times their number. */
  lemma {:induction false} SumBounds(ratings: seq<int>)
    requires forall j :: 0 <= j < |ratings| ==> RatingInRange(ratings[j])
    ensures |ratings| <= Sum(ratings) <= 5 * |ratings|
  {
    if |ratings| > 0 {
      SumBounds(ratings[..|ratings| - 1]);
    }
  }

  /** `ratings` on the product: average, count and stars 1..5 at index 0..4. */
  datatype ProductRating = ProductRating(average: real, count: nat, breakdown: seq<nat>)

  /** The per-star tally that `forEach(rating => breakdown[rating]++)`
      builds: index k holds the number of ratings equal to k + 1. */
  method Breakdown(ratings: seq<int>) returns (b: seq<nat>)
    requires forall j :: 0 <= j < |ratings| ==> RatingInRange(ratings[j])
    ensures |b| == 5
    ensures forall k :: 0 <= k < 5 ==> b[k] == CountRating(ratings, k + 1)
  {
    b := [0, 0, 0, 0, 0];
    var i := 0;
    while i < |ratings|
      invariant 0 <= i <= |ratings|
      invariant |b| == 5
      invariant forall k :: 0 <= k < 5 ==> b[k] == CountRating(ratings[..i], k + 1)
    {
      CountStep(ratings, i);
      var star := ratings[i];
      b := b[star - 1 := b[star - 1] + 1];
      i := i + 1;
    }
    assert ratings[..i] == ratings;
  }

  lemma CountStep(ratings: seq<int>, i: nat)
    requires i < |ratings|
    ensures forall k :: CountRating(ratings[..i + 1], k)
                       == CountRating(ratings[..i], k) + (if ratings[i] == k then 1 else 0)
  {
    assert ratings[..i + 1][..i] == ratings[..i];
  }

  /** `updateProductRating`. With approved reviews, the breakdown counts
      each star, the count is their number and the average their mean; with
      none, everything is zero. */
  method UpdateProductRating(reviews: seq<Review>, product: ProductId) returns (r: ProductRating)
    requires AllRatingsInRange(reviews)
    ensures r.count == |ApprovedRatings(reviews, product)|
    ensures |r.breakdown| == 5
    ensures forall k :: 0 <= k < 5 ==> r.breakdown[k] == CountRating(ApprovedRatings(reviews, product), k + 1)
    ensures r.breakdown[0] + r.breakdown[1] + r.breakdown[2] + r.breakdown[3] + r.breakdown[4] == r.count
    ensures r.count == 0 ==> r.average == 0.0 && r.breakdown == [0, 0, 0, 0, 0]
    ensures r.count > 0 ==> IsMeanOf(r.average, ApprovedRatings(reviews, product))
    ensures r.count > 0 ==> 1.0 <= r.average <= 5.0
  {
    var ratings := ApprovedRatings(reviews, product);
    if |ratings| == 0 {
      return ProductRating(0.0, 0, [0, 0, 0, 0, 0]);
    }
    var breakdown := Breakdown(ratings);
    BreakdownSums(ratings, breakdown);
    r := ProductRating(Mean(ratings), |ratings|, breakdown);
  }

  lemma BreakdownSums(ratings: seq<int>, b: seq<nat>)
    requires forall j :: 0 <= j < |ratings| ==> RatingInRange(ratings[j])
    requires |b| == 5 && forall k :: 0 <= k < 5 ==> b[k] == CountRating(ratings, k + 1)
    ensures b[0] + b[1] + b[2] + b[3] + b[4] == |ratings|
  {
    BreakdownCoversAll(ratings);
    assert b[0] == CountRating(ratings, 1) && b[1] == CountRating(ratings, 2);
    assert b[2] == CountRating(ratings, 3) && b[3] == CountRating(ratings, 4);
    assert b[4] == CountRating(ratings, 5);
  }

  /** `m` times the number of ratings is their sum. */
  predicate IsMeanOf(m: real, ratings: seq<int>) {
    m * (|ratings| as real) == Sum(ratings) as real
  }

  /** `$avg` of a non-empty list of ratings. */
  function Mean(ratings: seq<int>): (m: real)
    requires |ratings| > 0
    requires forall j :: 0 <= j < |ratings| ==> RatingInRange(ratings[j])
    ensures IsMeanOf(m, ratings)
    ensures 1.0 <= m <= 5.0
  {
    SumBounds(ratings);
    var n := |ratings| as real;
    var s := Sum(ratings) as real;
    MeanBounds(s, n);
    s / n
  }

  lemma MeanBounds(s: real, n: real)
    requires n > 0.0 && n <= s <= 5.0 * n
    ensures 1.0 <= s / n <= 5.0
  {
    var m := s / n;
    assert m * n == s;
    assert (m - 1.0) * n == s - n;
    assert (5.0 - m) * n == 5.0 * n - s;
    NonNegativeFactor(m - 1.0, n);
    NonNegativeFactor(5.0 - m, n);
  }

  lemma NonNegativeFactor(x: real, n: real)
    requires n > 0.0 && x * n >= 0.0
    ensures x >= 0.0
  {
  }
}

=== FILE: user_controller.dfy ===
/** The address-book handlers of controllers/userController.js. The book is
    the account's `addresses` sequence; the id the database gives a new
    address is passed in. The invariant kept is that at most one address is
    the default. */
module UserController {
  import opened Common
  import opened UserModel

  datatype AddressError = AddressNotFound

  /** The fields of a request body for a new address. */
  datatype AddressInput = AddressInput(
    street: string, city: string, state: string, zipCode: string, country: string, isDefault: bool)

  /** The fields a request body may carry for an update; absent ones keep
      their value, as with `Object.assign`. */
  datatype AddressPatch = AddressPatch(
    street: Option<string>, city: Option<string>, state: Option<string>,
    zipCode: Option<string>, country: Option<string>, isDefault: Option<bool>)

  /** `addresses.id(id)`: index of the first address with that id. */
  function FindAddress(book: seq<Address>, id: nat): (r: Option<nat>)
    ensures r.Some? ==> r.value < |book| && book[r.value].id == id
    ensures r.Some? ==> forall j :: 0 <= j < r.value ==> book[j].id != id
    ensures r.None? <==> forall j :: 0 <= j < |book| ==> book[j].id != id
  {
    if |book| == 0 then None
    else if book[0].id == id then Some(0)
    else match FindAddress(book[1..], id)
      case None => None
      case Some(i) => Some(i + 1)
  }

  /** Every address with its default flag cleared. */
  function ClearDefaults(book: seq<Address>): (r: seq<Address>)
    ensures |r| == |book|
    ensures forall j :: 0 <= j < |r| ==> r[j] == book[j].(isDefault := false)
  {
    seq(|book|, j requires 0 <= j < |book| => book[j].(isDefault := false))
  }

  /** `addAddress`: a new default address first clears the flag on every
      existing one; the new address is appended at the end. */
  function AddAddress(book: seq<Address>, input: AddressInput, newId: nat): (r: seq<Address>)
    ensures |r| == |book| + 1
    ensures r[|book|] == Address(newId, input.street, input.city, input.state, input.zipCode, input.country, input.isDefault)
    ensures input.isDefault ==> forall j :: 0 <= j < |book| ==> r[j] == book[j].(isDefault := false)
    ensures !input.isDefault ==> r[..|book|] == book
    ensures AtMostOneDefault(book) ==> AtMostOneDefault(r)
  {
    var added := Address(newId, input.street, input.city, input.state, input.zipCode, input.country, input.isDefault);
    if input.isDefault then ClearDefaults(book) + [added] else book + [added]
  }

  /** A new default address is afterwards the only default. */
  lemma AddDefaultIsOnlyDefault(book: seq<Address>, input: AddressInput, newId: nat)
    requires input.isDefault
    ensures var r := AddAddress(book, input, newId);
      forall j :: 0 <= j < |r| ==> (r[j].isDefault <==> j == |book|)
  {
  }

  /** The address after `Object.assign(address, patch)`. */
  function Merge(a: Address, p: AddressPatch): (r: Address)
    ensures r.id == a.id
    ensures r.isDefault == p.isDefault.GetOr(a.isDefault)
    ensures r.street == p.street.GetOr(a.street) && r.city == p.city.GetOr(a.city)
    ensures r.state == p.state.GetOr(a.state) && r.zipCode == p.zipCode.GetOr(a.zipCode)
    ensures r.country == p.country.GetOr(a.country)
  {
    Address(a.id, p.street.GetOr(a.street), p.city.GetOr(a.city), p.state.GetOr(a.state),
            p.zipCode.GetOr(a.zipCode), p.country.GetOr(a.country), p.isDefault.GetOr(a.isDefault))
  }

  /** `updateAddress`: an unknown id is refused; making a non-default
      address the default first clears every flag; then the patch is merged
      into the addressed entry. */
  function UpdateAddress(book: seq<Address>, id: nat, patch: AddressPatch): (r: Result<seq<Address>, AddressError>)
    ensures r.Err? <==> FindAddress(book, id).None?
    ensures r.Ok? ==> |r.value| == |book|
    ensures r.Ok? ==> var i := FindAddress(book, id).value;
      && r.value[i] == Merge(book[i], patch)
      && (patch.isDefault == Some(true) && !book[i].isDefault ==>
            forall j :: 0 <= j < |book| && j != i ==> r.value[j] == book[j].(isDefault := false))
      && (patch.isDefault != Some(true) || book[i].isDefault ==>
            forall j :: 0 <= j < |book| && j != i ==> r.value[j] == book[j])
  {
    match FindAddress(book, id)
    case None => Err(AddressNotFound)
    case Some(i) =>
      var base := if patch.isDefault == Some(true) && !book[i].isDefault then ClearDefaults(book) else book;
      Ok(base[i := Merge(base[i], patch)])
  }

  /** An update keeps at most one default address. */
  lemma UpdateKeepsOneDefault(book: seq<Address>, id: nat, patch: AddressPatch)
    requires AtMostOneDefault(book)
    ensures var r := UpdateAddress(book, id, patch); r.Ok? ==> AtMostOneDefault(r.value)
  {
    var r := UpdateAddress(book, id, patch);
    if r.Ok? {
      var i := FindAddress(book, id).value;
      if patch.isDefault == Some(true) && !book[i].isDefault {
        assert forall j :: 0 <= j < |book| && j != i ==> !r.value[j].isDefault;
      } else if r.value[i].isDefault {
        assert book[i].isDefault;
        assert forall j :: 0 <= j < |book| && j != i ==> !book[j].isDefault;
      }
    }
  }

  /** `deleteAddress`: the addressed entry is removed and the others keep
      their order. The source dereferences the missing subdocument for an
      unknown id, which fails the request; that failure is the error here. */
  function DeleteAddress(book: seq<Address>, id: nat): (r: Result<seq<Address>, AddressError>)
    ensures r.Err? <==> FindAddress(book, id).None?
    ensures r.Ok? ==> var i := FindAddress(book, id).value;
      && |r.value| == |book| - 1
      && (forall j :: 0 <= j < i ==> r.value[j] == book[j])
      && (forall j :: i <= j < |r.value| ==> r.value[j] == book[j + 1])
    ensures r.Ok? && AtMostOneDefault(book) ==> AtMostOneDefault(r.value)
  {
    match FindAddress(book, id)
    case None => Err(AddressNotFound)
    case Some(i) => Ok(book[..i] + book[i + 1..])
  }
}

=== FILE: user_model.dfy ===
/** The stored user (models/User.js): addresses, known IP addresses, the
    verification-code fields, and the login lockout state machine
    `isLocked` / `incLoginAttempts`. Password hashing is not modelled: the
    controllers receive "the password matches" as a boolean. */
module UserModel {
  import opened Common

  datatype Role = Customer | Admin

  datatype Address = Address(
    id: nat,
    street: string,
    city: string,
    state: string,
    zipCode: string,
    country: string,
    isDefault: bool)

  /** An element of `knownIps`. */
  datatype KnownIp = KnownIp(address: string, userAgent: string, firstSeen: Time, lastUsed: Time)

  datatype LoginInfo = LoginInfo(ip: string, device: string, at: Time)

  datatype Account = Account(
    id: UserId,
    role: Role,
    isVerified: bool,
    addresses: seq<Address>,
    verificationCode: Option<string>,
    verificationCodeExpire: Option<Time>,
    loginAttempts: int,
    lockUntil: Option<Time>,
    lastLogin: Option<LoginInfo>,
    knownIps: seq<KnownIp>,
    loginVerificationCode: Option<string>,
    loginVerificationCodeExpire: Option<Time>,
    pendingLoginIp: Option<string>,
    pendingLoginUserAgent: Option<string>)

  /** Failed attempts after which the account locks. */
  const MaxLoginAttempts: int := 5
  /** Thirty minutes, in milliseconds. */
  const LockDuration: int := 30 * 60 * 1000

  /** A freshly registered account carries the schema defaults: role `user`,
      unverified, no failed attempts, no lock. */
  function NewAccount(id: UserId): (a: Account)
    ensures a.role == Customer && !a.isVerified
    ensures a.loginAttempts == 0 && a.lockUntil.None?
  {
    Account(id, Customer, false, [], None, None, 0, None, None, [], None, None, None, None)
  }

  /** `isLocked`: a lock time is set and still in the future. */
  predicate IsLocked(a: Account, now: Time) {
    a.lockUntil.Some? && a.lockUntil.value > now
  }

  /** A lock time is set and already strictly in the past. */
  predicate LockExpired(a: Account, now: Time) {
    a.lockUntil.Some? && a.lockUntil.value < now
  }

  /** `incLoginAttempts`, applied to the stored account: an expired lock
      restarts the count at 1 and is cleared; otherwise the count goes up by
      one, and reaching five attempts locks an account that is not already
      locked for thirty minutes from now. Nothing else changes. */
  function IncLoginAttempts(a: Account, now: Time): (r: Account)
    ensures LockExpired(a, now) ==> r.loginAttempts == 1 && r.lockUntil.None?
    ensures !LockExpired(a, now) ==> r.loginAttempts == a.loginAttempts + 1
    ensures !LockExpired(a, now) && a.loginAttempts + 1 >= MaxLoginAttempts && !IsLocked(a, now) ==>
      r.lockUntil == Some(now + LockDuration)
    ensures !LockExpired(a, now) && a.loginAttempts + 1 < MaxLoginAttempts ==> r.lockUntil == a.lockUntil
    ensures IsLocked(a, now) ==> r.lockUntil == a.lockUntil
    ensures r == a.(loginAttempts := r.loginAttempts, lockUntil := r.lockUntil)
  {
    if a.lockUntil.Some? && a.lockUntil.value < now then
      a.(loginAttempts := 1, lockUntil := None)
    else if a.loginAttempts + 1 >= MaxLoginAttempts && !IsLocked(a, now) then
      a.(loginAttempts := a.loginAttempts + 1, lockUntil := Some(now + LockDuration))
    else
      a.(loginAttempts := a.loginAttempts + 1)
  }

  /** A lock time equal to the current time is neither a lock nor an expired
      lock, so the attempt is counted on top of the old ones and, at five,
      relocks the account. */
  lemma LockBoundary(a: Account, now: Time)
    requires a.lockUntil == Some(now)
    ensures !IsLocked(a, now) && !LockExpired(a, now)
    ensures IncLoginAttempts(a, now).loginAttempts == a.loginAttempts + 1
    ensures a.loginAttempts + 1 >= MaxLoginAttempts ==>
      IsLocked(IncLoginAttempts(a, now), now)
  {
  }

  /** Failed attempts at the given times, one after another. */
  function FailAt(a: Account, times: seq<Time>): Account
    decreases |times|
  {
    if |times| == 0 then a else FailAt(IncLoginAttempts(a, times[0]), times[1..])
  }

  /** From an unlocked account with no failed attempts, up to four failures
      only count; the fifth locks the account for thirty minutes from the
      time of that failure, whenever the five happen. */
  lemma {:induction false} FifthFailureLocks(a: Account, times: seq<Time>)
    requires a.loginAttempts == 0 && a.lockUntil.None?
    requires |times| == 5
    ensures FailAt(a, times[..4]).lockUntil.None?
    ensures FailAt(a, times).loginAttempts == 5
    ensures FailAt(a, times).lockUntil == Some(times[4] + LockDuration)
    ensures IsLocked(FailAt(a, times), times[4])
  {
    FailuresBelowLimitOnlyCount(a, times[..4]);
    FailAtSplit(a, times[..4], times[4..]);
    assert times[..4] + times[4..] == times;
    var b := FailAt(a, times[..4]);
    assert times[4..][1..] == [];
    assert FailAt(a, times) == IncLoginAttempts(b, times[4]);
  }

  lemma {:induction false} FailuresBelowLimitOnlyCount(a: Account, times: seq<Time>)
    requires a.lockUntil.None? && a.loginAttempts >= 0
    requires a.loginAttempts + |times| < MaxLoginAttempts
    ensures FailAt(a, times).lockUntil.None?
    ensures FailAt(a, times).loginAttempts == a.loginAttempts + |times|
    decreases |times|
  {
    if |times| > 0 {
      FailuresBelowLimitOnlyCount(IncLoginAttempts(a, times[0]), times[1..]);
    }
  }

  lemma {:induction false} FailAtSplit(a: Account, xs: seq<Time>, ys: seq<Time>)
    ensures FailAt(a, xs + ys) == FailAt(FailAt(a, xs), ys)
    decreases |xs|
  {
    if |xs| > 0 {
      assert (xs + ys)[1..] == xs[1..] + ys;
      FailAtSplit(IncLoginAttempts(a, xs[0]), xs[1..], ys);
    } else {
      assert xs + ys == ys;
    }
  }

  /** The address book holds at most one default address. */
  predicate AtMostOneDefault(book: seq<Address>) {
    forall i, j :: 0 <= i < j < |book| && book[i].isDefault ==> !book[j].isDefault
  }

  predicate DistinctIps(ips: seq<KnownIp>) {
    forall i, j :: 0 <= i < j < |ips| ==> ips[i].address != ips[j].address
  }
}

=== FILE: wishlist_controller.dfy ===
/** The wishlist handlers of controllers/wishlistController.js as operations
    on the list of product ids. A user without a wishlist document is
    `None`; adding creates one. */
module WishlistController {
  import opened Common

  datatype WishlistError = ProductNotFound | AlreadyInWishlist | WishlistNotFound

  /** `checkWishlist`: whether the product is in the list; false when the
      user has no wishlist. */
  function CheckWishlist(wishlist: Option<seq<ProductId>>, product: ProductId): (r: bool)
    ensures r <==> wishlist.Some? && product in wishlist.value
  {
    match wishlist
    case None => false
    case Some(items) => product in items
  }

  /** `addToWishlist`: an unknown product is refused, then a product already
      present; otherwise it is appended, creating the list if needed. */
  function AddToWishlist(catalog: Catalog, wishlist: Option<seq<ProductId>>, product: ProductId):
    (r: Result<seq<ProductId>, WishlistError>)
    ensures product !in catalog ==> r == Err(ProductNotFound)
    ensures product in catalog && CheckWishlist(wishlist, product) ==> r == Err(AlreadyInWishlist)
    ensures r.Ok? <==> product in catalog && !CheckWishlist(wishlist, product)
    ensures r.Ok? ==> r.value == wishlist.GetOr([]) + [product]
    ensures r.Ok? ==> CheckWishlist(Some(r.value), product)
    ensures r.Ok? && Distinct(wishlist.GetOr([])) ==> Distinct(r.value)
  {
    if product !in catalog then Err(ProductNotFound)
    else
      var items := wishlist.GetOr([]);
      if product in items then Err(AlreadyInWishlist)
      else Ok(items + [product])
  }

  /** `removeFromWishlist`: a missing wishlist is refused; otherwise every
      entry for the product is dropped and the rest keep their order, which
      is a no-op when the product is absent. */
  function RemoveFromWishlist(wishlist: Option<seq<ProductId>>, product: ProductId):
    (r: Result<seq<ProductId>, WishlistError>)
    ensures r.Err? <==> wishlist.None?
    ensures r.Err? ==> r.error == WishlistNotFound
    ensures r.Ok? ==> !CheckWishlist(Some(r.value), product)
    ensures r.Ok? ==> forall q :: q != product ==> (q in r.value <==> q in wishlist.value)
    ensures r.Ok? && product !in wishlist.value ==> r.value == wishlist.value
    ensures r.Ok? && Distinct(wishlist.value) && product in wishlist.value ==>
      |r.value| == |wishlist.value| - 1 && Distinct(r.value)
  {
    match wishlist
    case None => Err(WishlistNotFound)
    case Some(items) =>
      WithoutMembership(items, product);
      if product in items && Distinct(items) then
        DistinctRemoveOne(items, product);
        Ok(Without(items, product))
      else Ok(Without(items, product))
  }

  /** Removing a product just added gives back the list as it was. */
  lemma AddThenRemove(catalog: Catalog, items: seq<ProductId>, product: ProductId)
    requires AddToWishlist(catalog, Some(items), product).Ok?
    ensures RemoveFromWishlist(Some(AddToWishlist(catalog, Some(items), product).value), product) == Ok(items)
  {
    WithoutAppended(items, product);
  }
}
